=== FILE: README.md ===
# Personal growth site: a Dafny model of its page logic

The site is a browser-only personal journal: trips on a province map,
a photo album, reading notes, hobbies with their works and milestones,
a pet diary and a profile page with an avatar and a city picker. Every
page keeps its data in `localStorage` through `StorageManager`
(js/storage.js) and does its own checks, merges and image re-encoding in
plain JavaScript. This project models that logic and proves properties
of the model:

- **Store** and **Photos**: the storage manager's collections.
  - Records are field maps.
  - Add, update-by-id (a `{ ...old, ...updates }` merge) and delete-by-id work on them.
  - `importData` is modelled too.
  - The photo collection is normalised on every read, and the normalisation is idempotent.
- **ImageSize**, **Reencode**, **Avatar**, **Upload**, **FormImage**: the image pipelines.
  - The base64 size estimate and the three clamping rules for image dimensions.
  - The quality-then-shrink re-encoding loop of the album and the trip page, and the avatar compressor.
  - The upload guards and the 800-pixel resize of the hobby and work forms.
- **Album**: tag parsing, the view/category/tag filter, chunked rendering and the tag chips.
- **CityPicker**: normalising the downloaded world tree, the capped search and the location lookup.
- **TripMap** and **TripDetail**:
  - grouping trips by province into map entries;
  - the star rating text;
  - the date checks;
  - the photo upload of a trip.
- **BookNotes**, **NoteDetail**, **EditBook**: the reading-notes pages.
- **Hobbies**, **HobbyForms**, **Works**, **Milestones**, **Months**: the hobby pages and their duration texts.
- **Pets**: the pet page's age text, tags, growth records, likes and calendar grid.

The model has no I/O of its own. Whatever comes from the browser is an
input to the operation:

- whether `localStorage.setItem` succeeds;
- fresh ids and the current time;
- the answer to a `confirm` dialog;
- the decoded size of an image;
- the canvas encoder, a function from a render request to a data URL.

Qualities are integer hundredths. `Math.round` of a quotient is
computed exactly (`ImageSize.RoundDiv`).

## Model

| member | source | states |
|---|---|---|
| Common.Trim | js/pages/album.js:918 | the result is a slice of the input with only white space cut from both ends, and it neither starts nor ends with white space |
| Common.TrimIdempotent | js/pages/album.js:918 | trimming an already trimmed string changes nothing |
| Common.TrimEmptyIffAllSpace | js/pages/book-notes.js:150-155 | a trimmed input is empty exactly when the input is all white space |
| Common.Lower | js/pages/album.js:934-938 | lower-casing keeps the length and maps every character by itself |
| Common.Includes | js/pages/profile.js:783 | `includes` holds exactly when the needle occurs at some position |
| Common.Repeat | js/pages/trip-detail.js:52 | `repeat(n)` gives n copies of the character |
| Common.Split | js/storage.js:179 | `split` gives at least one piece and no piece holds a separator |
| Common.SplitJoin | js/storage.js:179 | splitting a joined list gives the pieces back when no piece holds a separator |
| Common.Tokens | js/storage.js:179 | `split(',').map(trim).filter(Boolean)` gives only non-empty, trimmed pieces without a comma |
| Common.Filter | js/storage.js:193 | `filter` keeps every passing element and nothing else |
| Common.FilterAppend | js/storage.js:137 | filtering preserves order: it distributes over concatenation |
| Common.FilterMultiset | js/storage.js:137 | filtering keeps each passing element as often as it occurs and drops the others |
| Common.FilterDropsOne | js/pages/work-detail.js:155 | filtering out the only failing element is splicing it out |
| Common.FindIndex | js/storage.js:123 | `findIndex` returns the first passing index, or none when no element passes |
| Common.FindIndexAfterSet | js/storage.js:123-125 | replacing the found element by one that still passes keeps the found index |
| Digits.NatToString | js/pages/pets.js:166 | a number prints as digits with no leading zero |
| Digits.IntToString | js/pages/pets.js:166 | a negative number prints as a minus sign followed by its magnitude |
| Digits.ReadNatToString | js/pages/pets.js:166-170 | a printed number is read back from the front of any text that does not go on with a digit |
| Digits.ParseInt | js/pages/edit-book.js:70 | `parseInt` with no radix: a result read after a minus sign is never positive, and one read without it is never negative |
| Digits.MagnitudeIsNumberIff | js/pages/edit-book.js:70 | after the sign, `0x` or `0X` reads hexadecimal digits and anything else decimal ones; a magnitude is read exactly when the first such digit is there |
| Digits.ParseIntIsNumberIff | js/pages/edit-book.js:70 | `parseInt` gives a number (not NaN) exactly when a digit follows the leading white space, one optional sign and the radix prefix, if any |
| Digits.ParseIntSkipsSpace | js/pages/edit-book.js:70 | leading white space does not change what `parseInt` reads |
| Digits.ParseIntOfIntToString | js/pages/edit-book.js:70 | `parseInt` reads back any integer `String(n)` prints, also with text after it that does not continue the number |
| Digits.ParseIntHexExample | js/pages/edit-book.js:70 | `"-0x1F"` reads as -31 |
| Digits.ParseIntDecimalExample | js/pages/edit-book.js:70 | `"3.5"` reads as 3: reading stops at the first non-digit |
| Digits.ParseIntEmptyExample | js/pages/edit-book.js:70 | the empty text is NaN |
| Digits.ParseIntBareHexExample | js/pages/edit-book.js:70 | `"0x"` with no digit after it is NaN |
| Digits.ParseIntSpacedSignExample | js/pages/edit-book.js:70 | white space between the sign and the digits gives NaN |
| ImageSize.CeilBytes | js/pages/album.js:832 | the estimate is the least byte count covering three quarters of the characters |
| ImageSize.CeilBytesVectors | js/pages/album.js:832 | 4 characters are 3 bytes, 8 are 6, and 5 round up to 4 |
| ImageSize.SecondPiece | js/pages/album.js:831 | the payload after the first comma contains no comma |
| ImageSize.SplitCommaLength | js/pages/profile.js:376-377 | `split(',')` has one piece more than the text has commas |
| ImageSize.Base64Size | js/pages/album.js:829-833 | the empty URL counts 0 bytes; otherwise the count is the rounded-up three quarters of the payload's length |
| ImageSize.AvatarBase64Size | js/pages/profile.js:373-381 | a text without a comma counts 0 bytes |
| ImageSize.SizeHelpersAgree | js/pages/profile.js:373-381 | the profile and album estimates agree on every text with a comma; without one the profile counts 0 and the album counts the whole text |
| ImageSize.RoundDiv | js/pages/album.js:909-910 | the result is the nearest integer to the quotient, halves rounding up |
| ImageSize.RoundDivMono | js/pages/album.js:909-910 | rounding a quotient is monotone in the dividend |
| ImageSize.ScaledSize | js/pages/album.js:902-912 | an image that fits is kept; otherwise no side grows, the longer side becomes the limit and the order of the sides is kept |
| ImageSize.ScaledSizeKeepsAspect | js/pages/album.js:907-911 | each scaled side is within half a pixel of its exact proportional value |
| ImageSize.ScaledDimensions | js/pages/profile.js:355-371 | as the album rule, but every side is at least one pixel |
| ImageSize.Resize800 | js/pages/hobby-add.js:89-98 | neither side exceeds 800 or grows; when the image is too big, the longer side becomes 800 and the other is scaled and truncated |
| ImageSize.Shrink800 | js/pages/hobby-add.js:91-96 | the truncated scaled side lies within one pixel below its exact value and never exceeds 800 or the original |
| Reencode.Shrink | js/pages/album.js:887-888 | shrinking to 92% rounds to the nearest pixel and never grows |
| Reencode.Step | js/pages/album.js:884-891 | one turn lowers the JPEG quality by 0.05 down to the floor; otherwise it shrinks both sides while one exceeds 720; otherwise it stops |
| Reencode.Loop | js/pages/album.js:881-893 | the loop ends within 12 re-renders, its output is the encoding of its final state, and it stops only when the output fits, the attempts run out or no step is left; it also never goes on past a render that fits: a first render that fits is the result, and every adjustment made came after a render over the target; quality and size never grow, and the size shrinks only once the quality is at its floor |
| Reencode.PreferredMime | js/pages/album.js:851 | PNG is chosen exactly when the file type mentions `png` |
| Reencode.Pipeline | js/pages/album.js:846-899 | a small original is kept; an image that fails to load rejects; otherwise the result is clamped to the profile's size and settled by the loop, and it is reached from the first render by adjustments each made after a render over the target, so the first render that fits is kept |
| Reencode.OptimizeImageData | js/pages/album.js:835-900 | the album's output has the preferred type on a white canvas for JPEG, and PNG keeps the initial quality |
| Reencode.CompressImageData | js/pages/trip-detail.js:434-492 | the trip page's output is always a white-filled JPEG |
| Reencode.GiveUpOnlyWhenExhausted | js/pages/trip-detail.js:473-486 | a JPEG result still over target, with attempts left, has quality at the floor and both sides at most 720 |
| Reencode.FirstRenderFits | js/pages/album.js:879-882 | a first render that fits is the result, with no re-render |
| Reencode.PrepareImageAssets | js/pages/album.js:799-822 | the album fails only for an image too big to keep that does not load; a small one is both image and thumbnail |
| Reencode.PrepareTripImageAssets | js/pages/trip-detail.js:416-432 | the same for the trip page's two renditions |
| Avatar.ShrinkDimension | js/pages/profile.js:342 | the budget drops by about 10% and never below 128 |
| Avatar.CompressImage | js/pages/profile.js:312-353 | the output encodes its own quality and budget; the budget shrinks only at the minimum quality; the output fits 2 MiB unless both floors are reached; and it stops at the first render within 2 MiB: the result is a number of turns from the starting budget, each taken after a render over 2 MiB, and a first render that fits is kept |
| Avatar.PrepareAvatarData | js/pages/profile.js:288-301 | an accepted avatar never exceeds 2 MiB by the page's estimate; a small one is kept as it is; only a compressed one that fails to load gives a load error; a decoded image is replaced by the compressor's result and refused exactly when that result is still over 2 MiB |
| Avatar.FinalBudgetIsFirstStop | js/pages/profile.js:333-345 | the compressor's final budget is the first one in the turn sequence at which the loop stops, every earlier turn having been taken after a render over 2 MiB |
| Upload.CheckUpload | js/pages/trip-detail.js:305-321 | the file is checked for presence, then type, then size, and accepted exactly when all three pass |
| Upload.CheckUploadMonotone | js/pages/trip-detail.js:317-321 | a raised limit accepts everything a lower one did, and a type refusal does not depend on the limit |
| Upload.FormUploadsFitTripLimit | js/pages/hobby-add.js:74-77 | what the 2 MiB forms accept, the 5 MiB trip page accepts |
| FormImage.SelectImage | js/pages/hobby-add.js:63-118 | refusals match the upload check; a selected image is a 0.7 JPEG drawn at its 800-pixel size, never larger than the decoded image |
| FormImage.SmallImageKeepsSize | js/pages/hobby-add.js:89-98 | an image within 800 pixels is drawn at its own size |
| FormImage.CoverOf | js/pages/hobby-edit.js:202 | the cover is the chosen non-empty image or else the placeholder |
| Store.Spread | js/storage.js:125 | the merged record has both key sets, the update's fields winning |
| Store.Write | js/storage.js:42-50 | a failed write leaves the collection as it was and reports false |
| Store.AddRecord | js/storage.js:107-113 | the collection grows by one record at the end, with the fresh id, the creation time and every other field of the input |
| Store.Merge | js/storage.js:125 | the merged record holds the old and new fields, the new ones winning, stamped with `updatedAt` except for hobbies |
| Store.UpdateRecord | js/storage.js:121-129 | an unknown id writes nothing and reports false; otherwise only the first record with the id changes, to its merge |
| Store.MergeIdempotent | js/storage.js:125 | merging the same update twice is merging it once |
| Store.UpdateIdempotent | js/storage.js:121-129 | repeating an update that keeps the id changes nothing more |
| Store.RemoveById | js/storage.js:136-139 | afterwards no record has the id and every other record keeps its multiplicity |
| Store.RemoveUndoesAdd | js/storage.js:107-139 | deleting a record just added under a fresh id gives back the collection |
| Store.RemoveIdempotent | js/storage.js:136-139 | deleting twice is deleting once |
| Store.CollectionKeysKnown | js/storage.js:8-16 | every collection is stored under one of the declared keys |
| Store.ImportData | js/storage.js:482-495 | only declared keys with truthy backup values are written; every other key keeps its value; the result is false only for a parse failure or `null` |
| Photos.NormalizeTags | js/storage.js:177-179 | normalised tags are all truthy and keep every truthy array entry; a comma string gives trimmed comma-free pieces |
| Photos.NormalizeLikes | js/storage.js:181 | a non-negative stored count is kept; otherwise the count is 1 for a liked photo and 0 for an unliked one |
| Photos.NormalizePhoto | js/storage.js:169-186 | every stored object normalises to the canonical shape, keeping a truthy id and defaulting the category |
| Photos.NormalizeEntries | js/storage.js:163-193 | non-objects are dropped, everything kept is normal, and every object entry survives in its order as its own normal form (the `k`-th object becomes the `k`-th photo) |
| Photos.AnyChanges | js/storage.js:162-190 | a rewrite is due exactly when some entry is dropped or differs from its normal form |
| Photos.GetPhotos | js/storage.js:156-200 | the photos read are all normal, one per object entry of a stored array and in its order, non-array storage reads as none, and the store is rewritten exactly when an entry changed |
| Photos.NormalizeTagsIdempotent | js/storage.js:177-179 | normalising normalised tags changes nothing |
| Photos.NormalizeIsCanonical | js/storage.js:169-186 | with non-empty ids, time and placeholders, a normalised photo is canonical |
| Photos.CanonicalIsFixed | js/storage.js:169-188 | a canonical photo read back from its stored object is itself |
| Photos.NormalizeEntriesOfCanonical | js/storage.js:163-193 | a stored list of canonical photos reads back as itself |
| Photos.NoChangesOfCanonical | js/storage.js:188-190 | a stored list of canonical photos triggers no rewrite |
| Photos.GetPhotosIdempotent | js/storage.js:156-200 | reading back what a read returned gives the same photos and no rewrite |
| Photos.AddPhoto | js/storage.js:207-231 | the new photo is appended, normal, with the fresh id and both stamps set to now; image, thumbnail, title, description, trip, category, tags, liked, likes, uploader and metadata come from the input or their defaults |
| Photos.AddedPhotoReadsBack | js/storage.js:156-231 | a photo added to canonical photos reads back unchanged through the next `getPhotos`, with no rewrite |
| Photos.LikeCount | js/storage.js:247-253 | a like adds one; an unlike takes one away without going below zero |
| Photos.LikeUnlikeRoundTrip | js/storage.js:247-253 | like then unlike restores the count; unlike then like restores it except from zero |
| Photos.UpdatePhotoLike | js/storage.js:239-256 | an unknown id writes nothing; otherwise only the first photo with the id is liked or unliked |
| Photos.Pick | js/storage.js:273-275 | a field present in the update wins over the photo's own |
| Photos.UpdatePhoto | js/storage.js:264-287 | an unknown id writes nothing; otherwise only the first photo with the id is merged: every field an update names overrides the stored one, the rest are kept, a truthy category and truthy tags win (tags normalised), and the update time is set |
| Photos.MergedPhoto | js/storage.js:273-283 | the merge of an update into a stored photo, field by field, including fields the page does not know |
| Photos.DeletePhoto | js/storage.js:311-314 | no photo with the id is left and the others keep their multiplicity |
| Album.ParseTags | js/pages/album.js:914-920 | empty text gives no tags; every tag is non-empty, trimmed and free of both commas |
| Album.ParseJoinedTags | js/pages/album.js:657 | parsing the edit form's `join(', ')` gives back the photo's clean tags |
| Album.NormalizeTag | js/pages/album.js:934-938 | a falsy tag is empty, a string tag is trimmed and lower-cased, and an array tag is its elements joined with commas, then trimmed and lower-cased |
| Album.NormalizeTagOfSingleton | js/pages/album.js:372 | a tag stored as a one-string array matches the filter like the string |
| Album.NormalizeTagArrayExample | js/pages/album.js:934-938 | `["Travel", null, "Sea"]` normalises to `travel,,sea` |
| Album.KeyOfTagIsNormalizeTag | js/pages/album.js:286-288 | the chip key of a trimmed tag is its normalised form |
| Album.PhotoTagKeys | js/pages/album.js:372 | a photo's tag keys are its tags normalised one by one |
| Album.KeepIsShown | js/pages/album.js:357-378 | the page's filter with its uncategorised special case equals the plain statement: liked when required, of the chosen category, carrying every selected tag |
| Album.ApplyFilters | js/pages/album.js:354-395 | exactly the photos that pass are listed, and the first chunk of at most 18 is rendered |
| Album.ApplyFiltersKeepsOrder | js/pages/album.js:357-378 | filtering keeps the photos' order |
| Album.RenderNextChunk | js/pages/album.js:397-418 | the next at most 18 filtered photos are appended, and only a last chunk is short |
| Album.RenderChunksShowPrefix | js/pages/album.js:397-418 | repeated calls show the filtered photos in order, each once |
| Album.RenderNextChunkDone | js/pages/album.js:398-401 | once everything is shown, a further call changes nothing |
| Album.ApplyFiltersThenChunks | js/pages/album.js:381-418 | after filtering and n more calls, the first 18·(n+1) filtered photos are on screen |
| Album.FirstSeenChips | js/pages/album.js:283-293 | one chip per distinct key, labelled with the first tag text having that key |
| Album.SeeText | js/pages/album.js:289-291 | a tag whose key is new adds a chip, and any other tag changes nothing |
| Album.BuildTagChips | js/pages/album.js:280-302 | a photo with a tag that is not text makes the handler throw, leaving no chips and the selection as it was; otherwise there is a chip for every tag key, keys are distinct and first-labelled, and the selection keeps exactly the keys that still have a chip |
| CityPicker.NormalizeCities | js/pages/profile.js:705-714 | only named cities are kept, and the list is empty exactly when no city has a name |
| CityPicker.NormalizeCitiesIsFilterMap | js/pages/profile.js:705-714 | the cities kept are exactly the named ones, in order, each with its cached lower-case name |
| CityPicker.NormalizeStates | js/pages/profile.js:701-716 | only named states that keep a city are kept, and all are well formed |
| CityPicker.NormalizeStatesIsFilterMap | js/pages/profile.js:701-716 | the states kept are exactly the named ones with a named city, in order |
| CityPicker.Normalize | js/pages/profile.js:695-718 | the loaded tree is well formed: no empty country or state, no unnamed city or state, cached lower-case names |
| CityPicker.NormalizeIsFilterMap | js/pages/profile.js:695-718 | the countries kept are exactly the named ones with a kept state, in order |
| CityPicker.NormalizeKeepsNamedCities | js/pages/profile.js:695-718 | a named city of a named state of a named country is still in the tree after normalising, under a state of the same name |
| CityPicker.NormalizeRoundTrip | js/pages/profile.js:695-718 | every well-formed tree is the normal form of some download, so normalising loses nothing a well-formed tree holds |
| CityPicker.NormalizeIdempotent | js/pages/profile.js:695-718 | normalising a normal form again changes nothing |
| CityPicker.InitialActive | js/pages/profile.js:720-723 | after loading, the highlighted country and state are valid positions when anything loaded |
| CityPicker.PerformSearch | js/pages/profile.js:769-819 | a term shorter than 2 finds nothing; results are hits in document order, at most 80; any hit left out comes after all 80 results; the first result is highlighted |
| CityPicker.ScanCities | js/pages/profile.js:789-797 | one state's cities are appended in order until the page holds 80 |
| CityPicker.FindLocation | js/pages/profile.js:1254-1281 | none is found exactly when nothing matches; otherwise the earliest match in document order |
| TripDetail.Stars | js/pages/trip-detail.js:52 | five stars, the first `rating \|\| 3` full; a count outside 0..5 throws |
| TripDetail.StarsShowRating | js/pages/trip-detail.js:52 | the star text shows exactly the rating's number of full stars |
| TripDetail.CheckEdit | js/pages/trip-detail.js:100-118 | the edit proceeds exactly when the form is valid and the end is not before the start |
| TripDetail.CheckEditAcceptsSameDay | js/pages/trip-detail.js:115-118 | a one-day trip, or one with an unparsable date, is never refused for its dates |
| TripDetail.DefaultCategory | js/pages/trip-detail.js:329 | the category is `旅行/` plus the province, or `旅行` when there is no province |
| TripDetail.InferredTags | js/pages/trip-detail.js:330-334 | a non-empty province, city or trimmed title is a tag, nothing else is, the province comes first and the title last |
| TripDetail.InferredTagsInOrder | js/pages/trip-detail.js:330-334 | the tags are exactly the non-empty province, city and trimmed title, in that order |
| TripDetail.SavePhoto | js/pages/trip-detail.js:301-335 | refusals follow the 5 MiB upload check; a ready photo carries the two renditions, the default category and the inferred tags |
| TripMap.Provinces | js/pages/trip.js:258-264 | the distinct provinces, exactly those visited |
| TripMap.ProvincesSnoc | js/pages/trip.js:259-264 | a further trip appends its province only when new |
| TripMap.TripsInSnoc | js/pages/trip.js:263 | a further trip joins the end of its own province's list only |
| TripMap.GroupByProvince | js/pages/trip.js:258-264 | the grouping lists provinces in first-seen order, each with its trips in stored order |
| TripMap.GroupTrip | js/pages/trip.js:259-264 | one trip extends the grouping of the trips before it to include it |
| TripMap.Bucket | js/pages/trip.js:278-283 | the colour bucket is the visit count, capped at 4 |
| TripMap.ColorFor | js/pages/trip.js:278-283 | the colour is the palette entry of the count's bucket |
| TripMap.ColorForDistinguishesBuckets | js/pages/trip.js:278-283 | two counts share a colour exactly when they share a bucket |
| TripMap.Variants | js/pages/trip.js:286 | a mapped province is drawn under its entry in the name map, even an empty one; a province without a mapping is its own only name |
| TripMap.VariantsExample | js/pages/trip.js:18-53 | Beijing has three names; an unmapped name has only itself |
| TripMap.Block | js/pages/trip.js:286-299 | one entry per name variant, all with the same count, trips, date range and colour |
| TripMap.SeriesDataSound | js/pages/trip.js:254-303 | every map entry describes one visited province, and every name variant of every visited province has an entry |
| TripMap.SeriesEntriesCounted | js/pages/trip.js:279-296 | every entry's value is the positive number of its trips and its colour matches |
| TripMap.GenerateMapSeriesData | js/pages/trip.js:254-303 | the series built by the loop equals the reference series |
| TripMap.OwnNameIsVariant | js/pages/trip.js:18-53 | every province is among its own name variants |
| TripMap.ParseRating | js/pages/trip.js:436 | an empty rating counts as 3; any other value is read by `parseInt` |
| TripMap.DefaultRating | js/pages/trip.js:436 | the default text `'3'` reads as 3 |
| TripMap.ParseRatingOfNumber | js/pages/trip.js:436 | a rating written as a decimal number is read back |
| TripMap.SaveTrip | js/pages/trip.js:409-459 | the trip is refused for invalid fields, then for dates out of order; otherwise it is added with its province, dates, typed description and companions, and its parsed rating |
| TripMap.SaveTripAgreesWithEdit | js/pages/trip.js:424-427 | adding a trip and editing one refuse exactly the same date pairs |
| BookNotes.Ids | js/pages/book-notes.js:359 | the ids of the notes, in order |
| BookNotes.AddNote | js/pages/book-notes.js:149-175 | blank input is refused; a new note goes in front; a failed write restores the list |
| BookNotes.AddNotePreserves | js/pages/book-notes.js:149-175 | adding keeps the page in step with the store, and a fresh id keeps ids distinct |
| BookNotes.EnterEditMode | js/pages/book-notes.js:294-309 | exactly the chosen note is in edit mode |
| BookNotes.AtMostOneEditing | js/pages/book-notes.js:197 | with distinct ids at most one note shows an edit box |
| BookNotes.SaveNoteEdit | js/pages/book-notes.js:311-337 | only the content of the first note with the id changes; a failed write restores the page |
| BookNotes.SaveNoteEditPreserves | js/pages/book-notes.js:311-337 | editing keeps the page in step with the store and the ids distinct |
| BookNotes.ConfirmDeleteAsWritten | js/pages/book-notes.js:356-373 | the handler as written: with no pending or unknown id nothing changes; otherwise the note is spliced out of the page either way, and only a successful write stores the list and clears the pending id, while a failed one leaves the store and the pending id |
| BookNotes.DeleteAsWrittenLosesSync | js/pages/book-notes.js:362-372 | a failed delete leaves the page without a note the store still holds |
| BookNotes.DeleteAsWrittenThenAddDropsNote | js/pages/book-notes.js:163-166 | the next successful add then stores the list without that note |
| BookNotes.ConfirmDelete | js/pages/book-notes.js:356-373 | the corrected handler: a found note is deleted exactly when the write succeeds, a failed write keeps the whole page, and success splices out the note |
| BookNotes.ConfirmDeletePreserves | js/pages/book-notes.js:356-373 | the corrected delete keeps the page in step with the store and removes exactly the notes with the id |
| BookNotes.ConfirmDeleteAgreesOnSuccess | js/pages/book-notes.js:365-369 | both handlers agree whenever the write succeeds |
| BookNotes.Preview | js/pages/book-notes.js:199-201 | content up to 150 characters is shown whole; longer content shows its first 150 followed by exactly `...` |
| BookNotes.PreviewIsPrefixed | js/pages/book-notes.js:199-201 | a preview starts with as much of the content as it holds |
| NoteDetail.LoadData | js/pages/note-detail.js:91-118 | the book is missing exactly when no book has the id; the book shown is the first with the id, and the note shown is its first note with the note id |
| NoteDetail.NotesOf | js/pages/note-detail.js:103-105 | missing notes read as an empty list |
| NoteDetail.NonBlankLines | js/pages/note-detail.js:229 | the paragraphs are non-blank and contain no line break |
| NoteDetail.FormatNoteContent | js/pages/note-detail.js:222-234 | the text is empty exactly when the content is empty or has no non-blank line |
| NoteDetail.FormatReadsBack | js/pages/note-detail.js:222-234 | the rendered note reads back as the non-blank lines of the escaped text, in order |
| NoteDetail.ReadHtml | js/pages/note-detail.js:233 | paragraphs without `<` read back as their lines |
| NoteDetail.EditNote | js/pages/note-detail.js:158-183 | blank input is refused; only the note with the id gets the new content and update time |
| NoteDetail.DeleteNote | js/pages/note-detail.js:195-207 | every note with the id is filtered out and the others keep their multiplicity |
| NoteDetail.DeleteAgreesWithListPage | js/pages/note-detail.js:197 | with distinct ids the detail page and the list page delete the same way |
| EditBook.Submit | js/pages/edit-book.js:64-107 | a missing name is refused; edit mode keeps the stored cover and notes; add mode takes the placeholder and no notes |
| EditBook.EditKeepsNotes | js/pages/edit-book.js:81-89 | editing a book's details never loses its notes |
| Months.MonthsBetween | js/pages/pets.js:163 | the span counts whole calendar months between the two months |
| Months.AddMonths | js/pages/pets.js:163 | adding months keeps the month in 0..11 and moves by the given count |
| Months.MonthsBetweenAddMonths | js/pages/pets.js:163 | counting to a month n months later gives n |
| Months.YearsText | js/pages/pets.js:168-170 | a span prints as its whole years, then any leftover months |
| Months.ReadYearsText | js/pages/pets.js:168-170 | a years text determines the number of months it came from |
| Pets.AgeText | js/pages/pets.js:160-172 | under a year the age is in months; otherwise in years and leftover months |
| Pets.AgeTextReadsBack | js/pages/pets.js:160-172 | every age text reads back as its number of months |
| Pets.AgeTextInjective | js/pages/pets.js:160-172 | two different ages never show the same text |
| Pets.AddTag | js/pages/pets.js:377-391 | blank and duplicate tags are refused, anything else is appended, and no duplicate is ever added |
| Pets.RemoveTag | js/pages/pets.js:393-396 | the tag at the index is spliced out, and an index past the end changes nothing |
| Pets.RemoveTagKeepsDistinct | js/pages/pets.js:393-396 | removing keeps the tags distinct |
| Pets.RemoveUndoesAddTag | js/pages/pets.js:377-396 | removing the tag just added restores the list |
| Pets.FormRecord | js/pages/pets.js:497-504 | the record keeps the edited id or takes the new one |
| Pets.UpsertWeight | js/pages/pets.js:515-526 | the weight record replaces the first one with its id, leaving the rest, or is appended |
| Pets.SaveGrowthRecord | js/pages/pets.js:485-536 | the handler with the notice corrected: a date and title are required; an edit replaces the first record with the id, otherwise the record is appended; weight records are mirrored; the notice says "updated" for an edit |
| Pets.SaveGrowthRecordAsWritten | js/pages/pets.js:485-536 | the handler as written: it stores exactly what the corrected handler stores, but always announces an added record |
| Pets.SaveNoticeAsWritten | js/pages/pets.js:533-535 | the notice as written is "added" whatever was saved, so it differs from the corrected one for every edit |
| Pets.SaveNotice | js/pages/pets.js:535 | the corrected notice says "updated" exactly for an edit |
| Pets.SaveNoticeAsWrittenMisreportsEdits | js/pages/pets.js:533-535 | as written, saving an edit announces an added record |
| Pets.RemoveAt | js/pages/pets.js:549 | `splice(i, 1)` removes exactly element i |
| Pets.DeleteGrowthRecord | js/pages/pets.js:538-559 | an unknown id changes nothing; otherwise the first record goes, and for a weight record its first weight entry too |
| Pets.DeleteUndoesSave | js/pages/pets.js:485-559 | deleting a record just saved under a fresh id restores the lists |
| Pets.TogglePhotoLike | js/pages/pets.js:660-669 | only the first photo with the id flips; its count moves by one and never drops below 0 |
| Pets.ToggleTwiceRestores | js/pages/pets.js:660-669 | liking then unliking restores the photo |
| Pets.ToggleKeepsLikesNonNegative | js/pages/pets.js:665 | like counts stay non-negative |
| Pets.CalendarCells | js/pages/pets.js:725-730 | the grid is whole weeks holding the month, with less than a week of padding |
| Pets.CalendarCellsFewest | js/pages/pets.js:725 | no shorter whole-week grid holds the month |
| Hobbies.WorksOf | js/pages/hobby-detail.js:38 | missing works read as an empty list |
| Hobbies.MilestonesOf | js/pages/hobby-detail.js:39 | missing milestones read as an empty list |
| Hobbies.FindHobby | js/pages/hobby-detail.js:27 | the first hobby with the id, none for a null id |
| Hobbies.UpdateHobby | js/storage.js:394-402 | an unknown id is refused; otherwise only the first hobby with the id is updated |
| Hobbies.FindHobbyAfterUpdate | js/storage.js:396-398 | an update that keeps the id leaves the hobby first with that id |
| Hobbies.FirstWithIdUnique | js/storage.js:396 | the first hobby with an id is unique |
| Hobbies.DurationText | js/pages/hobbies.js:58-77 | no date is unknown; an unparsable date prints `NaN年`; under a month prints as under one month; under a year prints the months; from a year on prints the years and any leftover months |
| Hobbies.DurationReadsBack | js/pages/hobby-detail.js:320-339 | a duration of a month or more reads back as its month count |
| Hobbies.DurationTextInjective | js/pages/hobbies.js:58-77 | different month counts give different texts |
| Hobbies.ExportHobbies | js/pages/hobbies.js:129-150 | an empty list is refused, and anything else is exported unchanged |
| Hobbies.ImportHobbies | js/pages/hobbies.js:153-186 | parse errors and non-arrays fail; an overwrite needs confirmation; an import stores the parsed items |
| Hobbies.ImportIgnoresAnswerWhenEmpty | js/pages/hobbies.js:165-169 | with nothing stored the overwrite question is never consulted |
| Hobbies.InitDetail | js/pages/hobby-detail.js:15-42 | missing and unknown ids are told apart; an opened hobby has its lists defaulted to empty |
| Hobbies.DeleteMilestone | js/pages/hobby-detail.js:258-270 | without confirmation or on a failed write nothing changes; otherwise exactly the milestones with the id go |
| Hobbies.DeleteMilestoneKeepsSync | js/pages/hobby-detail.js:261-264 | deleting keeps the timeline equal to the stored milestones |
| Hobbies.Timeline | js/pages/hobby-detail.js:134-136 | the timeline is a newest-first permutation of the milestones |
| Hobbies.Insert | js/pages/hobby-detail.js:134-136 | inserting into a newest-first list keeps it newest-first and adds exactly the milestone |
| Hobbies.TimelineStable | js/pages/hobby-detail.js:134-136 | milestones of the same day keep their stored order |
| HobbyForms.Validate | js/pages/hobby-add.js:182-190 | the name is checked before the start date, and both are required |
| HobbyForms.NewHobby | js/pages/hobby-add.js:171-179 | the new hobby carries the trimmed fields and empty works and milestones |
| HobbyForms.AddHobby | js/pages/hobby-add.js:168-221 | validation, then the 1 MiB JSON limit, then the write; a stored hobby is appended |
| HobbyForms.AddedHobbyOpens | js/pages/hobby-detail.js:15-42 | a hobby just added opens on the detail page with empty lists |
| HobbyForms.LargeCoverNeverAdded | js/pages/hobby-add.js:195-201 | a cover over 1 MiB can never be added |
| HobbyForms.InitEdit | js/pages/hobby-edit.js:15-53 | missing and unknown ids are told apart; the edited hobby is the first with the id and its cover is preselected |
| HobbyForms.Merged | js/pages/hobby-edit.js:200-206 | the form's fields replace the old ones; id, works and milestones stay |
| HobbyForms.EditHobby | js/pages/hobby-edit.js:197-233 | an edit is stored exactly when the form is valid, the write succeeds and the hobby exists, and only that hobby is merged |
| HobbyForms.EditKeepsTheRest | js/pages/hobby-edit.js:197-233 | other hobbies, and the id, works and milestones of the edited one, are kept |
| HobbyForms.UntouchedEditChangesNothing | js/pages/hobby-edit.js:42-53 | saving the edit form untouched gives back the stored hobbies |
| Works.Validate | js/pages/work-add.js:189-197 | the title is checked before the date, and both are required |
| Works.NewWork | js/pages/work-add.js:180-186 | the new work carries the trimmed fields and the image |
| Works.WithWorks | js/pages/work-add.js:207-212 | only the chosen hobby's works change |
| Works.AddWork | js/pages/work-add.js:177-224 | the work is appended to the first hobby with the id, whose missing list is created |
| Works.OpenWork | js/pages/work-edit.js:17-49 | missing parameters, hobby and work are told apart; a shown work belongs to the first hobby with the id |
| Works.AddedWorkOpens | js/pages/work-detail.js:16-48 | a work just added opens on the work pages |
| Works.MergedWork | js/pages/work-edit.js:225 | the form's fields replace the old ones and the id stays |
| Works.FindWork | js/pages/work-edit.js:219-223 | the first work with the id, none for a null id |
| Works.EditWork | js/pages/work-edit.js:193-240 | a valid edit of an existing work is stored exactly when the write succeeds; only the first matching work of the first matching hobby is merged; a missing works list crashes the handler |
| Works.EditedWorkOpens | js/pages/work-edit.js:17-49 | after an edit the work opens with the form's fields under its old id |
| Works.DeleteWork | js/pages/work-detail.js:147-166 | every work with the id leaves the hobby; a missing works list crashes the handler |
| Works.DeleteSplicesOut | js/pages/work-detail.js:155 | with distinct ids deleting splices out exactly that work |
| Works.DeleteUndoesAdd | js/pages/work-detail.js:147-166 | deleting a work just added gives back the hobby's works |
| Works.DropAdded | js/pages/work-detail.js:155 | filtering out an appended work with a new id gives the list back |
| Milestones.Validate | js/pages/milestone-add.js:71-79 | the date is checked before the title, and both are required |
| Milestones.NewMilestone | js/pages/milestone-add.js:63-68 | the new milestone carries the date and the trimmed fields |
| Milestones.WithMilestones | js/pages/milestone-add.js:89-94 | only the chosen hobby's milestones change |
| Milestones.AddMilestone | js/pages/milestone-add.js:60-106 | the milestone is appended to the first hobby with the id, whose missing list is created |
| Milestones.AddedMilestoneShown | js/pages/hobby-detail.js:15-42 | a milestone just added is the last one the detail page shows |
| Milestones.DeleteUndoesAdd | js/pages/hobby-detail.js:258-270 | deleting a milestone just added gives back the hobby's milestones |
| Milestones.OpenMilestone | js/pages/milestone-edit.js:16-48 | missing parameters, hobby and milestone are told apart; an opened milestone belongs to the first hobby with the id |
| Milestones.MergedMilestone | js/pages/milestone-edit.js:117 | the form's fields replace the old ones and the id stays |
| Milestones.FindMilestone | js/pages/milestone-edit.js:110-115 | the first milestone with the id, none for a null id |
| Milestones.EditMilestone | js/pages/milestone-edit.js:83-133 | a valid edit of an existing milestone is stored exactly when the write succeeds; only the first matching milestone of the first matching hobby is merged; a missing list crashes the handler |
| Milestones.EditedMilestoneOpens | js/pages/milestone-edit.js:16-48 | after an edit the milestone opens with the form's fields, and the detail page shows as many milestones as before |

## Left out

- Browser I/O is not modelled:
  - `localStorage` itself;
  - `FileReader`;
  - image decoding;
  - the canvas;
  - `fetch`.

  Each enters an operation as a parameter: the write result, the decoded size, the encoder function, the parsed download.
- Toasts, alerts, modals, timers, navigation, ECharts rendering and DOM updates are presentation only and not modelled.
- `generateId`, `Date.now()`, `new Date()` and `Math.random` are not modelled. Fresh ids and times are inputs, because they come from the clock and the random source.
- Floating point is not modelled.
  - Qualities are integer hundredths.
  - Image sides are natural numbers.
  - Weights stay the typed text, because `parseFloat` is not modelled.
  - `avgRating` of the map series is left out, because it is a floating-point mean used only for display.
- Date parsing is not modelled. A date is given as a day number or a year and month, and `None` stands for an invalid date.
- The JSON text is not modelled:
  - `JSON.stringify` lengths enter as the `jsonLength` parameter;
  - the key order in `getPhotos`'s `JSON.stringify` comparison is not modelled, and the comparison is map equality.
- `localeCompare` ordering of the tag chips is not modelled. The chips are produced in first-seen order and the model states their content, not their sorted order.
- `escapeHtml` is a parameter of `NoteDetail.FormatNoteContent`, because it goes through the DOM.
- The translation requests of the city picker (`translateAndSearch`, `getLocalizedName`) go to the network and are not modelled.
- The column rendering and selection handlers of the city picker are presentation only and not modelled.
- js/nav.js, js/index.js and data/china-map.js are navigation and map data, not page logic.
- `getTrips`, `getBooks`, `getHobbies` and `getPets` can return non-array values stored by hand. The model only uses arrays for them. Only `getPhotos` checks this, and it is modelled.
- Common.Trim: removes only the common white-space characters (ASCII white space, no-break space, ideographic space, byte-order mark). The rarer Unicode spaces that `String.prototype.trim` also removes are not modelled.
- Common.Lower: lower-cases only ASCII letters. The full Unicode case mapping of `toLowerCase` is not modelled.
- Digits.ParseInt: skips the same white space as Common.Trim, so the rarer Unicode spaces in front of a number read as NaN here. A digit sequence too long for a double, which `parseInt` rounds, is read exactly.
- BookNotes.Preview: counts the 150 characters in Unicode scalar values, while `length` and `substring` count UTF-16 code units. Text outside the Basic Multilingual Plane gets a longer preview here, and the page can cut such a character in half.
- CityPicker.PerformSearch: measures the 2-character minimum term in Unicode scalar values, while `length` counts UTF-16 code units. A single character outside the Basic Multilingual Plane is searched by the page but not here.
- Photos.UpdatePhotoLike: requires normal photos, because it always works on the output of `getPhotos`, which is normal (`Photos.GetPhotos`).
- Photos.UpdatePhoto: requires normal photos, for the same reason.
- Store.ImportData: a backup that parses to `undefined` is not modelled, because `JSON.parse` never produces one.
- TripMap.GenerateMapSeriesData: lists provinces in insertion order. `Object.entries` puts integer-like keys first, which province names never are.
- TripDetail.Stars: the rating is an integer. A fractional rating makes `repeat` truncate, and that is not modelled.
- `addHobby` stamps `createdAt` on a new hobby, and the `Hobby` datatype does not carry it. The stamp is shown by `Store.AddRecord`.

## Findings

| source | as written | input that shows it | evidently intended | confidence | as-written member | corrected member |
|---|---|---|---|---|---|---|
| js/pages/pets.js:533-535 | `closeAddGrowthModal()` resets `currentEditingGrowthId` before the notice is chosen, so the notice is always "记录已添加" | edit growth record 5 and save it: "记录已添加" is shown | "记录已更新" after an edit | high, not executed | Pets.SaveGrowthRecordAsWritten (Pets.SaveNoticeAsWritten, Pets.SaveNoticeAsWrittenMisreportsEdits) | Pets.SaveGrowthRecord (Pets.SaveNotice) |
| js/pages/book-notes.js:356-373 | the note is spliced out of the page's list before the write, and a failed write does not put it back, unlike `handleAddNote` and `saveNoteEdit` | a page in step with the store, deleting note "a" while the write fails: the page no longer lists "a", and the next successful add stores the list without it | roll back the splice when `updateBook` fails | high, not executed | BookNotes.ConfirmDeleteAsWritten (BookNotes.DeleteAsWrittenLosesSync, BookNotes.DeleteAsWrittenThenAddDropsNote) | BookNotes.ConfirmDelete (BookNotes.ConfirmDeletePreserves) |

=== FILE: album.dfy ===
/** The album page's filtering logic (js/pages/album.js): parsing the tag
    field of the upload and edit forms, the view / category / tag filter,
    chunked rendering of the filtered photos, and the tag chips built from
    every photo's tags.

    The album works on the photos `getPhotos` returns, so the `Photo`
    datatype of the photo store is reused here.
 */
module Album {
  import opened Common
  import opened Store
  import opened Photos

  // ---------------------------------------------------------------------
  // Tags

  /** The separators of `/[,，]/`: the ASCII and the full-width comma. */
  predicate IsTagSep(c: char) {
    c == ',' || c == '，'
  }

  /** A tag as `parseTags` produces it. */
  predicate CleanTag(t: string) {
    t != "" && IsTrimmed(t) && NoSep(t, IsTagSep)
  }

  /** `parseTags(text)`: the trimmed non-empty pieces between commas, in
      order. */
  function ParseTags(text: string): (r: seq<string>)
    ensures text == "" ==> r == []
    ensures forall k | 0 <= k < |r| :: CleanTag(r[k])
  {
    if text == "" then [] else Tokens(text, IsTagSep)
  }

  /** `tags.join(', ')`, how the edit form shows a photo's tags. */
  function JoinTags(tags: seq<string>): string {
    if |tags| == 0 then "" else tags[0] + JoinTail(tags[1..])
  }

  function JoinTail(tags: seq<string>): string {
    if |tags| == 0 then "" else ", " + tags[0] + JoinTail(tags[1..])
  }

  /** Every tag with a space in front, the pieces `split` cuts from the
      tail of a joined list. */
  function Spaced(tags: seq<string>): (r: seq<string>)
    ensures |r| == |tags|
    ensures forall k | 0 <= k < |r| :: r[k] == " " + tags[k]
  {
    seq(|tags|, k requires 0 <= k < |tags| => " " + tags[k])
  }

  lemma {:induction false} SplitJoinTail(p: string, tags: seq<string>)
    requires NoSep(p, IsTagSep)
    requires forall k | 0 <= k < |tags| :: NoSep(tags[k], IsTagSep)
    ensures Split(p + JoinTail(tags), IsTagSep) == [p] + Spaced(tags)
    decreases |tags|
  {
    if |tags| == 0 {
      assert p + JoinTail(tags) == p;
      SplitPiece(p, IsTagSep);
    } else {
      var q := " " + tags[0];
      assert NoSep(q, IsTagSep) by {
        forall i | 0 <= i < |q| ensures !IsTagSep(q[i]) {
          if i > 0 { assert q[i] == tags[0][i - 1]; }
        }
      }
      SplitJoinTail(q, tags[1..]);
      var rest := q + JoinTail(tags[1..]);
      assert p + JoinTail(tags) == p + [','] + rest;
      SplitPieceThenSep(p, ',', rest, IsTagSep);
      assert Spaced(tags) == [q] + Spaced(tags[1..]);
    }
  }

  /** Trimming a space put in front of a trimmed non-empty tag gives the
      tag back. */
  lemma TrimSpaced(t: string)
    requires t != "" && IsTrimmed(t)
    ensures Trim(" " + t) == t
  {
    var s := " " + t;
    assert s[1..] == t;
    assert LeadingSpace(s) == 1;
    assert TrailingSpace(s) == 0;
  }

  lemma {:induction false} TrimPiecesSpaced(tags: seq<string>)
    requires forall k | 0 <= k < |tags| :: CleanTag(tags[k])
    ensures TrimPieces(Spaced(tags), IsTagSep) == tags
    decreases |tags|
  {
    if |tags| > 0 {
      TrimSpaced(tags[0]);
      assert Spaced(tags)[1..] == Spaced(tags[1..]);
      TrimPiecesSpaced(tags[1..]);
    }
  }

  /** Opening the edit form and saving it unchanged gives back the tags the
      photo had, as long as they are tags `parseTags` could have produced. */
  lemma ParseJoinedTags(tags: seq<string>)
    requires forall k | 0 <= k < |tags| :: CleanTag(tags[k])
    ensures ParseTags(JoinTags(tags)) == tags
  {
    if |tags| > 0 {
      SplitJoinTail(tags[0], tags[1..]);
      TrimOfTrimmed(tags[0]);
      TrimPiecesSpaced(tags[1..]);
      assert JoinTags(tags) != "" by {
        assert |JoinTags(tags)| >= |tags[0]|;
      }
    }
  }

  /** `normalizeTag(tag)`: `String(tag || '').trim().toLowerCase()`. */
  function NormalizeTag(v: Value): (r: string)
    ensures !Truthy(v) ==> r == ""
    ensures v.Str? ==> r == Lower(Trim(v.s))
    ensures v.Arr? ==> r == Lower(Trim(JoinElements(v.items)))
  {
    Lower(Trim(JsString(Or(v, Str("")))))
  }

  /** A tag stored as a one-string array (an imported backup can hold one)
      normalises like the string itself, so it still matches the filter. */
  lemma NormalizeTagOfSingleton(s: string)
    ensures NormalizeTag(Arr([Str(s)])) == NormalizeTag(Str(s))
  {
    assert JoinElements([Str(s)]) == s;
  }

  /** The elements of an array tag are joined with commas, `null` printing
      as nothing. */
  lemma NormalizeTagArrayExample()
    ensures NormalizeTag(Arr([Str("Travel"), Null, Str("Sea")])) == "travel,,sea"
  {
    var items := [Str("Travel"), Null, Str("Sea")];
    assert JoinElements(items[2..]) == "Sea";
    assert JoinElements(items[1..]) == ",Sea";
    assert JoinElements(items) == "Travel,,Sea";
    TrimOfTrimmed("Travel,,Sea");
    assert Lower("Travel,,Sea") == "travel,,sea";
  }

  /** `photo.tags || []`; after `getPhotos` the tags are always an array. */
  function TagValues(p: Photo): seq<Value> {
    if p.tags.Arr? then p.tags.items else []
  }

  // ---------------------------------------------------------------------
  // The filter

  datatype View = All | Liked

  /** The category filter: `'all'` or one category name. */
  datatype CategoryFilter = AnyCategory | OnlyCategory(name: string)

  /** `photo.category || '未分类'`. */
  function CategoryOf(p: Photo): Value {
    Or(p.category, Str(Uncategorized))
  }

  /** The three tests of the `applyFilters` callback, in its order. */
  predicate Keep(p: Photo, view: View, category: CategoryFilter, tags: set<string>) {
    if view == Liked && !Truthy(p.liked) then false
    else if category.OnlyCategory? && category.name == Uncategorized && CategoryOf(p) != Str(Uncategorized) then false
    else if category.OnlyCategory? && category.name != Uncategorized && CategoryOf(p) != Str(category.name) then false
    else if |tags| > 0 && !(forall t | t in tags :: t in PhotoTagKeys(p)) then false
    else true
  }

  /** The normalised tags of a photo. */
  function PhotoTagKeys(p: Photo): (r: seq<string>)
    ensures |r| == |TagValues(p)|
    ensures forall k | 0 <= k < |r| :: r[k] == NormalizeTag(TagValues(p)[k])
  {
    var tags := TagValues(p);
    seq(|tags|, k requires 0 <= k < |tags| => NormalizeTag(tags[k]))
  }

  /** What a photo must satisfy to be shown, stated without the page's
      special case for the uncategorised filter: liked when the view is
      "liked", of the chosen category (a missing one counting as
      uncategorised), and carrying every selected tag. */
  predicate Shown(p: Photo, view: View, category: CategoryFilter, tags: set<string>) {
    && (view == Liked ==> Truthy(p.liked))
    && (category.OnlyCategory? ==> CategoryOf(p) == Str(category.name))
    && (forall t | t in tags :: t in PhotoTagKeys(p))
  }

  lemma KeepIsShown(p: Photo, view: View, category: CategoryFilter, tags: set<string>)
    ensures Keep(p, view, category, tags) <==> Shown(p, view, category, tags)
  {
  }

  /** The photos of the filtered list and how many of them are in the
      gallery. */
  datatype Gallery = Gallery(filtered: seq<Photo>, rendered: nat)

  const ChunkSize: nat := 18

  /** `applyFilters()`: the photos passing the filter, in their order, with
      the gallery cleared and the first chunk rendered. */
  function ApplyFilters(photos: seq<Photo>, view: View, category: CategoryFilter, tags: set<string>): (g: Gallery)
    ensures |g.filtered| <= |photos|
    ensures forall k | 0 <= k < |g.filtered| :: g.filtered[k] in photos && Shown(g.filtered[k], view, category, tags)
    ensures forall p | p in photos :: p in g.filtered <==> Shown(p, view, category, tags)
    ensures g.rendered == if |g.filtered| < ChunkSize then |g.filtered| else ChunkSize
  {
    var keep := (p: Photo) => Keep(p, view, category, tags);
    var filtered := Filter(photos, keep);
    forall p | p in photos ensures p in filtered <==> Shown(p, view, category, tags) {
      KeepIsShown(p, view, category, tags);
    }
    forall k | 0 <= k < |filtered| ensures Shown(filtered[k], view, category, tags) {
      KeepIsShown(filtered[k], view, category, tags);
    }
    var cleared := Gallery(filtered, 0);
    if |filtered| == 0 then cleared else RenderNextChunk(cleared).0
  }

  /** The filter keeps the photos' order: filtering a list made of two parts
      filters each part in turn. */
  lemma ApplyFiltersKeepsOrder(a: seq<Photo>, b: seq<Photo>, view: View, category: CategoryFilter, tags: set<string>)
    ensures ApplyFilters(a + b, view, category, tags).filtered
      == ApplyFilters(a, view, category, tags).filtered + ApplyFilters(b, view, category, tags).filtered
  {
    FilterAppend(a, b, (p: Photo) => Keep(p, view, category, tags));
  }

  // ---------------------------------------------------------------------
  // Chunked rendering

  /** `renderNextChunk()`: appends the next at most 18 filtered photos to
      the gallery; returns the new state and the photos appended. */
  function RenderNextChunk(g: Gallery): (r: (Gallery, seq<Photo>))
    ensures r.0.filtered == g.filtered
    ensures g.rendered >= |g.filtered| ==> r.0 == g && r.1 == []
    ensures g.rendered < |g.filtered| ==>
      && g.rendered < r.0.rendered <= |g.filtered|
      && r.0.rendered <= g.rendered + ChunkSize
      && (r.0.rendered < |g.filtered| ==> r.0.rendered == g.rendered + ChunkSize)
      && r.1 == g.filtered[g.rendered..r.0.rendered]
  {
    if g.rendered >= |g.filtered| then (g, [])
    else
      var end := if g.rendered + ChunkSize < |g.filtered| then g.rendered + ChunkSize else |g.filtered|;
      var next := g.filtered[g.rendered..end];
      (Gallery(g.filtered, g.rendered + |next|), next)
  }

  /** The photos on screen after `n` further calls of `renderNextChunk`,
      starting from gallery `g`. */
  function RenderChunks(g: Gallery, n: nat): (r: (Gallery, seq<Photo>))
    decreases n
  {
    if n == 0 then (g, [])
    else
      var step := RenderNextChunk(g);
      var more := RenderChunks(step.0, n - 1);
      (more.0, step.1 + more.1)
  }

  function Min(a: int, b: int): int {
    if a < b then a else b
  }

  /** Rendering chunk by chunk from a cleared gallery shows the filtered
      photos in order, each once, `18 * n` of them after `n` calls (or all
      of them, when fewer). */
  lemma {:induction false} RenderChunksShowPrefix(g: Gallery, n: nat)
    requires g.rendered <= |g.filtered|
    ensures var r := RenderChunks(g, n);
      && r.0.filtered == g.filtered
      && r.0.rendered == Min(g.rendered + ChunkSize * n, |g.filtered|)
      && r.1 == g.filtered[g.rendered..r.0.rendered]
    decreases n
  {
    if n > 0 {
      var step := RenderNextChunk(g);
      RenderChunksShowPrefix(step.0, n - 1);
      var more := RenderChunks(step.0, n - 1);
      if g.rendered < |g.filtered| {
        assert g.filtered[g.rendered..more.0.rendered]
          == g.filtered[g.rendered..step.0.rendered] + g.filtered[step.0.rendered..more.0.rendered];
      }
    }
  }

  /** Once everything is on screen, further calls change nothing. */
  lemma RenderNextChunkDone(g: Gallery)
    requires g.rendered == |g.filtered|
    ensures RenderNextChunk(g) == (g, [])
  {
  }

  /** The first chunk `applyFilters` renders is the start of the chunk
      sequence: after it and `n` more calls the gallery holds the first
      `18 * (n + 1)` filtered photos. */
  lemma ApplyFiltersThenChunks(photos: seq<Photo>, view: View, category: CategoryFilter, tags: set<string>, n: nat)
    ensures var g := ApplyFilters(photos, view, category, tags);
      var r := RenderChunks(g, n);
      r.0.rendered == Min(ChunkSize * (n + 1), |g.filtered|)
      && g.filtered[..g.rendered] + r.1 == g.filtered[..r.0.rendered]
  {
    ChunksAfterFirst(ApplyFilters(photos, view, category, tags), n);
  }

  /** From a gallery showing its first chunk, `n` more calls show
      `n + 1` chunks. */
  lemma ChunksAfterFirst(g: Gallery, n: nat)
    requires g.rendered == Min(ChunkSize, |g.filtered|)
    ensures var r := RenderChunks(g, n);
      r.0.rendered == Min(ChunkSize * (n + 1), |g.filtered|)
      && g.filtered[..g.rendered] + r.1 == g.filtered[..r.0.rendered]
  {
    RenderChunksShowPrefix(g, n);
    var r := RenderChunks(g, n);
    assert g.filtered[..r.0.rendered] == g.filtered[..g.rendered] + g.filtered[g.rendered..r.0.rendered];
  }

  // ---------------------------------------------------------------------
  // Tag chips

  /** `rawTag?.trim()` needs every tag to be a string, `undefined` or
      `null`; anything else would throw. */
  predicate TrimmableTags(photos: seq<Photo>) {
    forall k | 0 <= k < |photos| :: forall j | 0 <= j < |TagValues(photos[k])| ::
      var v := TagValues(photos[k])[j]; v.Str? || v.Undef? || v.Null?
  }

  /** The non-blank trimmed tags of one photo, in order. */
  function PhotoTagTexts(p: Photo): (r: seq<string>)
    ensures forall k | 0 <= k < |r| :: r[k] != ""
  {
    var texts := seq(|TagValues(p)|, k requires 0 <= k < |TagValues(p)| =>
      if TagValues(p)[k].Str? then Trim(TagValues(p)[k].s) else "");
    Filter(texts, (t: string) => t != "")
  }

  /** The trimmed non-blank tags of all photos, in the order `buildTagChips`
      visits them. */
  function AllTagTexts(photos: seq<Photo>): (r: seq<string>)
    ensures forall k | 0 <= k < |r| :: r[k] != ""
  {
    if |photos| == 0 then [] else PhotoTagTexts(photos[0]) + AllTagTexts(photos[1..])
  }

  datatype Chip = Chip(key: string, caption: string)

  /** The chip key of a trimmed tag: `normalizeTag` of a string that is
      already trimmed only lowers its case (see `KeyOfTagIsNormalizeTag`). */
  function KeyOfTag(t: string): string {
    Lower(t)
  }

  lemma KeyOfTagIsNormalizeTag(t: string)
    requires IsTrimmed(t)
    ensures KeyOfTag(t) == NormalizeTag(Str(t))
  {
    TrimOfTrimmed(t);
  }

  /** Whether `texts[j]` is the first tag in `texts` with its key. */
  predicate FirstOfKey(texts: seq<string>, j: int, keyOf: string -> string) {
    0 <= j < |texts| && forall m | 0 <= m < j :: keyOf(texts[m]) != keyOf(texts[j])
  }

  /** The chip is labelled with the first text carrying its key. */
  predicate FirstLabel(texts: seq<string>, c: Chip, keyOf: string -> string) {
    exists j | 0 <= j < |texts| :: FirstOfKey(texts, j, keyOf) && texts[j] == c.caption && c.key == keyOf(c.caption)
  }

  predicate HasKey(chips: seq<Chip>, key: string) {
    exists i | 0 <= i < |chips| :: chips[i].key == key
  }

  /** The keys of the chips built so far (the `tagMap` of the page). */
  function KeySet(chips: seq<Chip>): (r: set<string>)
    ensures forall k :: k in r <==> HasKey(chips, k)
  {
    if |chips| == 0 then {}
    else
      var init := chips[..|chips| - 1];
      var r := KeySet(init) + {chips[|chips| - 1].key};
      assert forall k | HasKey(chips, k) :: k in r by {
        forall k | HasKey(chips, k) ensures k in r {
          var a :| 0 <= a < |chips| && chips[a].key == k;
          if a < |chips| - 1 { assert init[a] == chips[a]; }
        }
      }
      assert forall k | k in r :: HasKey(chips, k) by {
        forall k | k in r ensures HasKey(chips, k) {
          if k != chips[|chips| - 1].key {
            var a :| 0 <= a < |init| && init[a].key == k;
            assert chips[a] == init[a];
          }
        }
      }
      r
  }

  /** The chips built from the first `i` texts, each recorded with the
      position of the text that labels it. */
  predicate LabelledBy(texts: seq<string>, keyOf: string -> string, chips: seq<Chip>, firsts: seq<nat>, i: nat) {
    && |firsts| == |chips|
    && (forall a, b | 0 <= a < b < |chips| :: chips[a].key != chips[b].key)
    && forall a | 0 <= a < |chips| ::
      firsts[a] < i && FirstOfKey(texts, firsts[a], keyOf) && texts[firsts[a]] == chips[a].caption
      && chips[a].key == keyOf(chips[a].caption)
  }

  /** The text at `i` whose key no earlier text carries labels a new chip. */
  lemma AppendFirstChip(texts: seq<string>, keyOf: string -> string, chips: seq<Chip>, firsts: seq<nat>, i: nat)
    requires i < |texts| && LabelledBy(texts, keyOf, chips, firsts, i)
    requires forall j | 0 <= j < i :: keyOf(texts[j]) in KeySet(chips)
    requires keyOf(texts[i]) !in KeySet(chips)
    ensures var c := Chip(keyOf(texts[i]), texts[i]);
      LabelledBy(texts, keyOf, chips + [c], firsts + [i], i + 1) && KeySet(chips + [c]) == KeySet(chips) + {c.key}
  {
    var c := Chip(keyOf(texts[i]), texts[i]);
    assert FirstOfKey(texts, i, keyOf);
    assert (chips + [c])[..|chips|] == chips;
    forall a | 0 <= a < |chips| ensures chips[a].key != c.key {
      assert HasKey(chips, chips[a].key);
    }
  }

  /** One chip per distinct key of `texts`, labelled with the first text
      carrying that key (the `tagMap` loop of `buildTagChips`). */
  method FirstSeenChips(texts: seq<string>, keyOf: string -> string) returns (chips: seq<Chip>, seen: set<string>)
    ensures seen == KeySet(chips)
    ensures forall i, j | 0 <= i < j < |chips| :: chips[i].key != chips[j].key
    ensures forall i | 0 <= i < |chips| :: FirstLabel(texts, chips[i], keyOf)
    ensures forall t | t in texts :: keyOf(t) in seen
  {
    chips := [];
    seen := {};
    ghost var firsts: seq<nat> := [];
    var i: nat := 0;
    while i < |texts|
      invariant i <= |texts|
      invariant seen == KeySet(chips)
      invariant LabelledBy(texts, keyOf, chips, firsts, i)
      invariant forall j | 0 <= j < i :: keyOf(texts[j]) in seen
    {
      chips, seen, firsts := SeeText(texts, keyOf, chips, seen, firsts, i);
      i := i + 1;
    }
    LabelledFirst(texts, keyOf, chips, firsts, i);
  }

  /** One turn of the `tagMap` loop: the text at `i` adds a chip when its
      key is new. */
  method SeeText(texts: seq<string>, keyOf: string -> string, chips: seq<Chip>, seen: set<string>,
                 ghost firsts: seq<nat>, i: nat)
    returns (chips': seq<Chip>, seen': set<string>, ghost firsts': seq<nat>)
    requires i < |texts| && seen == KeySet(chips)
    requires LabelledBy(texts, keyOf, chips, firsts, i)
    requires forall j | 0 <= j < i :: keyOf(texts[j]) in seen
    ensures seen' == KeySet(chips')
    ensures LabelledBy(texts, keyOf, chips', firsts', i + 1)
    ensures forall j | 0 <= j < i + 1 :: keyOf(texts[j]) in seen'
    ensures keyOf(texts[i]) in seen ==> chips' == chips && seen' == seen
    ensures keyOf(texts[i]) !in seen ==> chips' == chips + [Chip(keyOf(texts[i]), texts[i])]
  {
    var key := keyOf(texts[i]);
    if key !in seen {
      AppendFirstChip(texts, keyOf, chips, firsts, i);
      chips' := chips + [Chip(key, texts[i])];
      firsts' := firsts + [i];
      seen' := seen + {key};
    } else {
      LabelledLater(texts, keyOf, chips, firsts, i);
      chips', seen', firsts' := chips, seen, firsts;
    }
  }

  lemma LabelledLater(texts: seq<string>, keyOf: string -> string, chips: seq<Chip>, firsts: seq<nat>, i: nat)
    requires LabelledBy(texts, keyOf, chips, firsts, i)
    ensures LabelledBy(texts, keyOf, chips, firsts, i + 1)
  {
  }

  lemma LabelledFirst(texts: seq<string>, keyOf: string -> string, chips: seq<Chip>, firsts: seq<nat>, i: nat)
    requires LabelledBy(texts, keyOf, chips, firsts, i)
    ensures forall a | 0 <= a < |chips| :: FirstLabel(texts, chips[a], keyOf)
  {
    forall a | 0 <= a < |chips| ensures FirstLabel(texts, chips[a], keyOf) {
      var j := firsts[a];
      assert 0 <= j < |texts| && FirstOfKey(texts, j, keyOf) && texts[j] == chips[a].caption && chips[a].key == keyOf(chips[a].caption);
    }
  }

  /** `buildTagChips()`: one chip per distinct normalised tag, labelled
      with the first tag seen under that key; selected keys that no photo
      carries any more are dropped from the selection. A tag that is not a
      string (a number kept by `getPhotos`, say) makes `rawTag?.trim()`
      throw: the handler stops with no chip built and the selection as it
      was. */
  method BuildTagChips(photos: seq<Photo>, selected: set<string>)
    returns (chips: seq<Chip>, kept: set<string>, crashed: bool)
    ensures crashed <==> !TrimmableTags(photos)
    ensures crashed ==> chips == [] && kept == selected
    ensures forall i, j | 0 <= i < j < |chips| :: chips[i].key != chips[j].key
    ensures !crashed ==> forall i | 0 <= i < |chips| :: FirstLabel(AllTagTexts(photos), chips[i], KeyOfTag)
    ensures !crashed ==> forall t | t in AllTagTexts(photos) :: HasKey(chips, KeyOfTag(t))
    ensures !crashed ==> forall k :: k in kept <==> k in selected && HasKey(chips, k)
  {
    if !TrimmableTags(photos) {
      return [], selected, true;
    }
    crashed := false;
    var texts := AllTagTexts(photos);
    var seen;
    chips, seen := FirstSeenChips(texts, KeyOfTag);
    forall t | t in texts ensures HasKey(chips, KeyOfTag(t)) {
      assert KeyOfTag(t) in KeySet(chips);
    }
    kept := set k | k in selected && k in seen;
    forall k ensures k in kept <==> k in selected && HasKey(chips, k) {
      assert k in seen <==> HasKey(chips, k);
    }

  }
}

=== FILE: avatar.dfy ===
/** The avatar pipeline of the profile page (`prepareAvatarData`,
    `compressImage`): an avatar over 2 MiB, by file size or by the estimate
    of its data URL, is re-encoded as JPEG, first lowering the quality from
    0.85 to 0.40 in steps of 0.05, then shrinking the longer side by 10% at
    a time down to 128 pixels; a result still over 2 MiB is refused.
 */
module Avatar {
  import opened Common
  import opened ImageSize
  import opened Reencode

  const MaxAvatarSize: nat := 2 * 1024 * 1024
  const MaxAvatarDimension: nat := 512
  const MinAvatarDimension: nat := 128
  const DefaultQuality: nat := 85
  const MinQuality: nat := 40
  const QualityStepAvatar: nat := 5

  /** The render request for quality `q` and longer-side budget `d`. */
  function AvatarRender(image: Dims, q: nat, d: nat): Render {
    var size := ScaledDimensions(image.width, image.height, d);
    Render(Jpeg, size.width, size.height, q, true)
  }

  /** `Math.max(MIN_AVATAR_DIMENSION, Math.round(d * 0.9))`. */
  function ShrinkDimension(d: nat): (r: nat)
    ensures r >= MinAvatarDimension
    ensures d > MinAvatarDimension ==> r < d
    ensures 10 * r <= 9 * d + 5 || r == MinAvatarDimension
  {
    Max(MinAvatarDimension, RoundDiv(9 * d, 10))
  }

  /** The compressor's loop state: quality and longer-side budget. */
  datatype Budget = Budget(quality: nat, dimension: nat)

  /** One turn of the loop: quality first, then the dimension. */
  function NextBudget(b: Budget): Budget {
    if b.quality > MinQuality then b.(quality := Max(MinQuality, b.quality - QualityStepAvatar))
    else b.(dimension := ShrinkDimension(b.dimension))
  }

  /** The budget after `k` turns from `b`. */
  function IterateBudget(b: Budget, k: nat): Budget
    decreases k
  {
    if k == 0 then b else IterateBudget(NextBudget(b), k - 1)
  }

  /** The loop condition for budget `b`: the render is over 2 MiB and
      something can still be lowered. */
  predicate KeepsGoing(image: Dims, enc: Encoder, b: Budget) {
    && AvatarBase64Size(enc(AvatarRender(image, b.quality, b.dimension))) > MaxAvatarSize
    && (b.quality > MinQuality || b.dimension > MinAvatarDimension)
  }

  /** The starting budget: default quality, the clamped longer side. */
  function StartBudget(image: Dims): Budget {
    Budget(DefaultQuality, ScaledDimensions(image.width, image.height, MaxAvatarDimension).LongSide())
  }

  /** The budget the compressor ends with, started from `b`: turns are taken
      while the render is over 2 MiB and something can still be lowered. */
  function FinalBudget(image: Dims, enc: Encoder, b: Budget): Budget
    decreases b.quality, b.dimension
  {
    if KeepsGoing(image, enc, b) then
      assert b.quality <= MinQuality ==> ShrinkDimension(b.dimension) < b.dimension;
      FinalBudget(image, enc, NextBudget(b))
    else b
  }

  /** The final budget is the first budget of the turn sequence at which the
      loop stops: it is reached by turns each taken after a render over
      2 MiB, and it no longer keeps going. */
  lemma {:induction false} FinalBudgetIsFirstStop(image: Dims, enc: Encoder, b: Budget)
    ensures !KeepsGoing(image, enc, FinalBudget(image, enc, b))
    ensures exists n: nat :: FinalBudget(image, enc, b) == IterateBudget(b, n) && TurnsTaken(image, enc, b, n)
    decreases b.quality, b.dimension
  {
    if KeepsGoing(image, enc, b) {
      assert b.quality <= MinQuality ==> ShrinkDimension(b.dimension) < b.dimension;
      var next := NextBudget(b);
      FinalBudgetIsFirstStop(image, enc, next);
      var n: nat :| FinalBudget(image, enc, next) == IterateBudget(next, n) && TurnsTaken(image, enc, next, n);
      assert FinalBudget(image, enc, b) == IterateBudget(b, n + 1);
      forall k | 0 <= k < n + 1 ensures KeepsGoing(image, enc, IterateBudget(b, k)) {
        if k > 0 {
          assert IterateBudget(b, k) == IterateBudget(next, k - 1);
        }
      }
      assert TurnsTaken(image, enc, b, n + 1);
    } else {
      assert FinalBudget(image, enc, b) == IterateBudget(b, 0) && TurnsTaken(image, enc, b, 0);
    }
  }

  /** Each of the first `n` turns from `b` was taken after a render over
      2 MiB with something left to lower. */
  predicate TurnsTaken(image: Dims, enc: Encoder, b: Budget, n: nat) {
    forall k | 0 <= k < n :: KeepsGoing(image, enc, IterateBudget(b, k))
  }

  /** `n + 1` turns are `n` turns and one more. */
  lemma {:induction false} IterateBudgetSnoc(b: Budget, k: nat)
    ensures IterateBudget(b, k + 1) == NextBudget(IterateBudget(b, k))
    decreases k
  {
    if k > 0 {
      IterateBudgetSnoc(NextBudget(b), k - 1);
    }
  }

  /** `compressImage(dataUrl)` after a successful load of `image`: returns
      the final data URL with the quality and dimension budget it was
      rendered with. */
  method CompressImage(image: Dims, enc: Encoder) returns (output: string, quality: nat, dimension: nat)
    ensures output == enc(AvatarRender(image, quality, dimension))
    ensures MinQuality <= quality <= DefaultQuality
    ensures var d0 := ScaledDimensions(image.width, image.height, MaxAvatarDimension).LongSide();
      dimension <= d0 && (d0 > MinAvatarDimension ==> dimension >= MinAvatarDimension)
      && (dimension < d0 ==> quality == MinQuality)
    // it stops when the output fits or nothing is left to lower
    ensures AvatarBase64Size(output) <= MaxAvatarSize
      || (quality == MinQuality && dimension <= MinAvatarDimension)
    // ... and not before: the result is reached from the starting budget by
    // turns each taken after a render over 2 MiB
    ensures !KeepsGoing(image, enc, StartBudget(image)) ==> Budget(quality, dimension) == StartBudget(image)
    ensures exists n: nat ::
      (&& Budget(quality, dimension) == IterateBudget(StartBudget(image), n)
       && forall k | 0 <= k < n :: KeepsGoing(image, enc, IterateBudget(StartBudget(image), k)))
    ensures Budget(quality, dimension) == FinalBudget(image, enc, StartBudget(image))
  {
    var d0 := ScaledDimensions(image.width, image.height, MaxAvatarDimension).LongSide();
    dimension := d0;
    quality := DefaultQuality;
    output := enc(AvatarRender(image, quality, dimension));
    ghost var n: nat := 0;
    while AvatarBase64Size(output) > MaxAvatarSize && (quality > MinQuality || dimension > MinAvatarDimension)
      invariant output == enc(AvatarRender(image, quality, dimension))
      invariant MinQuality <= quality <= DefaultQuality
      invariant dimension <= d0 && (d0 > MinAvatarDimension ==> dimension >= MinAvatarDimension)
      invariant dimension < d0 ==> quality == MinQuality
      invariant Budget(quality, dimension) == IterateBudget(StartBudget(image), n)
      invariant forall k | 0 <= k < n :: KeepsGoing(image, enc, IterateBudget(StartBudget(image), k))
      invariant FinalBudget(image, enc, Budget(quality, dimension)) == FinalBudget(image, enc, StartBudget(image))
      decreases quality, dimension
    {
      IterateBudgetSnoc(StartBudget(image), n);
      n := n + 1;
      if quality > MinQuality {
        quality := Max(MinQuality, quality - QualityStepAvatar);
      } else {
        dimension := ShrinkDimension(dimension);
      }
      output := enc(AvatarRender(image, quality, dimension));
    }
  }

  datatype AvatarError =
    | LoadFailed    // the image could not be decoded
    | StillTooLarge // over 2 MiB even after compression

  datatype AvatarResult = Ok(dataUrl: string) | Err(error: AvatarError)

  /** Whether the upload must be compressed at all. */
  predicate NeedsCompression(fileSize: nat, dataUrl: string) {
    fileSize > MaxAvatarSize || AvatarBase64Size(dataUrl) > MaxAvatarSize
  }

  /** `prepareAvatarData(file)`: the stored avatar, never over 2 MiB by the
      page's own estimate. */
  method PrepareAvatarData(fileSize: nat, dataUrl: string, decoded: Option<Dims>, enc: Encoder)
    returns (r: AvatarResult)
    ensures r.Ok? ==> AvatarBase64Size(r.dataUrl) <= MaxAvatarSize
    ensures !NeedsCompression(fileSize, dataUrl) ==> r == Ok(dataUrl)
    ensures r == Err(LoadFailed) <==> NeedsCompression(fileSize, dataUrl) && decoded.None?
    ensures r.Ok? && NeedsCompression(fileSize, dataUrl) ==>
      exists q, d :: r.dataUrl == enc(AvatarRender(decoded.value, q, d))
    // a decoded image is compressed, and refused only when the compressor's
    // result is still over 2 MiB
    ensures NeedsCompression(fileSize, dataUrl) && decoded.Some? ==>
      var b := FinalBudget(decoded.value, enc, StartBudget(decoded.value));
      var output := enc(AvatarRender(decoded.value, b.quality, b.dimension));
      r == if AvatarBase64Size(output) > MaxAvatarSize then Err(StillTooLarge) else Ok(output)
  {
    var result := dataUrl;
    if NeedsCompression(fileSize, dataUrl) {
      if decoded.None? {
        return Err(LoadFailed);
      }
      var q, d;
      result, q, d := CompressImage(decoded.value, enc);
    }
    if AvatarBase64Size(result) > MaxAvatarSize {
      return Err(StillTooLarge);
    }
    return Ok(result);
  }
}

=== FILE: booknotes.dfy ===
/** The reading-notes list of one book (js/pages/book-notes.js). The page
    keeps its own list of notes (`state.notes`) and writes the whole list
    into the book with `updateBook` after every change; the write may fail
    (an input here). Adding and editing undo their local change when the
    write fails, so the page's list and the stored list stay equal.
    Deleting, as written, does not undo its local change; `ConfirmDelete`
    is the corrected handler and `ConfirmDeleteAsWritten` the original.
 */
module BookNotes {
  import opened Common

  datatype Note = Note(id: string, content: string, createTime: string, updateTime: Option<string>)

  /** A stored book as the notes pages see it; `notes` may be missing in
      old data. */
  datatype Book = Book(id: string, bookName: string, cover: Option<string>, notes: Option<seq<Note>>)

  /** The page: its list of notes, the notes the book holds in the store,
      the note being edited and the note whose deletion awaits
      confirmation. */
  datatype Page = Page(notes: seq<Note>, stored: seq<Note>, editing: Option<string>, deleting: Option<string>)

  /** The page shows what the store holds. */
  predicate InSync(p: Page) {
    p.notes == p.stored
  }

  function Ids(notes: seq<Note>): (r: seq<string>)
    ensures |r| == |notes|
    ensures forall k | 0 <= k < |notes| :: r[k] == notes[k].id
  {
    seq(|notes|, k requires 0 <= k < |notes| => notes[k].id)
  }

  /** No two notes share an id (ids come from a fresh-id generator). */
  predicate DistinctIds(notes: seq<Note>) {
    NoDuplicates(Ids(notes))
  }

  datatype Notice = EmptyContent | Saved | SaveFailed | NoChange

  datatype Step = Step(page: Page, notice: Notice)

  // ---------------------------------------------------------------------
  // Adding

  /** `handleAddNote()`: the trimmed input becomes a new note at the front;
      if the write fails the note is shifted off again. */
  function AddNote(p: Page, input: string, freshId: string, now: string, writeOk: bool): (r: Step)
    ensures Trim(input) == "" ==> r == Step(p, EmptyContent)
    ensures Trim(input) != "" && !writeOk ==> r == Step(p, SaveFailed)
    ensures Trim(input) != "" && writeOk ==> r.notice == Saved
    ensures Trim(input) != "" && writeOk ==> r.page.notes == [Note(freshId, Trim(input), now, None)] + p.notes
    ensures Trim(input) != "" && writeOk ==> r.page.stored == r.page.notes
    ensures r.page.editing == p.editing && r.page.deleting == p.deleting
  {
    var content := Trim(input);
    if content == "" then Step(p, EmptyContent)
    else
      var notes := [Note(freshId, content, now, None)] + p.notes;
      if writeOk then Step(p.(notes := notes, stored := notes), Saved)
      else Step(p.(notes := notes[1..]), SaveFailed)
  }

  /** Adding keeps the page in sync with the store, and keeps ids distinct
      when the new id is fresh. */
  lemma AddNotePreserves(p: Page, input: string, freshId: string, now: string, writeOk: bool)
    requires freshId !in Ids(p.notes)
    ensures InSync(p) ==> InSync(AddNote(p, input, freshId, now, writeOk).page)
    ensures DistinctIds(p.notes) ==> DistinctIds(AddNote(p, input, freshId, now, writeOk).page.notes)
  {
    var content := Trim(input);
    if content != "" && writeOk && DistinctIds(p.notes) {
      PrependDistinct(Note(freshId, content, now, None), p.notes);
    }
  }

  /** A note whose id is new keeps the ids distinct in front of a list. */
  lemma PrependDistinct(n: Note, notes: seq<Note>)
    requires DistinctIds(notes) && n.id !in Ids(notes)
    ensures DistinctIds([n] + notes)
  {
    var all := [n] + notes;
    var ids, before := Ids(all), Ids(notes);
    forall i, j | 0 <= i < j < |ids| ensures ids[i] != ids[j] {
      assert ids[j] == all[j].id == notes[j - 1].id == before[j - 1];
      if i > 0 {
        assert ids[i] == before[i - 1];
      }
    }
  }

  // ---------------------------------------------------------------------
  // Editing

  /** `enterEditMode(noteId)`: any other note leaves edit mode. */
  function EnterEditMode(p: Page, noteId: string): (r: Page)
    ensures r.notes == p.notes && r.stored == p.stored && r.deleting == p.deleting
    ensures forall k | 0 <= k < |r.notes| :: IsEditing(r, r.notes[k]) <==> r.notes[k].id == noteId
  {
    p.(editing := Some(noteId))
  }

  /** `state.editingNoteId === note.id`: the note is rendered with an edit
      box. */
  predicate IsEditing(p: Page, n: Note) {
    p.editing == Some(n.id)
  }

  /** With distinct ids at most one note is rendered in edit mode. */
  lemma AtMostOneEditing(p: Page, i: int, j: int)
    requires DistinctIds(p.notes)
    requires 0 <= i < |p.notes| && 0 <= j < |p.notes|
    requires IsEditing(p, p.notes[i]) && IsEditing(p, p.notes[j])
    ensures i == j
  {
  }

  function HasNoteId(id: string): Note -> bool {
    (n: Note) => n.id == id
  }

  /** `saveNoteEdit(noteId)`: the first note with that id gets the trimmed
      content, nothing else of it changes; a failed write restores the old
      content and leaves edit mode on. */
  function SaveNoteEdit(p: Page, noteId: string, input: string, writeOk: bool): (r: Step)
    ensures Trim(input) == "" ==> r == Step(p, EmptyContent)
    ensures Trim(input) != "" && FindIndex(p.notes, HasNoteId(noteId)).None? ==> r == Step(p, NoChange)
    ensures Trim(input) != "" && !writeOk ==> r.page == p
    ensures r.notice == Saved ==> EditedAt(p.notes, r.page.notes, FindIndex(p.notes, HasNoteId(noteId)).value, Trim(input))
    ensures r.notice == Saved ==> r.page.stored == r.page.notes && r.page.editing.None?
    ensures r.notice == Saved <==> Trim(input) != "" && writeOk && FindIndex(p.notes, HasNoteId(noteId)).Some?
  {
    var content := Trim(input);
    if content == "" then Step(p, EmptyContent)
    else match FindIndex(p.notes, HasNoteId(noteId))
      case None => Step(p, NoChange)
      case Some(i) =>
        var notes := p.notes[i := p.notes[i].(content := content)];
        if writeOk then Step(p.(notes := notes, stored := notes, editing := None), Saved)
        else Step(p, SaveFailed)
  }

  /** `after` is `before` with only the content of note `i` replaced; its
      id and times are kept. */
  predicate EditedAt(before: seq<Note>, after: seq<Note>, i: int, content: string) {
    && 0 <= i < |before| == |after|
    && (forall k | 0 <= k < |before| && k != i :: after[k] == before[k])
    && after[i].content == content
    && after[i].id == before[i].id
    && after[i].createTime == before[i].createTime
    && after[i].updateTime == before[i].updateTime
  }

  lemma SaveNoteEditPreserves(p: Page, noteId: string, input: string, writeOk: bool)
    ensures InSync(p) ==> InSync(SaveNoteEdit(p, noteId, input, writeOk).page)
    ensures DistinctIds(p.notes) ==> DistinctIds(SaveNoteEdit(p, noteId, input, writeOk).page.notes)
  {
    var r := SaveNoteEdit(p, noteId, input, writeOk);
    if r.notice == Saved {
      assert Ids(r.page.notes) == Ids(p.notes);
    }
  }

  // ---------------------------------------------------------------------
  // Deleting

  /** `if (!state.deletingNoteId) return;` */
  predicate PendingDelete(p: Page) {
    p.deleting.Some? && p.deleting.value != ""
  }

  function RemoveAt(notes: seq<Note>, i: nat): (r: seq<Note>)
    requires i < |notes|
    ensures |r| == |notes| - 1
    ensures r == notes[..i] + notes[i + 1..]
  {
    notes[..i] + notes[i + 1..]
  }

  /** `confirmDeleteNote()` as written: the note is spliced out of the
      page's list before the write, and a failed write leaves it out. */
  function ConfirmDeleteAsWritten(p: Page, writeOk: bool): (r: Step)
    ensures !PendingDelete(p) || FindIndex(p.notes, HasNoteId(p.deleting.value)).None? ==> r == Step(p, NoChange)
    ensures PendingDelete(p) && FindIndex(p.notes, HasNoteId(p.deleting.value)).Some? ==>
      var i := FindIndex(p.notes, HasNoteId(p.deleting.value)).value;
      && r.page.notes == RemoveAt(p.notes, i)
      && r.page.editing == p.editing
      // a failed write reports the failure, keeps the store and the pending
      // deletion, but the page has already lost note i
      && (!writeOk ==> r.notice == SaveFailed && r.page.stored == p.stored && r.page.deleting == p.deleting)
      && (writeOk ==> r.notice == Saved && r.page.stored == r.page.notes && r.page.deleting.None?)
  {
    if !PendingDelete(p) then Step(p, NoChange)
    else match FindIndex(p.notes, HasNoteId(p.deleting.value))
      case None => Step(p, NoChange)
      case Some(i) =>
        var notes := RemoveAt(p.notes, i);
        if writeOk then Step(p.(notes := notes, stored := notes, deleting := None), Saved)
        else Step(p.(notes := notes), SaveFailed)
  }

  /** A page in sync, a pending deletion of a listed note and a failing
      write: afterwards the page no longer lists the note the store still
      holds. */
  lemma DeleteAsWrittenLosesSync()
    ensures var n := Note("a", "x", "t", None);
      var p := Page([n], [n], None, Some("a"));
      InSync(p) && ConfirmDeleteAsWritten(p, false) == Step(p.(notes := []), SaveFailed)
      && !InSync(ConfirmDeleteAsWritten(p, false).page)
  {
    var n := Note("a", "x", "t", None);
    assert FindIndex([n], HasNoteId("a")) == Some(0);
  }

  /** The lost sync is then made permanent by the next successful save: a
      note added after the failed delete is stored without the note whose
      deletion was reported as failed. */
  lemma DeleteAsWrittenThenAddDropsNote()
    ensures var n := Note("a", "x", "t", None);
      var p := Page([n], [n], None, Some("a"));
      var failed := ConfirmDeleteAsWritten(p, false).page;
      AddNote(failed, "y", "b", "u", true).page.stored == [Note("b", "y", "u", None)]
  {
    var n := Note("a", "x", "t", None);
    assert FindIndex([n], HasNoteId("a")) == Some(0);
    assert Trim("y") == "y" by { TrimOfTrimmed("y"); }
  }

  /** `confirmDeleteNote()` with the rollback the other handlers have: on a
      failed write the page keeps its list. */
  function ConfirmDelete(p: Page, writeOk: bool): (r: Step)
    ensures !PendingDelete(p) || FindIndex(p.notes, HasNoteId(p.deleting.value)).None? ==> r == Step(p, NoChange)
    ensures r.notice == SaveFailed ==> r.page == p
    // a found note is deleted exactly when the write succeeds; a failed
    // write keeps the whole page
    ensures PendingDelete(p) && FindIndex(p.notes, HasNoteId(p.deleting.value)).Some? ==>
      (r.notice == Saved <==> writeOk) && (!writeOk ==> r == Step(p, SaveFailed))
    ensures r.notice == Saved ==> PendingDelete(p) && writeOk
    ensures r.notice == Saved ==> (var i := FindIndex(p.notes, HasNoteId(p.deleting.value)).value;
      r.page.notes == p.notes[..i] + p.notes[i + 1..] && r.page.stored == r.page.notes && r.page.deleting.None?)
  {
    if !PendingDelete(p) then Step(p, NoChange)
    else match FindIndex(p.notes, HasNoteId(p.deleting.value))
      case None => Step(p, NoChange)
      case Some(i) =>
        var notes := RemoveAt(p.notes, i);
        if writeOk then Step(p.(notes := notes, stored := notes, deleting := None), Saved)
        else Step(p, SaveFailed)
  }

  /** The corrected deletion keeps the page in sync; with distinct ids it
      removes exactly the note with the pending id. */
  lemma ConfirmDeletePreserves(p: Page, writeOk: bool)
    ensures InSync(p) ==> InSync(ConfirmDelete(p, writeOk).page)
    ensures DistinctIds(p.notes) && ConfirmDelete(p, writeOk).notice == Saved ==>
      forall n :: n in ConfirmDelete(p, writeOk).page.notes <==> n in p.notes && n.id != p.deleting.value
  {
    var r := ConfirmDelete(p, writeOk);
    if DistinctIds(p.notes) && r.notice == Saved {
      var i := FindIndex(p.notes, HasNoteId(p.deleting.value)).value;
      forall n ensures n in r.page.notes <==> n in p.notes && n.id != p.deleting.value {
        if n in p.notes && n.id == p.deleting.value {
          var k :| 0 <= k < |p.notes| && p.notes[k] == n;
          assert Ids(p.notes)[k] == Ids(p.notes)[i];
        }
        if n in p.notes && n.id != p.deleting.value {
          var k :| 0 <= k < |p.notes| && p.notes[k] == n;
          assert k != i;
          if k < i { assert n == p.notes[..i][k]; } else { assert n == p.notes[i + 1..][k - i - 1]; }
        }
      }
    }
  }

  /** The two handlers agree whenever the write succeeds. */
  lemma ConfirmDeleteAgreesOnSuccess(p: Page)
    ensures ConfirmDelete(p, true) == ConfirmDeleteAsWritten(p, true)
  {
  }

  // ---------------------------------------------------------------------
  // Preview

  const PreviewLength := 150

  /** The text `createNoteItem` shows: the first 150 characters followed by
      `...` when the content is longer, else the whole content. */
  function Preview(content: string): (r: string)
    ensures |r| <= PreviewLength + 3
    ensures |content| <= PreviewLength ==> r == content
    ensures |content| > PreviewLength ==> |r| == PreviewLength + 3 && r[..PreviewLength] == content[..PreviewLength]
    ensures |content| > PreviewLength ==> r[PreviewLength..] == "..."
    ensures r != content ==> |content| > PreviewLength
  {
    if |content| > PreviewLength then content[..PreviewLength] + "..." else content
  }

  /** A preview starts with as much of the content as it can hold. */
  lemma PreviewIsPrefixed(content: string)
    ensures var n := if |content| < PreviewLength then |content| else PreviewLength;
      content[..n] <= Preview(content)
  {
  }
}

=== FILE: citypicker.dfy ===
/** The city picker of the profile page: normalisation of the downloaded
    country/state/city tree (`ensureDataLoaded`), the capped search
    (`performSearch`) and the location lookup (`findLocation`).
 */
module CityPicker {
  import opened Common

  // ---------------------------------------------------------------------
  // The downloaded tree and its normal form

  /** A raw city entry: a bare string, an object with a `name` (the empty
      string when it has none), or anything else (`null`, a number …). */
  datatype RawCity = CityText(text: string) | CityRecord(name: string) | CityOther

  /** Raw states and countries; a missing `name` is the empty string and a
      missing child array the empty sequence. */
  datatype RawState = RawState(name: string, cities: seq<RawCity>)
  datatype RawCountry = RawCountry(name: string, states: seq<RawState>)

  datatype City = City(name: string, lowerName: string)
  datatype State = State(name: string, lowerName: string, cities: seq<City>)
  datatype Country = Country(name: string, lowerName: string, states: seq<State>)

  /** `typeof city === 'string' ? city : city?.name`, with "" for a missing
      name. */
  function CityName(c: RawCity): string {
    match c
    case CityText(t) => t
    case CityRecord(n) => n
    case CityOther => ""
  }

  predicate WellFormedCity(c: City) {
    c.name != "" && c.lowerName == Lower(c.name)
  }

  predicate WellFormedState(s: State) {
    && s.name != "" && s.lowerName == Lower(s.name) && |s.cities| > 0
    && forall k | 0 <= k < |s.cities| :: WellFormedCity(s.cities[k])
  }

  predicate WellFormedCountry(c: Country) {
    && c.lowerName == Lower(c.name) && |c.states| > 0
    && forall k | 0 <= k < |c.states| :: WellFormedState(c.states[k])
  }

  /** The invariant the picker relies on after loading: no empty state, no
      empty country, no unnamed city or state, lower-case names cached. */
  predicate WellFormed(cs: seq<Country>) {
    forall k | 0 <= k < |cs| :: WellFormedCountry(cs[k])
  }

  /** A raw city is kept when it has a name. */
  predicate KeepsCity(c: RawCity) {
    CityName(c) != ""
  }

  /** The normal form of a named raw city. */
  function CityOf(c: RawCity): City {
    City(CityName(c), Lower(CityName(c)))
  }

  /** The cities with a non-empty name, in order. */
  function NormalizeCities(raw: seq<RawCity>): (r: seq<City>)
    ensures forall k | 0 <= k < |r| :: WellFormedCity(r[k])
    ensures (forall k | 0 <= k < |raw| :: CityName(raw[k]) == "") <==> r == []
    ensures |r| <= |raw|
  {
    if |raw| == 0 then []
    else
      var rest := NormalizeCities(raw[1..]);
      if KeepsCity(raw[0]) then [CityOf(raw[0])] + rest else rest
  }

  /** A raw state is kept when it is named and keeps a city. */
  predicate KeepsState(s: RawState) {
    s.name != "" && |NormalizeCities(s.cities)| > 0
  }

  function StateOf(s: RawState): State {
    State(s.name, Lower(s.name), NormalizeCities(s.cities))
  }

  /** The named states that keep at least one city, in order. */
  function NormalizeStates(raw: seq<RawState>): (r: seq<State>)
    ensures forall k | 0 <= k < |r| :: WellFormedState(r[k])
    ensures |r| <= |raw|
  {
    if |raw| == 0 then []
    else
      var rest := NormalizeStates(raw[1..]);
      if KeepsState(raw[0]) then [StateOf(raw[0])] + rest else rest
  }

  /** A raw country is kept when it keeps a state. */
  predicate KeepsCountry(c: RawCountry) {
    |NormalizeStates(c.states)| > 0
  }

  function CountryOf(c: RawCountry): Country {
    Country(c.name, Lower(c.name), NormalizeStates(c.states))
  }

  /** The countries that keep at least one state, in order. */
  function Normalize(raw: seq<RawCountry>): (r: seq<Country>)
    ensures WellFormed(r)
    ensures |r| <= |raw|
  {
    if |raw| == 0 then []
    else
      var rest := Normalize(raw[1..]);
      if KeepsCountry(raw[0]) then [CountryOf(raw[0])] + rest else rest
  }

  /** Each level of the normalisation is a filter followed by a map: every
      entry that qualifies is kept, in the download's order, as its normal
      form, and nothing else is. */
  lemma {:induction false} NormalizeCitiesIsFilterMap(raw: seq<RawCity>)
    ensures NormalizeCities(raw) == Map(Filter(raw, KeepsCity), CityOf)
  {
    if |raw| > 0 {
      NormalizeCitiesIsFilterMap(raw[1..]);
      var rest := Filter(raw[1..], KeepsCity);
      if KeepsCity(raw[0]) {
        assert ([raw[0]] + rest)[1..] == rest;
      }
    }
  }

  lemma {:induction false} NormalizeStatesIsFilterMap(raw: seq<RawState>)
    ensures NormalizeStates(raw) == Map(Filter(raw, KeepsState), StateOf)
  {
    if |raw| > 0 {
      NormalizeStatesIsFilterMap(raw[1..]);
      var rest := Filter(raw[1..], KeepsState);
      if KeepsState(raw[0]) {
        assert ([raw[0]] + rest)[1..] == rest;
      }
    }
  }

  lemma {:induction false} NormalizeIsFilterMap(raw: seq<RawCountry>)
    ensures Normalize(raw) == Map(Filter(raw, KeepsCountry), CountryOf)
  {
    if |raw| > 0 {
      NormalizeIsFilterMap(raw[1..]);
      var rest := Filter(raw[1..], KeepsCountry);
      if KeepsCountry(raw[0]) {
        assert ([raw[0]] + rest)[1..] == rest;
      }
    }
  }

  /** So nothing named is lost: every named city of a named state in any
      country turns up, in normal form, in the loaded tree. */
  lemma NormalizeKeepsNamedCities(raw: seq<RawCountry>, i: nat, j: nat, k: nat)
    requires i < |raw| && j < |raw[i].states| && k < |raw[i].states[j].cities|
    requires raw[i].states[j].name != "" && KeepsCity(raw[i].states[j].cities[k])
    ensures exists c | c in Normalize(raw) :: exists s | s in c.states ::
      s.name == raw[i].states[j].name && CityOf(raw[i].states[j].cities[k]) in s.cities
  {
    var rs := raw[i].states[j];
    NormalizeCitiesIsFilterMap(rs.cities);
    assert rs.cities[k] in Filter(rs.cities, KeepsCity);
    assert KeepsState(rs);
    NormalizeStatesIsFilterMap(raw[i].states);
    assert rs in Filter(raw[i].states, KeepsState);
    assert KeepsCountry(raw[i]);
    NormalizeIsFilterMap(raw);
    assert raw[i] in Filter(raw, KeepsCountry);
    var c := CountryOf(raw[i]);
    assert c in Normalize(raw);
    assert StateOf(rs) in c.states;
  }

  /** The raw download a normal-form tree could have come from. */
  function DenormalizeCities(cs: seq<City>): seq<RawCity> {
    if |cs| == 0 then [] else [CityRecord(cs[0].name)] + DenormalizeCities(cs[1..])
  }

  function DenormalizeStates(ss: seq<State>): seq<RawState> {
    if |ss| == 0 then [] else [RawState(ss[0].name, DenormalizeCities(ss[0].cities))] + DenormalizeStates(ss[1..])
  }

  function Denormalize(cs: seq<Country>): seq<RawCountry> {
    if |cs| == 0 then [] else [RawCountry(cs[0].name, DenormalizeStates(cs[0].states))] + Denormalize(cs[1..])
  }

  lemma {:induction false} NormalizeCitiesRoundTrip(cs: seq<City>)
    requires forall k | 0 <= k < |cs| :: WellFormedCity(cs[k])
    ensures NormalizeCities(DenormalizeCities(cs)) == cs
  {
    if |cs| > 0 {
      NormalizeCitiesRoundTrip(cs[1..]);
      assert DenormalizeCities(cs)[1..] == DenormalizeCities(cs[1..]);
    }
  }

  lemma {:induction false} NormalizeStatesRoundTrip(ss: seq<State>)
    requires forall k | 0 <= k < |ss| :: WellFormedState(ss[k])
    ensures NormalizeStates(DenormalizeStates(ss)) == ss
  {
    if |ss| > 0 {
      NormalizeCitiesRoundTrip(ss[0].cities);
      NormalizeStatesRoundTrip(ss[1..]);
      assert DenormalizeStates(ss)[1..] == DenormalizeStates(ss[1..]);
    }
  }

  /** Every well-formed tree is the normal form of some download: the
      normalisation keeps everything a well-formed tree holds. */
  lemma {:induction false} NormalizeRoundTrip(cs: seq<Country>)
    requires WellFormed(cs)
    ensures Normalize(Denormalize(cs)) == cs
  {
    if |cs| > 0 {
      NormalizeStatesRoundTrip(cs[0].states);
      NormalizeRoundTrip(cs[1..]);
      assert Denormalize(cs)[1..] == Denormalize(cs[1..]);
    }
  }

  /** Normalising twice changes nothing. */
  lemma NormalizeIdempotent(raw: seq<RawCountry>)
    ensures Normalize(Denormalize(Normalize(raw))) == Normalize(raw)
  {
    NormalizeRoundTrip(Normalize(raw));
  }

  /** The highlighted column after loading: the first country and its first
      state when anything was loaded, -1/-1 (the constructor's values)
      otherwise. */
  function InitialActive(cs: seq<Country>): (r: (int, int))
    requires WellFormed(cs)
    ensures |cs| > 0 ==> 0 <= r.0 < |cs| && 0 <= r.1 < |cs[r.0].states|
    ensures |cs| == 0 ==> r == (-1, -1)
  {
    if |cs| > 0 then (0, if |cs[0].states| > 0 then 0 else -1) else (-1, -1)
  }

  // ---------------------------------------------------------------------
  // Search

  /** A position in the tree: country, state and city index. */
  datatype Hit = Hit(country: nat, state: nat, city: nat)

  predicate ValidHit(cs: seq<Country>, h: Hit) {
    h.country < |cs| && h.state < |cs[h.country].states| && h.city < |cs[h.country].states[h.state].cities|
  }

  /** A city is listed for `lower` when its own name, its state's name or its
      country's name contains it. */
  predicate IsHit(cs: seq<Country>, lower: string, h: Hit) {
    && ValidHit(cs, h)
    && var country := cs[h.country];
       var state := country.states[h.state];
       (Includes(state.cities[h.city].lowerName, lower) || Includes(state.lowerName, lower)
        || Includes(country.lowerName, lower))
  }

  /** Document order of positions. */
  predicate Before(a: Hit, b: Hit) {
    a.country < b.country
    || (a.country == b.country && (a.state < b.state || (a.state == b.state && a.city < b.city)))
  }

  const MaxResults: nat := 80

  /** `performSearch(term)`: the first 80 hits in document order. Returns the
      results, whether any were found, and the highlighted country/state. */
  method PerformSearch(cs: seq<Country>, term: string, active: (int, int))
    returns (results: seq<Hit>, found: bool, newActive: (int, int))
    ensures |term| < 2 ==> results == [] && !found && newActive == active
    ensures |results| <= MaxResults
    ensures found <==> |results| > 0
    ensures forall i | 0 <= i < |results| :: IsHit(cs, Lower(term), results[i])
    ensures forall i, j | 0 <= i < j < |results| :: Before(results[i], results[j])
    // a hit that is left out comes after every listed one, and only a full
    // page leaves anything out
    ensures |term| >= 2 ==> forall h | IsHit(cs, Lower(term), h) && h !in results ::
      |results| == MaxResults && forall i | 0 <= i < |results| :: Before(results[i], h)
    ensures found ==> newActive == (results[0].country, results[0].state)
    ensures !found ==> newActive == active
  {
    newActive := active;
    if |term| < 2 {
      return [], false, active;
    }
    var lower := Lower(term);
    results := [];
    var c := 0;
    while c < |cs|
      invariant 0 <= c <= |cs|
      invariant |results| < MaxResults
      invariant forall i | 0 <= i < |results| :: IsHit(cs, lower, results[i]) && Before(results[i], Hit(c, 0, 0))
      invariant forall i, j | 0 <= i < j < |results| :: Before(results[i], results[j])
      invariant forall h | IsHit(cs, lower, h) && Before(h, Hit(c, 0, 0)) :: h in results
    {
      var country := cs[c];
      var countryMatch := Includes(country.lowerName, lower);
      var s := 0;
      var full := false;
      while s < |country.states|
        invariant 0 <= s <= |country.states|
        invariant !full
        invariant |results| < MaxResults
        invariant forall i | 0 <= i < |results| :: IsHit(cs, lower, results[i]) && Before(results[i], Hit(c, s, 0))
        invariant forall i, j | 0 <= i < j < |results| :: Before(results[i], results[j])
        invariant forall h | IsHit(cs, lower, h) && Before(h, Hit(c, s, 0)) :: h in results
      {
        results, full := ScanCities(cs, lower, c, s, countryMatch, results);
        if full {
          break;
        }
        s := s + 1;
      }
      if full {
        break;
      }
      assert forall h | Before(h, Hit(c + 1, 0, 0)) && ValidHit(cs, h) :: Before(h, Hit(c, s, 0));
      c := c + 1;
    }
    found := |results| > 0;
    if found {
      newActive := (results[0].country, results[0].state);
    }
  }

  /** The inner loop of `performSearch`: the cities of state `s` of country
      `c`, appended to `results` in order until the page is full. */
  method ScanCities(cs: seq<Country>, lower: string, c: nat, s: nat, countryMatch: bool, results: seq<Hit>)
    returns (out: seq<Hit>, full: bool)
    requires c < |cs| && s < |cs[c].states|
    requires countryMatch == Includes(cs[c].lowerName, lower)
    requires |results| < MaxResults
    requires forall i | 0 <= i < |results| :: IsHit(cs, lower, results[i]) && Before(results[i], Hit(c, s, 0))
    requires forall i, j | 0 <= i < j < |results| :: Before(results[i], results[j])
    requires forall h | IsHit(cs, lower, h) && Before(h, Hit(c, s, 0)) :: h in results
    ensures full <==> |out| == MaxResults
    ensures |out| <= MaxResults
    ensures forall i | 0 <= i < |out| :: IsHit(cs, lower, out[i])
    ensures forall i, j | 0 <= i < j < |out| :: Before(out[i], out[j])
    ensures !full ==> forall i | 0 <= i < |out| :: Before(out[i], Hit(c, s + 1, 0))
    ensures !full ==> forall h | IsHit(cs, lower, h) && Before(h, Hit(c, s + 1, 0)) :: h in out
    ensures full ==> forall h | IsHit(cs, lower, h) && h !in out :: forall i | 0 <= i < |out| :: Before(out[i], h)
  {
    var state := cs[c].states[s];
    var stateMatch := Includes(state.lowerName, lower) || countryMatch;
    out := results;
    var k := 0;
    while k < |state.cities|
      invariant 0 <= k <= |state.cities|
      invariant |out| < MaxResults
      invariant forall i | 0 <= i < |out| :: IsHit(cs, lower, out[i]) && Before(out[i], Hit(c, s, k))
      invariant forall i, j | 0 <= i < j < |out| :: Before(out[i], out[j])
      invariant forall h | IsHit(cs, lower, h) && Before(h, Hit(c, s, k)) :: h in out
    {
      if Includes(state.cities[k].lowerName, lower) || stateMatch {
        assert IsHit(cs, lower, Hit(c, s, k));
        out := out + [Hit(c, s, k)];
      }
      if |out| >= MaxResults {
        return out, true;
      }
      k := k + 1;
    }
    assert forall h | Before(h, Hit(c, s + 1, 0)) && ValidHit(cs, h) :: Before(h, Hit(c, s, k));
    full := false;
  }

  // ---------------------------------------------------------------------
  // Location lookup

  /** The filters of `findLocation`: an empty state or country name means
      no filter; the city must equal the name, compared in lower case or
      as written. */
  predicate LocationMatch(cs: seq<Country>, cityName: string, stateName: string, countryName: string, h: Hit) {
    && ValidHit(cs, h)
    && var country := cs[h.country];
       var state := country.states[h.state];
       var city := state.cities[h.city];
       && (countryName == "" || Includes(country.lowerName, Lower(countryName)))
       && (stateName == "" || Includes(state.lowerName, Lower(stateName)))
       && (city.lowerName == Lower(cityName) || city.name == cityName)
  }

  /** `findLocation(cityName, stateName, countryName)`: the first matching
      city in document order, `None` for `null`. */
  method FindLocation(cs: seq<Country>, cityName: string, stateName: string, countryName: string)
    returns (r: Option<Hit>)
    ensures r.None? <==> forall h :: !LocationMatch(cs, cityName, stateName, countryName, h)
    ensures r.Some? ==> LocationMatch(cs, cityName, stateName, countryName, r.value)
    ensures r.Some? ==> forall h | LocationMatch(cs, cityName, stateName, countryName, h) :: !Before(h, r.value)
  {
    var lowerCity := Lower(cityName);
    var lowerState := Lower(stateName);
    var lowerCountry := Lower(countryName);
    var c := 0;
    while c < |cs|
      invariant 0 <= c <= |cs|
      invariant forall h | LocationMatch(cs, cityName, stateName, countryName, h) :: !Before(h, Hit(c, 0, 0))
    {
      var country := cs[c];
      if countryName != "" && !Includes(country.lowerName, lowerCountry) {
        assert forall h | Before(h, Hit(c + 1, 0, 0)) && ValidHit(cs, h) && h.country == c ::
          !LocationMatch(cs, cityName, stateName, countryName, h);
        c := c + 1;
        continue;
      }
      var s := 0;
      while s < |country.states|
        invariant 0 <= s <= |country.states|
        invariant forall h | LocationMatch(cs, cityName, stateName, countryName, h) :: !Before(h, Hit(c, s, 0))
      {
        var state := country.states[s];
        if stateName != "" && !Includes(state.lowerName, lowerState) {
          assert forall h | Before(h, Hit(c, s + 1, 0)) && ValidHit(cs, h) && h.country == c && h.state == s ::
            !LocationMatch(cs, cityName, stateName, countryName, h);
          s := s + 1;
          continue;
        }
        var k := 0;
        while k < |state.cities|
          invariant 0 <= k <= |state.cities|
          invariant forall h | LocationMatch(cs, cityName, stateName, countryName, h) :: !Before(h, Hit(c, s, k))
        {
          var city := state.cities[k];
          if city.lowerName == lowerCity || city.name == cityName {
            assert LocationMatch(cs, cityName, stateName, countryName, Hit(c, s, k));
            return Some(Hit(c, s, k));
          }
          k := k + 1;
        }
        s := s + 1;
      }
      c := c + 1;
    }
    forall h | LocationMatch(cs, cityName, stateName, countryName, h)
      ensures false
    {
      assert Before(h, Hit(|cs|, 0, 0));
    }
    return None;
  }
}

=== FILE: common.dfy ===
/** Small value types and string/sequence helpers shared by every page model.
    They stand for the JavaScript built-ins the pages lean on: `trim`,
    `toLowerCase`, `includes`, `split`, `repeat`, `startsWith` and
    `Array.prototype.filter`.
 */
module Common {

  datatype Option<+T> = None | Some(value: T)

  /** A query parameter that is present and not empty (a truthy
      `urlParams.get(name)`). */
  predicate Present(p: Option<string>) {
    p.Some? && p.value != ""
  }

  // ---------------------------------------------------------------------
  // Whitespace and trimming

  /** The white-space characters `String.prototype.trim` removes that can
      occur in form input here: the ASCII controls, the no-break space, the
      ideographic (full-width) space and the byte-order mark. */
  predicate IsSpace(c: char) {
    c == ' ' || c == '\t' || c == '\n' || c == '\r' || c == '\U{000B}' || c == '\U{000C}'
    || c == '\U{00A0}' || c == '\U{3000}' || c == '\U{FEFF}'
  }

  predicate AllSpace(s: string) {
    forall i | 0 <= i < |s| :: IsSpace(s[i])
  }

  /** Number of white-space characters at the start of `s`. */
  function LeadingSpace(s: string): (n: nat)
    ensures n <= |s| && AllSpace(s[..n])
    ensures n < |s| ==> !IsSpace(s[n])
    decreases |s|
  {
    if |s| > 0 && IsSpace(s[0]) then
      var k := LeadingSpace(s[1..]);
      assert s[..k + 1] == [s[0]] + s[1..][..k];
      k + 1
    else 0
  }

  /** Number of white-space characters at the end of `s`. */
  function TrailingSpace(s: string): (n: nat)
    ensures n <= |s| && AllSpace(s[|s| - n..])
    ensures n < |s| ==> !IsSpace(s[|s| - n - 1])
    decreases |s|
  {
    if |s| > 0 && IsSpace(s[|s| - 1]) then
      var t := s[..|s| - 1];
      var k := TrailingSpace(t);
      var tail := s[|s| - (k + 1)..];
      forall i | 0 <= i < |tail| ensures IsSpace(tail[i]) {
        if i < k {
          assert tail[i] == t[|t| - k..][i];
        } else {
          assert tail[i] == s[|s| - 1];
        }
      }
      k + 1
    else 0
  }

  /** `s.trim()`: the slice of `s` left after dropping white space at both
      ends. */
  function Trim(s: string): (r: string)
    ensures exists i, j :: 0 <= i <= j <= |s| && r == s[i..j] && AllSpace(s[..i]) && AllSpace(s[j..])
    ensures r == [] || (!IsSpace(r[0]) && !IsSpace(r[|r| - 1]))
  {
    var i := LeadingSpace(s);
    if i == |s| then
      assert s[i..i] == [] && s[i..] == [];
      []
    else
      var t := TrailingSpace(s);
      assert t < |s| - i;
      s[i..|s| - t]
  }

  /** A string is left unchanged by `trim` exactly when it does not start or
      end with white space. */
  predicate IsTrimmed(s: string) {
    s == [] || (!IsSpace(s[0]) && !IsSpace(s[|s| - 1]))
  }

  lemma TrimOfTrimmed(s: string)
    requires IsTrimmed(s)
    ensures Trim(s) == s
  {
  }

  lemma TrimIdempotent(s: string)
    ensures Trim(Trim(s)) == Trim(s)
  {
    TrimOfTrimmed(Trim(s));
  }

  /** `s.trim()` is empty exactly when `s` is all white space. */
  lemma {:induction false} TrimEmptyIffAllSpace(s: string)
    ensures Trim(s) == [] <==> AllSpace(s)
  {
    var i, j :| 0 <= i <= j <= |s| && Trim(s) == s[i..j] && AllSpace(s[..i]) && AllSpace(s[j..]);
    if Trim(s) == [] {
      assert i == j;
      forall k | 0 <= k < |s| ensures IsSpace(s[k]) {
        if k < i { assert s[..i][k] == s[k]; } else { assert s[j..][k - j] == s[k]; }
      }
    } else {
      var r := Trim(s);
      assert !IsSpace(r[0]) && r[0] == s[i];
    }
  }

  // ---------------------------------------------------------------------
  // Case folding and substring search

  /** `toLowerCase` on the ASCII letters; every other character is kept. */
  function LowerChar(c: char): char {
    if 'A' <= c <= 'Z' then (c as int + 32) as char else c
  }

  function Lower(s: string): (r: string)
    ensures |r| == |s|
    ensures forall i | 0 <= i < |s| :: r[i] == LowerChar(s[i])
  {
    seq(|s|, i requires 0 <= i < |s| => LowerChar(s[i]))
  }

  /** `s.includes(sub)`. */
  ghost predicate Contains(s: string, sub: string) {
    exists i :: OccursAt(s, sub, i)
  }

  predicate OccursAt(s: string, sub: string, i: int) {
    0 <= i && i + |sub| <= |s| && s[i..i + |sub|] == sub
  }

  /** Executable form of `Contains`, scanning from the left. */
  function ContainsFrom(s: string, sub: string, from: nat): (b: bool)
    requires from <= |s|
    ensures b <==> exists i | from <= i :: OccursAt(s, sub, i)
    decreases |s| - from
  {
    if from + |sub| > |s| then false
    else if s[from..from + |sub|] == sub then assert OccursAt(s, sub, from); true
    else ContainsFrom(s, sub, from + 1)
  }

  function Includes(s: string, sub: string): (b: bool)
    ensures b <==> Contains(s, sub)
  {
    ContainsFrom(s, sub, 0)
  }

  // ---------------------------------------------------------------------
  // Building and splitting strings

  /** `c.repeat(n)`. */
  function Repeat(c: char, n: nat): (r: string)
    ensures |r| == n
    ensures forall i | 0 <= i < n :: r[i] == c
  {
    seq(n, i => c)
  }

  predicate NoSep(s: string, isSep: char -> bool) {
    forall i | 0 <= i < |s| :: !isSep(s[i])
  }

  /** `s.split(sep)` where `sep` is a set of single characters (a regular
      expression character class). Like JavaScript, the empty string splits
      into one empty piece. */
  function Split(s: string, isSep: char -> bool): (r: seq<string>)
    ensures |r| >= 1
    ensures forall k | 0 <= k < |r| :: NoSep(r[k], isSep)
    decreases |s|
  {
    if |s| == 0 then [""]
    else
      var rest := Split(s[1..], isSep);
      if isSep(s[0]) then [""] + rest
      else [[s[0]] + rest[0]] + rest[1..]
  }

  /** `pieces.join(sep)`. */
  function Join(pieces: seq<string>, sep: char): string
  {
    if |pieces| == 0 then ""
    else if |pieces| == 1 then pieces[0]
    else pieces[0] + [sep] + Join(pieces[1..], sep)
  }

  lemma {:induction false} SplitPiece(p: string, isSep: char -> bool)
    requires NoSep(p, isSep)
    ensures Split(p, isSep) == [p]
    decreases |p|
  {
    if |p| > 0 {
      SplitPiece(p[1..], isSep);
      assert [p[0]] + p[1..] == p;
    }
  }

  lemma {:induction false} SplitPieceThenSep(p: string, sep: char, rest: string, isSep: char -> bool)
    requires NoSep(p, isSep) && isSep(sep)
    ensures Split(p + [sep] + rest, isSep) == [p] + Split(rest, isSep)
    decreases |p|
  {
    var s := p + [sep] + rest;
    if |p| == 0 {
      assert s[1..] == rest;
    } else {
      assert s[1..] == p[1..] + [sep] + rest;
      SplitPieceThenSep(p[1..], sep, rest, isSep);
      assert [p[0]] + p[1..] == p;
    }
  }

  /** Splitting undoes joining when no piece holds a separator. */
  lemma {:induction false} SplitJoin(pieces: seq<string>, sep: char, isSep: char -> bool)
    requires |pieces| >= 1 && isSep(sep)
    requires forall k | 0 <= k < |pieces| :: NoSep(pieces[k], isSep)
    ensures Split(Join(pieces, sep), isSep) == pieces
    decreases |pieces|
  {
    if |pieces| == 1 {
      SplitPiece(pieces[0], isSep);
    } else {
      SplitPieceThenSep(pieces[0], sep, Join(pieces[1..], sep), isSep);
      SplitJoin(pieces[1..], sep, isSep);
      assert [pieces[0]] + pieces[1..] == pieces;
    }
  }

  /** `text.split(sep).map(t => t.trim()).filter(Boolean)`: the non-empty
      trimmed pieces, in order. */
  function Tokens(text: string, isSep: char -> bool): (r: seq<string>)
    ensures forall k | 0 <= k < |r| :: r[k] != "" && IsTrimmed(r[k]) && NoSep(r[k], isSep)
  {
    TrimPieces(Split(text, isSep), isSep)
  }

  /** The non-empty trimmed pieces; `isSep` only names what the pieces are
      known to be free of. */
  function TrimPieces(pieces: seq<string>, isSep: char -> bool): (r: seq<string>)
    ensures forall k | 0 <= k < |r| :: r[k] != "" && IsTrimmed(r[k])
    ensures (forall k | 0 <= k < |pieces| :: NoSep(pieces[k], isSep)) ==> forall k | 0 <= k < |r| :: NoSep(r[k], isSep)
  {
    if |pieces| == 0 then []
    else
      var t := Trim(pieces[0]);
      var rest := TrimPieces(pieces[1..], isSep);
      TrimKeepsNoSep(pieces[0], isSep);
      TrimOfTrimmed(t);
      TrimIdempotent(pieces[0]);
      if t == "" then rest
      else
        ConsPiece(t, rest, isSep);
        [t] + rest
  }

  lemma ConsPiece(t: string, rest: seq<string>, isSep: char -> bool)
    requires t != "" && IsTrimmed(t)
    requires forall k | 0 <= k < |rest| :: rest[k] != "" && IsTrimmed(rest[k])
    ensures forall k | 0 <= k < |[t] + rest| :: ([t] + rest)[k] != "" && IsTrimmed(([t] + rest)[k])
    ensures NoSep(t, isSep) && (forall k | 0 <= k < |rest| :: NoSep(rest[k], isSep)) ==>
      forall k | 0 <= k < |[t] + rest| :: NoSep(([t] + rest)[k], isSep)
  {
    forall k | 1 <= k < |[t] + rest| ensures ([t] + rest)[k] == rest[k - 1] { }
  }

  lemma TrimKeepsNoSep(s: string, isSep: char -> bool)
    ensures NoSep(s, isSep) ==> NoSep(Trim(s), isSep)
  {
    var i, j :| 0 <= i <= j <= |s| && Trim(s) == s[i..j] && AllSpace(s[..i]) && AllSpace(s[j..]);
    if NoSep(s, isSep) {
      forall k | 0 <= k < |Trim(s)| ensures !isSep(Trim(s)[k]) {
        assert Trim(s)[k] == s[i + k];
      }
    }
  }

  /** The concatenation of a sequence of strings. */
  function Concat(parts: seq<string>): string {
    if |parts| == 0 then "" else parts[0] + Concat(parts[1..])
  }

  // ---------------------------------------------------------------------
  // Sequences

  /** `Array.prototype.filter`. */
  function Filter<T>(s: seq<T>, keep: T -> bool): (r: seq<T>)
    ensures |r| <= |s|
    ensures forall k | 0 <= k < |r| :: keep(r[k]) && r[k] in s
    ensures forall x | x in s && keep(x) :: x in r
  {
    if |s| == 0 then []
    else if keep(s[0]) then [s[0]] + Filter(s[1..], keep)
    else Filter(s[1..], keep)
  }

  /** `s.map(f)`. */
  function Map<A, B>(s: seq<A>, f: A -> B): (r: seq<B>)
    ensures |r| == |s|
    ensures forall k | 0 <= k < |s| :: r[k] == f(s[k])
  {
    if |s| == 0 then [] else [f(s[0])] + Map(s[1..], f)
  }

  /** Filtering is order-preserving: it distributes over concatenation. */
  lemma {:induction false} FilterAppend<T>(a: seq<T>, b: seq<T>, keep: T -> bool)
    ensures Filter(a + b, keep) == Filter(a, keep) + Filter(b, keep)
  {
    if |a| == 0 {
      assert a + b == b;
    } else {
      assert (a + b)[0] == a[0];
      assert (a + b)[1..] == a[1..] + b;
      FilterAppend(a[1..], b, keep);
    }
  }

  /** Filtering with a test every element passes changes nothing. */
  lemma {:induction false} FilterKeepsAll<T>(s: seq<T>, keep: T -> bool)
    requires forall k | 0 <= k < |s| :: keep(s[k])
    ensures Filter(s, keep) == s
  {
    if |s| > 0 {
      FilterKeepsAll(s[1..], keep);
    }
  }

  /** Filtering out exactly one element is splicing it out. */
  lemma {:induction false} FilterDropsOne<T>(s: seq<T>, keep: T -> bool, i: int)
    requires 0 <= i < |s| && !keep(s[i])
    requires forall k | 0 <= k < |s| && k != i :: keep(s[k])
    ensures Filter(s, keep) == s[..i] + s[i + 1..]
  {
    var before, after := s[..i], s[i + 1..];
    var rest := [s[i]] + after;
    assert s == before + rest;
    forall k | 0 <= k < |before| ensures keep(before[k]) {
      assert before[k] == s[k];
    }
    forall k | 0 <= k < |after| ensures keep(after[k]) {
      assert after[k] == s[i + 1 + k];
    }
    FilterKeepsAll(before, keep);
    FilterKeepsAll(after, keep);
    assert rest[0] == s[i] && rest[1..] == after;
    assert Filter(rest, keep) == after;
    FilterAppend(before, rest, keep);
  }

  /** Filtering keeps the multiplicity of every kept element and drops the
      others entirely. */
  lemma {:induction false} FilterMultiset<T>(s: seq<T>, keep: T -> bool)
    ensures forall x :: multiset(Filter(s, keep))[x] == if keep(x) then multiset(s)[x] else 0
  {
    if |s| > 0 {
      FilterMultiset(s[1..], keep);
      assert s == [s[0]] + s[1..];
    }
  }

  /** Index of the first element satisfying `p` (`findIndex`, with
      `None` for -1). */
  function FindIndex<T>(s: seq<T>, p: T -> bool): (r: Option<nat>)
    ensures r.None? <==> forall k | 0 <= k < |s| :: !p(s[k])
    ensures r.Some? ==> r.value < |s| && p(s[r.value]) && forall k | 0 <= k < r.value :: !p(s[k])
  {
    if |s| == 0 then None
    else if p(s[0]) then Some(0)
    else match FindIndex(s[1..], p)
      case None => None
      case Some(i) => Some(i + 1)
  }

  /** An index that satisfies the test, with none before it, is what
      `FindIndex` finds. */
  lemma FindIndexFirst<T>(s: seq<T>, p: T -> bool, i: nat)
    requires i < |s| && p(s[i])
    requires forall k | 0 <= k < i :: !p(s[k])
    ensures FindIndex(s, p) == Some(i)
  {
  }

  /** Replacing the element `FindIndex` finds by another that passes the
      test leaves the found index where it was. */
  lemma FindIndexAfterSet<T>(s: seq<T>, p: T -> bool, i: nat, v: T)
    requires FindIndex(s, p) == Some(i) && p(v)
    ensures FindIndex(s[i := v], p) == Some(i)
  {
    FindIndexFirst(s[i := v], p, i);
  }

  /** Whether some index in `from..n` passes the test. */
  function AnyIndex(n: nat, p: nat -> bool, from: nat): (b: bool)
    requires from <= n
    ensures b <==> exists k | from <= k < n :: p(k)
    decreases n - from
  {
    if from == n then false else p(from) || AnyIndex(n, p, from + 1)
  }

  predicate NoDuplicates<T(==)>(s: seq<T>) {
    forall i, j | 0 <= i < j < |s| :: s[i] != s[j]
  }
}

=== FILE: digits.dfy ===
/** Decimal rendering of integers (what a template literal `${n}` produces
    for an integer) and the matching reader, used to show that the pages'
    month/age texts can be read back unambiguously; and `parseInt` without a
    radix, which the book and trip forms apply to their rating selects.
 */
module Digits {
  import opened Common

  predicate IsDigit(c: char) {
    '0' <= c <= '9'
  }

  predicate AllDigits(s: string) {
    forall i | 0 <= i < |s| :: IsDigit(s[i])
  }

  function DigitChar(d: nat): (c: char)
    requires d < 10
    ensures IsDigit(c) && c as int - '0' as int == d
  {
    ('0' as int + d) as char
  }

  /** `String(n)` for a natural number: decimal, no leading zeros. */
  function NatToString(n: nat): (r: string)
    ensures |r| >= 1 && AllDigits(r)
    ensures r[0] == '0' ==> n == 0
  {
    if n < 10 then [DigitChar(n)]
    else NatToString(n / 10) + [DigitChar(n % 10)]
  }

  /** `String(n)` for any integer. */
  function IntToString(n: int): (r: string)
    ensures n >= 0 ==> r == NatToString(n)
    ensures n < 0 ==> r == "-" + NatToString(-n)
  {
    if n >= 0 then NatToString(n) else "-" + NatToString(-n)
  }

  /** The value of a string of decimal digits. */
  function DigitsValue(s: string): nat
    requires AllDigits(s)
  {
    if |s| == 0 then 0
    else DigitsValue(s[..|s| - 1]) * 10 + (s[|s| - 1] as int - '0' as int)
  }

  lemma {:induction false} DigitsValueOfNatToString(n: nat)
    ensures DigitsValue(NatToString(n)) == n
  {
    if n >= 10 {
      var s := NatToString(n);
      assert s[..|s| - 1] == NatToString(n / 10);
      DigitsValueOfNatToString(n / 10);
    }
  }

  /** The longest prefix of `s` made of digits. */
  function DigitPrefix(s: string): (r: string)
    ensures r <= s && AllDigits(r)
    ensures |r| < |s| ==> !IsDigit(s[|r|])
  {
    if |s| > 0 && IsDigit(s[0]) then [s[0]] + DigitPrefix(s[1..]) else ""
  }

  lemma {:induction false} DigitPrefixOfDigitsThen(d: string, t: string)
    requires AllDigits(d)
    requires t == [] || !IsDigit(t[0])
    ensures DigitPrefix(d + t) == d
  {
    if |d| > 0 {
      assert (d + t)[1..] == d[1..] + t;
      DigitPrefixOfDigitsThen(d[1..], t);
    } else {
      assert d + t == t;
    }
  }

  /** Reads a natural number at the front of `s`; returns it with the rest of
      the text, or `None` when `s` does not start with a digit. */
  function ReadNat(s: string): (r: Option<(nat, string)>)
    ensures r.Some? ==> |r.value.1| < |s|
  {
    var d := DigitPrefix(s);
    if |d| == 0 then None else Some((DigitsValue(d), s[|d|..]))
  }

  /** `ReadNat` recovers a number written by `NatToString` from the front of
      any text that does not continue with a digit. */
  lemma ReadNatToString(n: nat, t: string)
    requires t == [] || !IsDigit(t[0])
    ensures ReadNat(NatToString(n) + t) == Some((n, t))
  {
    var d := NatToString(n);
    DigitPrefixOfDigitsThen(d, t);
    DigitsValueOfNatToString(n);
    assert (d + t)[|d|..] == t;
  }

  // ---------------------------------------------------------------------
  // `parseInt` without a radix

  predicate IsHexDigit(c: char) {
    IsDigit(c) || 'a' <= c <= 'f' || 'A' <= c <= 'F'
  }

  predicate AllHexDigits(s: string) {
    forall i | 0 <= i < |s| :: IsHexDigit(s[i])
  }

  function HexDigitValue(c: char): (v: nat)
    requires IsHexDigit(c)
    ensures v < 16
    ensures IsDigit(c) ==> v == c as int - '0' as int
  {
    if IsDigit(c) then c as int - '0' as int
    else if 'a' <= c <= 'f' then c as int - 'a' as int + 10
    else assert 'A' <= c; c as int - 'A' as int + 10
  }

  /** The value of a string of hexadecimal digits. */
  function HexValue(s: string): nat
    requires AllHexDigits(s)
  {
    if |s| == 0 then 0
    else HexValue(s[..|s| - 1]) * 16 + HexDigitValue(s[|s| - 1])
  }

  /** The longest prefix of `s` made of hexadecimal digits. */
  function HexPrefix(s: string): (r: string)
    ensures r <= s && AllHexDigits(r)
    ensures |r| < |s| ==> !IsHexDigit(s[|r|])
  {
    if |s| > 0 && IsHexDigit(s[0]) then [s[0]] + HexPrefix(s[1..]) else ""
  }

  /** `s` after its leading white space. */
  function AfterSpace(s: string): (t: string)
    ensures |t| <= |s| && t == s[|s| - |t|..] && AllSpace(s[..|s| - |t|])
    ensures t == [] || !IsSpace(t[0])
  {
    s[LeadingSpace(s)..]
  }

  /** Whether text after the white space starts with a minus sign. */
  predicate Negative(t: string) {
    |t| > 0 && t[0] == '-'
  }

  /** Text after the white space without its one optional sign. */
  function Unsigned(t: string): (u: string)
    ensures |u| <= |t| && u == t[|t| - |u|..]
    ensures |u| < |t| <==> |t| > 0 && (t[0] == '+' || t[0] == '-')
  {
    if |t| > 0 && (t[0] == '+' || t[0] == '-') then t[1..] else t
  }

  /** Whether the unsigned text carries the `0x`/`0X` radix prefix. */
  predicate HexPrefixed(u: string) {
    |u| >= 2 && u[0] == '0' && (u[1] == 'x' || u[1] == 'X')
  }

  /** The magnitude `parseInt` reads from unsigned text: hexadecimal digits
      after `0x`, decimal digits otherwise; `None` when no digit is read. */
  function Magnitude(u: string): Option<nat> {
    if HexPrefixed(u) then
      var h := HexPrefix(u[2..]);
      if |h| == 0 then None else Some(HexValue(h))
    else
      match ReadNat(u)
      case None => None
      case Some((n, _)) => Some(n)
  }

  /** A magnitude is read exactly when a digit follows the radix prefix,
      if any. */
  lemma MagnitudeIsNumberIff(u: string)
    ensures Magnitude(u).Some? <==>
      if HexPrefixed(u) then |u| > 2 && IsHexDigit(u[2]) else |u| > 0 && IsDigit(u[0])
  {
    if HexPrefixed(u) {
      assert |u| > 2 && IsHexDigit(u[2]) ==> |HexPrefix(u[2..])| > 0;
    }
  }

  /** `parseInt` on text that starts after the white space. */
  function ParseSigned(t: string): (r: Option<int>)
    ensures r.Some? && Negative(t) ==> r.value <= 0
    ensures r.Some? && !Negative(t) ==> r.value >= 0
  {
    match Magnitude(Unsigned(t))
    case None => None
    case Some(m) => Some(if Negative(t) then -(m as int) else m as int)
  }

  /** `parseInt(s)` with no radix: leading white space is skipped, one sign
      is read, then the digits as far as they go; `None` is NaN. */
  function ParseInt(s: string): (r: Option<int>)
    ensures r.Some? && Negative(AfterSpace(s)) ==> r.value <= 0
    ensures r.Some? && !Negative(AfterSpace(s)) ==> r.value >= 0
  {
    ParseSigned(AfterSpace(s))
  }

  /** `parseInt` gives a number exactly when a digit follows the white
      space, the sign and the `0x` prefix, if any. */
  lemma ParseIntIsNumberIff(s: string)
    ensures ParseInt(s).Some? <==> var u := Unsigned(AfterSpace(s));
      if HexPrefixed(u) then |u| > 2 && IsHexDigit(u[2]) else |u| > 0 && IsDigit(u[0])
  {
    MagnitudeIsNumberIff(Unsigned(AfterSpace(s)));
    assert ParseInt(s) == ParseSigned(AfterSpace(s));
  }

  /** White space in front of a text does not change what `parseInt` reads. */
  lemma {:induction false} ParseIntSkipsSpace(w: string, x: string)
    requires AllSpace(w)
    ensures ParseInt(w + x) == ParseInt(x)
  {
    LeadingSpaceAppend(w, x);
    assert AfterSpace(w + x) == AfterSpace(x) by {
      assert (w + x)[LeadingSpace(w + x)..] == x[LeadingSpace(x)..];
    }
  }

  lemma {:induction false} LeadingSpaceAppend(w: string, x: string)
    requires AllSpace(w)
    ensures LeadingSpace(w + x) == |w| + LeadingSpace(x)
    decreases |w|
  {
    if |w| == 0 {
      assert w + x == x;
    } else {
      assert (w + x)[1..] == w[1..] + x;
      LeadingSpaceAppend(w[1..], x);
    }
  }

  /** The magnitude of a number written by `NatToString`, followed by text
      that neither continues the digits nor turns a lone `0` into `0x`. */
  lemma MagnitudeOfNatToString(m: nat, t: string)
    requires t == [] || (!IsDigit(t[0]) && t[0] != 'x' && t[0] != 'X')
    ensures Magnitude(NatToString(m) + t) == Some(m)
  {
    var d := NatToString(m);
    if m == 0 {
      assert d == "0";
    } else {
      assert d[0] != '0';
    }
    assert !HexPrefixed(d + t);
    ReadNatToString(m, t);
  }

  /** Text that does not start with white space is read as it is. */
  lemma NoLeadingSpace(s: string)
    requires s == [] || !IsSpace(s[0])
    ensures AfterSpace(s) == s
  {
    assert LeadingSpace(s) == 0;
    assert s[0..] == s;
  }

  /** Text starting with a digit is read by its magnitude alone. */
  lemma ParseIntOfDigits(s: string, m: nat)
    requires Magnitude(s) == Some(m) && IsDigit(s[0])
    ensures ParseInt(s) == Some(m)
  {
    NoLeadingSpace(s);
    assert !Negative(s) && Unsigned(s) == s;
    assert ParseSigned(s) == Some(m);
    assert ParseInt(s) == ParseSigned(AfterSpace(s));
    assert ParseInt(s) == Some(m);
  }

  /** A number written by `NatToString` is read as itself. */
  lemma ParseIntOfNatToString(m: nat, t: string)
    requires t == [] || (!IsDigit(t[0]) && t[0] != 'x' && t[0] != 'X')
    ensures ParseInt(NatToString(m) + t) == Some(m)
  {
    MagnitudeOfNatToString(m, t);
    assert (NatToString(m) + t)[0] == NatToString(m)[0];
    ParseIntOfDigits(NatToString(m) + t, m);
  }

  /** A minus sign in front of unsigned digits negates what they read. */
  lemma ParseIntOfMinus(s: string, u: string, m: nat)
    requires s == ['-'] + u
    requires Magnitude(u) == Some(m) && u[0] != '+' && u[0] != '-'
    ensures ParseInt(s) == Some(-(m as int))
  {
    NoLeadingSpace(s);
    assert s[1..] == u;
    assert ParseInt(s) == ParseSigned(AfterSpace(s));
  }

  /** A negative number written by `String(n)` is read as itself. */
  lemma ParseIntOfNegative(n: int, t: string)
    requires n < 0
    requires t == [] || (!IsDigit(t[0]) && t[0] != 'x' && t[0] != 'X')
    ensures ParseInt(IntToString(n) + t) == Some(n)
  {
    var u := NatToString(-n) + t;
    assert IntToString(n) + t == ['-'] + u by {
      assert IntToString(n) == ['-'] + NatToString(-n);
    }
    MagnitudeOfNatToString(-n, t);
    assert u[0] == NatToString(-n)[0];
    ParseIntOfMinus(IntToString(n) + t, u, -n);
  }

  /** `parseInt` reads back any integer written by `String(n)`, also with
      text after it that does not continue the number. */
  lemma ParseIntOfIntToString(n: int, t: string)
    requires t == [] || (!IsDigit(t[0]) && t[0] != 'x' && t[0] != 'X')
    ensures ParseInt(IntToString(n) + t) == Some(n)
  {
    if n >= 0 {
      ParseIntOfNatToString(n, t);
    } else {
      ParseIntOfNegative(n, t);
    }
  }

  /** A hexadecimal number after `0x`, with its sign. */
  lemma ParseIntHexExample()
    ensures ParseInt("-0x1F") == Some(-31)
  {
    NoLeadingSpace("-0x1F");
    assert Unsigned("-0x1F") == "0x1F";
    assert HexPrefix("1F") == "1F";
    assert HexValue("1F") == 31 by {
      assert "1F"[..1] == "1";
    }
  }

  /** A decimal number stops at the first character that is not a digit. */
  lemma ParseIntDecimalExample()
    ensures ParseInt("3.5") == Some(3)
  {
    NoLeadingSpace("3.5");
    assert Unsigned("3.5") == "3.5";
    assert DigitPrefix("3.5") == "3";
    assert ReadNat("3.5") == Some((3, ".5"));
  }

  /** No digit, no number: NaN. */
  lemma ParseIntEmptyExample()
    ensures ParseInt("") == None
  {
    NoLeadingSpace("");
  }

  /** The radix prefix alone is no number. */
  lemma ParseIntBareHexExample()
    ensures ParseInt("0x") == None
  {
    NoLeadingSpace("0x");
    assert Unsigned("0x") == "0x";
    assert HexPrefixed("0x");
    assert Magnitude("0x") == None;
  }

  /** White space between the sign and the digits is no number. */
  lemma ParseIntSpacedSignExample()
    ensures ParseInt("- 5") == None
  {
    NoLeadingSpace("- 5");
    assert Unsigned("- 5") == " 5";
    assert Magnitude(" 5") == None;
  }
}

=== FILE: editbook.dfy ===
/** The add/edit book form (js/pages/edit-book.js). A `bookId` in the
    address selects edit mode, whose submission keeps the stored book's
    cover and notes; without one the form adds a new book with a
    placeholder cover and no notes.
 */
module EditBook {
  import opened Common
  import opened Digits
  import opened BookNotes
  import NoteDetail

  /** `urlParams.get('bookId')` is null or a string; the empty string is
      falsy, so it selects add mode too. */
  predicate IsEditMode(bookId: Option<string>) {
    bookId.Some? && bookId.value != ""
  }

  /** The raw form fields. */
  datatype BookForm = BookForm(bookName: string, author: string, rating: string,
                               readingStatus: string, startDate: string, finishDate: string)

  /** `bookData` as the page sends it to the store; the rating is
      `parseInt` of the select's value, `None` standing for NaN. */
  datatype BookData = BookData(bookName: string, author: string, rating: Option<int>,
                               readingStatus: string, startDate: string, finishDate: string,
                               cover: Option<string>, notes: seq<Note>)

  datatype Submission =
    | NameMissing
    | BookNotFound
    | Update(id: string, data: BookData)
    | Add(data: BookData)

  function HasBookId(id: string): Book -> bool {
    (b: Book) => b.id == id
  }

  /** `handleSubmit()`: the trimmed name is required; in edit mode the
      stored book's cover and notes (`notes || []`) are carried over, in
      add mode the cover is the placeholder and the notes are empty. In
      edit mode with no stored book of that id, `existingBook.cover`
      throws: `BookNotFound`. */
  function Submit(form: BookForm, bookId: Option<string>, books: seq<Book>, placeholder: string): (r: Submission)
    ensures r.NameMissing? <==> Trim(form.bookName) == ""
    ensures r.BookNotFound? <==> (Trim(form.bookName) != "" && IsEditMode(bookId)
      && forall k | 0 <= k < |books| :: books[k].id != bookId.value)
    ensures r.Add? <==> Trim(form.bookName) != "" && !IsEditMode(bookId)
    ensures r.Add? ==> r.data.cover == Some(placeholder) && r.data.notes == []
    ensures r.Update? ==> IsEditMode(bookId) && r.id == bookId.value
    ensures r.Update? ==> exists k | 0 <= k < |books| :: (books[k].id == r.id
      && r.data.cover == books[k].cover && r.data.notes == NoteDetail.NotesOf(books[k]))
    ensures r.Add? || r.Update? ==> FromForm(form, r.data)
  {
    var name := Trim(form.bookName);
    if name == "" then NameMissing
    else
      var data := BookData(name, Trim(form.author), ParseInt(form.rating),
                           form.readingStatus, form.startDate, form.finishDate, None, []);
      if IsEditMode(bookId) then
        match FindIndex(books, HasBookId(bookId.value))
        case None => BookNotFound
        case Some(i) => Update(bookId.value, data.(cover := books[i].cover, notes := NoteDetail.NotesOf(books[i])))
      else Add(data.(cover := Some(placeholder), notes := []))
  }

  /** The form fields of `data`: name and author trimmed, the rating
      parsed, the rest as entered. */
  predicate FromForm(form: BookForm, data: BookData) {
    && data.bookName == Trim(form.bookName) && data.bookName != ""
    && data.author == Trim(form.author)
    && data.rating == ParseInt(form.rating)
    && data.readingStatus == form.readingStatus
    && data.startDate == form.startDate
    && data.finishDate == form.finishDate
  }

  /** Editing a book's details never loses its notes: the notes the notes
      page stored are sent back unchanged. */
  lemma EditKeepsNotes(form: BookForm, bookId: string, books: seq<Book>, placeholder: string, i: int)
    requires 0 <= i < |books| && books[i].id == bookId && bookId != ""
    requires forall k | 0 <= k < i :: books[k].id != bookId
    requires Trim(form.bookName) != ""
    ensures Submit(form, Some(bookId), books, placeholder).Update?
    ensures Submit(form, Some(bookId), books, placeholder).data.notes == NoteDetail.NotesOf(books[i])
  {
    assert FindIndex(books, HasBookId(bookId)) == Some(i);
  }
}

=== FILE: formimage.dfy ===
/** The image picker of the hobby and work forms (`handleImageSelect` in
    js/pages/hobby-add.js, hobby-edit.js, work-add.js and work-edit.js, four
    copies of the same code) and the cover each form saves. A chosen file
    is checked against the 2 MiB limit, decoded, scaled so that its longer
    side is at most 800 pixels and re-encoded as a JPEG of quality 0.7.
    Decoding is the parameter `decoded` and the canvas encoder `enc`.
 */
module FormImage {
  import opened Common
  import opened ImageSize
  import opened Reencode
  import opened Upload

  /** JPEG quality 0.7, in hundredths. */
  const FormQuality: nat := 70

  datatype Selection =
    | Refused(check: UploadCheck)
    | NotDecoded
    | Selected(image: string, size: Dims)

  /** `handleImageSelect(e)`: no file, a file that is not an image and a
      file over 2 MiB are refused before reading; an image that does not
      decode leaves nothing selected; otherwise the image drawn at its
      800-pixel size on a plain (not white-filled) canvas. */
  function SelectImage(file: Option<FileInfo>, decoded: Option<Dims>, enc: Encoder): (r: Selection)
    ensures r.Refused? <==> CheckUpload(file, TwoMiB) != Accepted
    ensures r.Refused? ==> r.check == CheckUpload(file, TwoMiB)
    ensures r.NotDecoded? <==> CheckUpload(file, TwoMiB) == Accepted && decoded.None?
    ensures r.Selected? ==> file.Some? && IsImageType(file.value.mime) && file.value.size <= TwoMiB
    ensures r.Selected? ==> r.size.width <= 800 && r.size.height <= 800
    ensures r.Selected? ==> r.size.width <= decoded.value.width && r.size.height <= decoded.value.height
    ensures r.Selected? ==> r.size == Resize800(decoded.value.width, decoded.value.height)
    ensures r.Selected? ==> r.image == enc(Render(Jpeg, r.size.width, r.size.height, FormQuality, false))
  {
    var check := CheckUpload(file, TwoMiB);
    if check != Accepted then Refused(check)
    else match decoded
      case None => NotDecoded
      case Some(d) =>
        var size := Resize800(d.width, d.height);
        Selected(enc(Render(Jpeg, size.width, size.height, FormQuality, false)), size)
  }

  /** An image already within 800 pixels is drawn at its own size. */
  lemma SmallImageKeepsSize(file: FileInfo, d: Dims, enc: Encoder)
    requires IsImageType(file.mime) && file.size <= TwoMiB
    requires d.width <= 800 && d.height <= 800
    ensures SelectImage(Some(file), Some(d), enc) == Selected(enc(Render(Jpeg, d.width, d.height, FormQuality, false)), d)
  {
  }

  /** `currentImage || StorageManager.getPlaceholderImage(600, 400)`: no
      image (never chosen, or removed with `removeImage`) and the empty
      string both give the placeholder. */
  function CoverOf(current: Option<string>, placeholder: string): (r: string)
    ensures r == placeholder || (current.Some? && r == current.value && r != "")
    ensures current.None? ==> r == placeholder
    ensures current.Some? && current.value != "" ==> r == current.value
  {
    if current.Some? && current.value != "" then current.value else placeholder
  }
}

=== FILE: hobbies.dfy ===
/** Hobbies with their works and milestones: the list page
    (js/pages/hobbies.js: the duration text, import and export) and the
    detail page (js/pages/hobby-detail.js: defaults, the milestone
    timeline, deleting a milestone).
 */
module Hobbies {
  import opened Common
  import opened Digits
  import opened Months
  import Store

  datatype Work = Work(id: string, title: string, image: string, createDate: string, description: string)

  datatype Milestone = Milestone(id: string, date: string, title: string, description: string)

  /** A stored hobby; `works` and `milestones` may be missing in old data. */
  datatype Hobby = Hobby(id: string, name: string, coverImage: string, shortDesc: string, startDate: string,
                         detailContent: string, works: Option<seq<Work>>, milestones: Option<seq<Milestone>>)

  function HasHobbyId(id: string): Hobby -> bool {
    (h: Hobby) => h.id == id
  }

  /** `hobby.works || []` and `hobby.milestones || []`. */
  function WorksOf(h: Hobby): (r: seq<Work>)
    ensures h.works.Some? ==> r == h.works.value
    ensures h.works.None? ==> r == []
  {
    if h.works.Some? then h.works.value else []
  }

  function MilestonesOf(h: Hobby): (r: seq<Milestone>)
    ensures h.milestones.Some? ==> r == h.milestones.value
    ensures h.milestones.None? ==> r == []
  {
    if h.milestones.Some? then h.milestones.value else []
  }

  /** Hobby `i` is the first with the id. */
  predicate FirstWithId(hobbies: seq<Hobby>, id: string, i: int) {
    && 0 <= i < |hobbies| && hobbies[i].id == id
    && forall k | 0 <= k < i :: hobbies[k].id != id
  }

  /** `hobbies.find(h => h.id === hobbyId)` with the page's `hobbyId`,
      which is null (`None`) when the address lacks it: no hobby has a null
      id. */
  function FindHobby(hobbies: seq<Hobby>, hobbyId: Option<string>): (r: Option<nat>)
    ensures r.None? <==> hobbyId.None? || forall k | 0 <= k < |hobbies| :: hobbies[k].id != hobbyId.value
    ensures r.Some? ==> FirstWithId(hobbies, hobbyId.value, r.value)
  {
    if hobbyId.None? then None else FindIndex(hobbies, HasHobbyId(hobbyId.value))
  }

  /** `StorageManager.updateHobby(hobbyId, updates)` before the write: the
      first hobby with the id is merged with the updates (`update`);
      `None` (false) when no hobby has the id. */
  function UpdateHobby(hobbies: seq<Hobby>, id: string, update: Hobby -> Hobby): (r: Option<seq<Hobby>>)
    ensures r.None? <==> forall k | 0 <= k < |hobbies| :: hobbies[k].id != id
    ensures r.Some? ==> exists i :: FirstWithId(hobbies, id, i) && r.value == hobbies[i := update(hobbies[i])]
  {
    match FindIndex(hobbies, HasHobbyId(id))
    case None => None
    case Some(i) =>
      assert FirstWithId(hobbies, id, i);
      Some(hobbies[i := update(hobbies[i])])
  }

  /** Replacing the first hobby with an id by one with the same id leaves
      it the first with that id. */
  lemma FindHobbyAfterUpdate(hobbies: seq<Hobby>, id: string, i: int, h: Hobby)
    requires FirstWithId(hobbies, id, i) && h.id == id
    ensures FindHobby(hobbies[i := h], Some(id)) == Some(i)
  {
    FindIndexFirst(hobbies[i := h], HasHobbyId(id), i);
  }

  /** There is only one first hobby with an id. */
  lemma FirstWithIdUnique(hobbies: seq<Hobby>, id: string, i: int, j: int)
    requires FirstWithId(hobbies, id, i) && FirstWithId(hobbies, id, j)
    ensures i == j
  {
  }

  // ---------------------------------------------------------------------
  // Duration

  const Unknown := "未知"
  const UnderOneMonth := "不到1个月"
  /** What the template prints when the start date cannot be parsed: every
      comparison with NaN fails and `${NaN}年` is printed. */
  const NotANumberYears := "NaN年"
  const YearUnit := '年'

  /** `calculateDuration(startDate)` (the same function on the list page
      and the detail page). `parsed` is the year and month of
      `new Date(startDate)`, `None` when it is an invalid date. */
  function DurationText(startDate: string, parsed: Option<YearMonth>, now: YearMonth): (r: string)
    ensures startDate == "" ==> r == Unknown
    ensures startDate != "" && parsed.None? ==> r == NotANumberYears
    ensures startDate != "" && parsed.Some? && MonthsBetween(parsed.value, now) < 1 ==> r == UnderOneMonth
    // under a year the months alone, from a year on the years and leftover months
    ensures startDate != "" && parsed.Some? && 1 <= MonthsBetween(parsed.value, now) < 12 ==>
      r == NatToString(MonthsBetween(parsed.value, now)) + MonthUnit
    ensures startDate != "" && parsed.Some? && MonthsBetween(parsed.value, now) >= 12 ==>
      r == YearsText(MonthsBetween(parsed.value, now), YearUnit)
  {
    if startDate == "" then Unknown
    else if parsed.None? then NotANumberYears
    else
      var total := MonthsBetween(parsed.value, now);
      if total < 1 then UnderOneMonth
      else if total < 12 then NatToString(total) + MonthUnit
      else YearsText(total, YearUnit)
  }

  /** The duration text of a start date at least a month back reads back
      as the number of whole months; the other texts read as no number. */
  lemma DurationReadsBack(startDate: string, start: YearMonth, now: YearMonth)
    requires startDate != ""
    ensures var n := MonthsBetween(start, now);
      ReadMonthsText(DurationText(startDate, Some(start), now), YearUnit) == if n >= 1 then Some(n) else None
  {
    var n := MonthsBetween(start, now);
    if n < 1 {
      assert DurationText(startDate, Some(start), now) == UnderOneMonth;
      assert !IsDigit(UnderOneMonth[0]);
    } else if n < 12 {
      ReadMonthCount(n, YearUnit);
    } else {
      ReadYearsText(n, YearUnit);
    }
  }

  /** Distinct month counts give distinct texts. */
  lemma DurationTextInjective(startDate: string, a: YearMonth, b: YearMonth, now: YearMonth)
    requires startDate != ""
    requires MonthsBetween(a, now) >= 1 && MonthsBetween(b, now) >= 1
    requires DurationText(startDate, Some(a), now) == DurationText(startDate, Some(b), now)
    ensures MonthsBetween(a, now) == MonthsBetween(b, now)
  {
    DurationReadsBack(startDate, a, now);
    DurationReadsBack(startDate, b, now);
  }

  // ---------------------------------------------------------------------
  // Export and import

  /** `exportHobbies()`: an empty list is refused, anything else is
      offered for download as is (the JSON text is not modelled). */
  function ExportHobbies(hobbies: seq<Hobby>): (r: Option<seq<Hobby>>)
    ensures r.None? <==> |hobbies| == 0
    ensures r.Some? ==> r.value == hobbies
  {
    if |hobbies| == 0 then None else Some(hobbies)
  }

  datatype ImportFailure = ParseError | NotAnArray | SaveFailed

  datatype ImportOutcome = Failed(why: ImportFailure) | Cancelled | Imported(items: seq<Store.Value>)

  /** `importHobbies(file)` after the file is read: `parsed` is the result
      of `JSON.parse` (`None` when it throws), `existing` the number of
      stored hobbies and `confirmed` the answer to the overwrite question,
      which is only asked when something would be overwritten. */
  function ImportHobbies(parsed: Option<Store.Value>, existing: nat, confirmed: bool, writeOk: bool): (r: ImportOutcome)
    ensures parsed.None? <==> r == Failed(ParseError)
    ensures r == Failed(NotAnArray) <==> parsed.Some? && !parsed.value.Arr?
    ensures r.Cancelled? <==> parsed.Some? && parsed.value.Arr? && existing > 0 && !confirmed
    ensures r.Imported? <==> parsed.Some? && parsed.value.Arr? && (existing == 0 || confirmed) && writeOk
    ensures r.Imported? ==> r.items == parsed.value.items
  {
    match parsed
    case None => Failed(ParseError)
    case Some(v) =>
      if !v.Arr? then Failed(NotAnArray)
      else if existing > 0 && !confirmed then Cancelled
      else if writeOk then Imported(v.items)
      else Failed(SaveFailed)
  }

  /** With nothing stored the answer to the overwrite question is never
      consulted. */
  lemma ImportIgnoresAnswerWhenEmpty(parsed: Option<Store.Value>, writeOk: bool)
    ensures ImportHobbies(parsed, 0, true, writeOk) == ImportHobbies(parsed, 0, false, writeOk)
  {
  }

  // ---------------------------------------------------------------------
  // Detail page

  /** The detail page's view of a hobby: what it shows and what the store
      holds for its milestones. */
  datatype Detail = Detail(hobby: Hobby, works: seq<Work>, milestones: seq<Milestone>, stored: seq<Milestone>)

  datatype Opened = MissingId | HobbyNotFound | Opened(detail: Detail)

  /** `initPage()`: the id from the address (null or empty is missing),
      the first hobby with it, and its missing lists defaulted to empty. */
  function InitDetail(hobbyId: Option<string>, hobbies: seq<Hobby>): (r: Opened)
    ensures r.MissingId? <==> hobbyId.None? || hobbyId.value == ""
    ensures r.HobbyNotFound? <==> (hobbyId.Some? && hobbyId.value != ""
      && forall k | 0 <= k < |hobbies| :: hobbies[k].id != hobbyId.value)
    ensures r.Opened? ==> r.detail.hobby in hobbies && r.detail.hobby.id == hobbyId.value
    ensures r.Opened? ==> r.detail.works == WorksOf(r.detail.hobby)
    ensures r.Opened? ==> r.detail.milestones == MilestonesOf(r.detail.hobby) == r.detail.stored
  {
    if hobbyId.None? || hobbyId.value == "" then MissingId
    else match FindIndex(hobbies, HasHobbyId(hobbyId.value))
      case None => HobbyNotFound
      case Some(i) =>
        var h := hobbies[i];
        Opened(Detail(h, WorksOf(h), MilestonesOf(h), MilestonesOf(h)))
  }

  /** `deleteMilestone(id)`: after confirmation every milestone with the id
      is filtered out and written with `updateHobby`; the page takes the
      new list only when the write succeeds. */
  function DeleteMilestone(d: Detail, milestoneId: string, confirmed: bool, writeOk: bool): (r: Detail)
    ensures !confirmed || !writeOk ==> r == d
    ensures confirmed && writeOk ==> r.stored == r.milestones
    ensures confirmed && writeOk ==> forall m :: m in r.milestones <==> m in d.milestones && m.id != milestoneId
    ensures r.hobby == d.hobby && r.works == d.works
  {
    if !confirmed then d
    else
      var updated := Filter(d.milestones, (m: Milestone) => m.id != milestoneId);
      if writeOk then d.(milestones := updated, stored := updated) else d
  }

  /** Deleting keeps the timeline equal to the stored milestones. */
  lemma DeleteMilestoneKeepsSync(d: Detail, milestoneId: string, confirmed: bool, writeOk: bool)
    requires d.milestones == d.stored
    ensures DeleteMilestone(d, milestoneId, confirmed, writeOk).milestones == DeleteMilestone(d, milestoneId, confirmed, writeOk).stored
  {
  }

  // ---------------------------------------------------------------------
  // Timeline order

  /** `[...milestones].sort((a, b) => new Date(b.date) - new Date(a.date))`:
      newest first, milestones of the same day in their stored order
      (`Array.prototype.sort` is stable). `day` is the date as a day
      number. */
  function Timeline(ms: seq<Milestone>, day: string -> int): (r: seq<Milestone>)
    ensures NewestFirst(r, day)
    ensures multiset(r) == multiset(ms)
    decreases |ms|
  {
    if |ms| == 0 then []
    else
      assert ms == [ms[0]] + ms[1..];
      Insert(ms[0], Timeline(ms[1..], day), day)
  }

  predicate NewestFirst(ms: seq<Milestone>, day: string -> int) {
    forall i, j | 0 <= i < j < |ms| :: day(ms[i].date) >= day(ms[j].date)
  }

  /** Puts `m` before the first milestone that is not newer than it. */
  function Insert(m: Milestone, sorted: seq<Milestone>, day: string -> int): (r: seq<Milestone>)
    requires NewestFirst(sorted, day)
    ensures NewestFirst(r, day)
    ensures multiset(r) == multiset(sorted) + multiset{m}
    ensures forall k | 0 <= k < |r| :: r[k] == m || r[k] in sorted
    decreases |sorted|
  {
    if |sorted| == 0 || day(sorted[0].date) <= day(m.date) then
      ConsNewestFirst(m, sorted, day);
      [m] + sorted
    else
      var rest := Insert(m, sorted[1..], day);
      NotNewerThanHead(m, sorted, rest, day);
      ConsNewestFirst(sorted[0], rest, day);
      assert sorted == [sorted[0]] + sorted[1..];
      [sorted[0]] + rest
  }

  /** A milestone no older than every milestone of a timeline can head it. */
  lemma ConsNewestFirst(x: Milestone, rest: seq<Milestone>, day: string -> int)
    requires NewestFirst(rest, day)
    requires forall k | 0 <= k < |rest| :: day(x.date) >= day(rest[k].date)
    ensures NewestFirst([x] + rest, day)
  {
    var r := [x] + rest;
    forall i, j | 0 <= i < j < |r| ensures day(r[i].date) >= day(r[j].date) {
      assert r[j] == rest[j - 1];
      if i > 0 {
        assert r[i] == rest[i - 1];
      }
    }
  }

  /** What `Insert` puts after the head of a timeline is no newer than the
      head, when `m` is older than it. */
  lemma NotNewerThanHead(m: Milestone, sorted: seq<Milestone>, rest: seq<Milestone>, day: string -> int)
    requires NewestFirst(sorted, day) && |sorted| > 0 && day(sorted[0].date) > day(m.date)
    requires forall k | 0 <= k < |rest| :: rest[k] == m || rest[k] in sorted[1..]
    ensures forall k | 0 <= k < |rest| :: day(sorted[0].date) >= day(rest[k].date)
  {
    forall k | 0 <= k < |rest| ensures day(sorted[0].date) >= day(rest[k].date) {
      if rest[k] != m {
        var j :| 0 <= j < |sorted[1..]| && sorted[1..][j] == rest[k];
        assert sorted[1 + j] == rest[k];
      }
    }
  }

  function SameDay(d: int, day: string -> int): Milestone -> bool {
    (m: Milestone) => day(m.date) == d
  }

  lemma {:induction false} InsertStable(m: Milestone, sorted: seq<Milestone>, day: string -> int, d: int)
    requires NewestFirst(sorted, day)
    ensures Filter(Insert(m, sorted, day), SameDay(d, day))
      == (if day(m.date) == d then [m] else []) + Filter(sorted, SameDay(d, day))
    decreases |sorted|
  {
    if |sorted| == 0 || day(sorted[0].date) <= day(m.date) {
      assert ([m] + sorted)[1..] == sorted;
    } else {
      InsertStable(m, sorted[1..], day, d);
      var r := [sorted[0]] + Insert(m, sorted[1..], day);
      assert r[1..] == Insert(m, sorted[1..], day);
      assert day(sorted[0].date) != d || day(m.date) != d;
    }
  }

  /** The timeline is stable: the milestones of any one day appear in the
      order they are stored. */
  lemma {:induction false} TimelineStable(ms: seq<Milestone>, day: string -> int, d: int)
    ensures Filter(Timeline(ms, day), SameDay(d, day)) == Filter(ms, SameDay(d, day))
    decreases |ms|
  {
    if |ms| > 0 {
      TimelineStable(ms[1..], day, d);
      InsertStable(ms[0], Timeline(ms[1..], day), day, d);
    }
  }
}

=== FILE: hobbyforms.dfy ===
/** The hobby add and edit forms (js/pages/hobby-add.js and
    js/pages/hobby-edit.js). Both take the trimmed name, short description
    and details and the start date as entered, require the name and then
    the start date, and save the chosen image or a placeholder as the
    cover. Adding appends a hobby with no works or milestones, refused when
    its JSON text would exceed 1 MiB; editing merges the fields into the
    stored hobby and keeps its works and milestones.
 */
module HobbyForms {
  import opened Common
  import opened Hobbies
  import opened FormImage

  /** The raw form fields. */
  datatype HobbyForm = HobbyForm(name: string, shortDesc: string, startDate: string, detailContent: string)

  datatype Rejection = NameMissing | StartDateMissing | TooLarge | WriteFailed

  datatype Submitted = Rejected(why: Rejection) | Stored(hobbies: seq<Hobby>)

  /** The name is checked before the start date. */
  function Validate(form: HobbyForm): (r: Option<Rejection>)
    ensures r == Some(NameMissing) <==> Trim(form.name) == ""
    ensures r == Some(StartDateMissing) <==> Trim(form.name) != "" && form.startDate == ""
    ensures r.None? <==> Trim(form.name) != "" && form.startDate != ""
  {
    if Trim(form.name) == "" then Some(NameMissing)
    else if form.startDate == "" then Some(StartDateMissing)
    else None
  }

  /** The fields of `h` the form sets, from the form and the cover. */
  predicate FromForm(h: Hobby, form: HobbyForm, cover: string) {
    && h.name == Trim(form.name)
    && h.coverImage == cover
    && h.shortDesc == Trim(form.shortDesc)
    && h.startDate == form.startDate
    && h.detailContent == Trim(form.detailContent)
  }

  /** `1024 * 1024` characters of JSON. */
  const OneMiB: nat := 1024 * 1024

  /** The hobby the add form builds, with the id `addHobby` gives it. */
  function NewHobby(id: string, form: HobbyForm, cover: string): (r: Hobby)
    ensures r.id == id && FromForm(r, form, cover)
    ensures r.works == Some([]) && r.milestones == Some([])
  {
    Hobby(id, Trim(form.name), cover, Trim(form.shortDesc), form.startDate, Trim(form.detailContent), Some([]), Some([]))
  }

  /** hobby-add.js `handleSubmit()`. `jsonLength` is the length of
      `JSON.stringify` of the form data, which has no id yet (written here
      as the empty id); `freshId` is what `generateId` returns and `writeOk`
      the result of the write. */
  function AddHobby(form: HobbyForm, current: Option<string>, placeholder: string, jsonLength: Hobby -> nat,
                    freshId: string, hobbies: seq<Hobby>, writeOk: bool): (r: Submitted)
    ensures Validate(form).Some? <==> r.Rejected? && (r.why == NameMissing || r.why == StartDateMissing)
    ensures Validate(form).Some? ==> r == Rejected(Validate(form).value)
    ensures r == Rejected(TooLarge) <==>
      Validate(form).None? && jsonLength(NewHobby("", form, CoverOf(current, placeholder))) > OneMiB
    ensures r.Stored? <==>
      Validate(form).None? && jsonLength(NewHobby("", form, CoverOf(current, placeholder))) <= OneMiB && writeOk
    ensures r.Stored? ==> r.hobbies == hobbies + [NewHobby(freshId, form, CoverOf(current, placeholder))]
  {
    match Validate(form)
    case Some(why) => Rejected(why)
    case None =>
      var cover := CoverOf(current, placeholder);
      if jsonLength(NewHobby("", form, cover)) > OneMiB then Rejected(TooLarge)
      else if writeOk then Stored(hobbies + [NewHobby(freshId, form, cover)])
      else Rejected(WriteFailed)
  }

  /** A hobby just added opens on the detail page with no works and no
      milestones, when its id is new. */
  lemma AddedHobbyOpens(form: HobbyForm, current: Option<string>, placeholder: string, jsonLength: Hobby -> nat,
                        freshId: string, hobbies: seq<Hobby>)
    requires freshId != "" && forall k | 0 <= k < |hobbies| :: hobbies[k].id != freshId
    requires AddHobby(form, current, placeholder, jsonLength, freshId, hobbies, true).Stored?
    ensures var h := NewHobby(freshId, form, CoverOf(current, placeholder));
      InitDetail(Some(freshId), AddHobby(form, current, placeholder, jsonLength, freshId, hobbies, true).hobbies)
        == Opened(Detail(h, [], [], []))
  {
    var h := NewHobby(freshId, form, CoverOf(current, placeholder));
    var hs := hobbies + [h];
    assert hs[|hobbies|] == h;
    FindIndexFirst(hs, HasHobbyId(freshId), |hobbies|);
  }

  /** Any JSON text of a hobby holds its cover, so a cover longer than
      1 MiB can never be added. */
  lemma LargeCoverNeverAdded(form: HobbyForm, current: Option<string>, placeholder: string, jsonLength: Hobby -> nat,
                             freshId: string, hobbies: seq<Hobby>, writeOk: bool)
    requires forall h: Hobby :: jsonLength(h) >= |h.coverImage|
    requires |CoverOf(current, placeholder)| > OneMiB
    ensures !AddHobby(form, current, placeholder, jsonLength, freshId, hobbies, writeOk).Stored?
  {
    var h := NewHobby("", form, CoverOf(current, placeholder));
    assert jsonLength(h) >= |h.coverImage|;
  }

  /** hobby-edit.js `initPage()`: the id from the address (null or empty is
      missing) and the first hobby with it; `currentImage` starts as its
      cover when it has one. */
  datatype EditPage = NoHobbyId | NoSuchHobby | Editing(hobby: Hobby, current: Option<string>)

  function InitEdit(hobbyId: Option<string>, hobbies: seq<Hobby>): (r: EditPage)
    ensures r.NoHobbyId? <==> hobbyId.None? || hobbyId.value == ""
    ensures r.NoSuchHobby? <==> (hobbyId.Some? && hobbyId.value != ""
      && forall k | 0 <= k < |hobbies| :: hobbies[k].id != hobbyId.value)
    ensures r.Editing? ==> exists i :: FirstWithId(hobbies, hobbyId.value, i) && r.hobby == hobbies[i]
    ensures r.Editing? ==> (r.current.Some? <==> r.hobby.coverImage != "")
    ensures r.Editing? && r.current.Some? ==> r.current.value == r.hobby.coverImage
  {
    if hobbyId.None? || hobbyId.value == "" then NoHobbyId
    else match FindHobby(hobbies, hobbyId)
      case None => NoSuchHobby
      case Some(i) =>
        var h := hobbies[i];
        Editing(h, if h.coverImage != "" then Some(h.coverImage) else None)
  }

  /** The hobby after `{ ...hobby, ...updates }`: the form's fields
      replace the old ones, the id, works and milestones stay. */
  function Merged(h: Hobby, form: HobbyForm, cover: string): (r: Hobby)
    ensures FromForm(r, form, cover)
    ensures r.id == h.id && r.works == h.works && r.milestones == h.milestones
  {
    h.(name := Trim(form.name), coverImage := cover, shortDesc := Trim(form.shortDesc),
       startDate := form.startDate, detailContent := Trim(form.detailContent))
  }

  /** hobby-edit.js `handleSubmit()`. `hobbyId` is `currentHobby.id`,
      `None` when the page found no hobby (the property access then throws
      inside the `try` and is reported as a failed update, as is an id no
      longer stored). */
  function EditHobby(form: HobbyForm, current: Option<string>, placeholder: string,
                     hobbyId: Option<string>, hobbies: seq<Hobby>, writeOk: bool): (r: Submitted)
    ensures Validate(form).Some? ==> r == Rejected(Validate(form).value)
    ensures r != Rejected(TooLarge)
    ensures r.Stored? <==> (Validate(form).None? && writeOk && hobbyId.Some?
      && exists k | 0 <= k < |hobbies| :: hobbies[k].id == hobbyId.value)
    ensures r.Stored? ==> exists i :: (FirstWithId(hobbies, hobbyId.value, i)
      && r.hobbies == hobbies[i := Merged(hobbies[i], form, CoverOf(current, placeholder))])
  {
    match Validate(form)
    case Some(why) => Rejected(why)
    case None =>
      if hobbyId.None? then Rejected(WriteFailed)
      else
        var cover := CoverOf(current, placeholder);
        match UpdateHobby(hobbies, hobbyId.value, (h: Hobby) => Merged(h, form, cover))
        case None => Rejected(WriteFailed)
        case Some(updated) => if writeOk then Stored(updated) else Rejected(WriteFailed)
  }

  /** Editing changes only the edited hobby's own fields: every other
      hobby, and its id, works and milestones, are kept; a removed image
      is saved as the placeholder. */
  lemma EditKeepsTheRest(form: HobbyForm, current: Option<string>, placeholder: string,
                         hobbyId: string, hobbies: seq<Hobby>, i: int)
    requires FirstWithId(hobbies, hobbyId, i)
    requires Validate(form).None?
    ensures var r := EditHobby(form, current, placeholder, Some(hobbyId), hobbies, true);
      && r.Stored? && |r.hobbies| == |hobbies|
      && (forall k | 0 <= k < |hobbies| && k != i :: r.hobbies[k] == hobbies[k])
      && r.hobbies[i].id == hobbyId
      && r.hobbies[i].works == hobbies[i].works
      && r.hobbies[i].milestones == hobbies[i].milestones
      && (current.None? ==> r.hobbies[i].coverImage == placeholder)
  {
    var r := EditHobby(form, current, placeholder, Some(hobbyId), hobbies, true);
    var j :| FirstWithId(hobbies, hobbyId, j)
      && r.hobbies == hobbies[j := Merged(hobbies[j], form, CoverOf(current, placeholder))];
    FirstWithIdUnique(hobbies, hobbyId, i, j);
  }

  /** Saving the edit form untouched, from a hobby whose fields are
      already trimmed, gives back the stored hobbies. */
  lemma UntouchedEditChangesNothing(hobbies: seq<Hobby>, hobbyId: string, i: int, placeholder: string)
    requires FirstWithId(hobbies, hobbyId, i)
    requires Trim(hobbies[i].name) == hobbies[i].name != "" && hobbies[i].startDate != ""
    requires Trim(hobbies[i].shortDesc) == hobbies[i].shortDesc && Trim(hobbies[i].detailContent) == hobbies[i].detailContent
    ensures var h := hobbies[i];
      var page := InitEdit(Some(hobbyId), hobbies);
      var form := HobbyForm(h.name, h.shortDesc, h.startDate, h.detailContent);
      page.Editing? && h.coverImage != "" ==>
        EditHobby(form, page.current, placeholder, Some(hobbyId), hobbies, true) == Stored(hobbies)
  {
    var h := hobbies[i];
    var page := InitEdit(Some(hobbyId), hobbies);
    var form := HobbyForm(h.name, h.shortDesc, h.startDate, h.detailContent);
    if page.Editing? && h.coverImage != "" {
      var r := EditHobby(form, page.current, placeholder, Some(hobbyId), hobbies, true);
      var j :| FirstWithId(hobbies, hobbyId, j)
        && r.hobbies == hobbies[j := Merged(hobbies[j], form, CoverOf(page.current, placeholder))];
      FirstWithIdUnique(hobbies, hobbyId, i, j);
      var k :| FirstWithId(hobbies, hobbyId, k) && page.hobby == hobbies[k];
      FirstWithIdUnique(hobbies, hobbyId, i, k);
      assert Merged(h, form, h.coverImage) == h;
    }
  }
}

=== FILE: imagesize.dfy ===
/** Size arithmetic shared by the image pipelines: the byte estimate of a
    base64 data URL, and the three ways the pages clamp an image's
    dimensions (album/trip `getScaledSize`, avatar `getScaledDimensions`,
    and the fixed 800-pixel resize of the hobby and work forms).

    JavaScript's `Math.round(x)` of a non-negative quotient `a / b` is
    written `RoundDiv(a, b)`: round half up, computed without floating
    point.
 */
module ImageSize {
  import opened Common

  // ---------------------------------------------------------------------
  // Base64 byte estimate

  /** `Math.ceil(len * 3 / 4)`: the number of bytes `len` base64 characters
      stand for, rounded up. */
  function CeilBytes(len: nat): (n: nat)
    ensures 4 * n >= 3 * len
    ensures 4 * n < 3 * len + 4
  {
    (3 * len + 3) / 4
  }

  /** Known vectors of the estimate: 4 characters are 3 bytes, 8 are 6 and
      a partial group of 5 rounds up to 4. */
  lemma CeilBytesVectors()
    ensures CeilBytes(4) == 3 && CeilBytes(8) == 6 && CeilBytes(5) == 4
  {
  }

  predicate IsComma(c: char) {
    c == ','
  }

  function CountCommas(s: string): nat {
    if |s| == 0 then 0 else (if IsComma(s[0]) then 1 else 0) + CountCommas(s[1..])
  }

  /** `s.split(',')` has one piece more than `s` has commas. */
  lemma {:induction false} SplitCommaLength(s: string)
    ensures |Split(s, IsComma)| == 1 + CountCommas(s)
    decreases |s|
  {
    if |s| > 0 {
      SplitCommaLength(s[1..]);
    }
  }

  lemma {:induction false} CountCommasPositive(s: string)
    ensures CountCommas(s) > 0 <==> ',' in s
    decreases |s|
  {
    if |s| > 0 {
      CountCommasPositive(s[1..]);
      assert s == [s[0]] + s[1..];
    }
  }

  /** `dataUrl.split(',')[1]`: the base64 payload of a data URL, that is the
      text after the first comma up to the next comma. */
  function SecondPiece(s: string): (p: string)
    requires ',' in s
    ensures NoSep(p, IsComma)
  {
    CountCommasPositive(s);
    SplitCommaLength(s);
    Split(s, IsComma)[1]
  }

  /** The payload the album and trip pages measure: the second comma-piece,
      or the whole string when it has no comma. */
  function Payload(s: string): string {
    if ',' in s then SecondPiece(s) else s
  }

  /** `getBase64Size` of the album and trip-detail pages: 0 for the empty
      string, otherwise the byte estimate of `Payload(dataUrl)`. */
  function Base64Size(dataUrl: string): (n: nat)
    ensures dataUrl == "" ==> n == 0
    ensures dataUrl != "" ==> 4 * n >= 3 * |Payload(dataUrl)| && 4 * n < 3 * |Payload(dataUrl)| + 4
  {
    if dataUrl == "" then 0 else CeilBytes(|Payload(dataUrl)|)
  }

  /** `calculateBase64Size` of the profile page: 0 for the empty string and
      for a string without a comma, otherwise the estimate of the second
      comma-piece. */
  function AvatarBase64Size(dataUrl: string): (n: nat)
    ensures ',' !in dataUrl ==> n == 0
  {
    if dataUrl == "" then 0
    else
      var parts := Split(dataUrl, IsComma);
      SplitCommaLength(dataUrl);
      CountCommasPositive(dataUrl);
      if |parts| < 2 then 0 else CeilBytes(|parts[1]|)
  }

  /** The two size helpers agree on every data URL (every string with a
      comma); on a comma-free string the profile page counts 0 bytes while
      the album counts the whole string. */
  lemma {:induction false} SizeHelpersAgree(s: string)
    ensures ',' in s ==> AvatarBase64Size(s) == Base64Size(s)
    ensures ',' !in s && s != "" ==> AvatarBase64Size(s) == 0 && Base64Size(s) == CeilBytes(|s|)
  {
    SplitCommaLength(s);
    CountCommasPositive(s);
  }

  // ---------------------------------------------------------------------
  // Dimension clamps

  function Max(a: int, b: int): int {
    if a >= b then a else b
  }

  lemma MulLe(k: nat, x: int, y: int)
    requires x <= y
    ensures k * x <= k * y
  {
    assert k * y - k * x == k * (y - x);
  }

  lemma MulCancelLt(k: nat, a: int, c: int)
    requires k * a < k * c
    ensures a < c
  {
    if a >= c {
      MulLe(k, c, a);
    }
  }

  lemma DivBounds(n: nat, d: nat)
    requires d > 0
    ensures d * (n / d) <= n < d * (n / d) + d
  {
  }

  /** `Math.round(a / b)` for `a >= 0`, `b > 0`. */
  function RoundDiv(a: nat, b: nat): (r: nat)
    requires b > 0
    ensures 2 * b * r <= 2 * a + b < 2 * b * (r + 1)
  {
    DivBounds(2 * a + b, 2 * b);
    (2 * a + b) / (2 * b)
  }

  lemma RoundDivMono(a1: nat, a2: nat, b: nat)
    requires b > 0 && a1 <= a2
    ensures RoundDiv(a1, b) <= RoundDiv(a2, b)
  {
    var r1, r2 := RoundDiv(a1, b), RoundDiv(a2, b);
    assert 2 * b * r1 < 2 * b * (r2 + 1);
    MulCancelLt(2 * b, r1, r2 + 1);
  }

  datatype Dims = Dims(width: nat, height: nat) {
    function LongSide(): nat { Max(width, height) }
  }

  /** Scaling one side `x <= maxSide` by `m / maxSide < 1` never enlarges it,
      never exceeds `m`, and maps the longer side itself to exactly `m`. */
  lemma ScaleDown(x: nat, m: nat, maxSide: nat)
    requires m < maxSide && x <= maxSide
    ensures RoundDiv(x * m, maxSide) <= x
    ensures RoundDiv(x * m, maxSide) <= m
    ensures x == maxSide ==> RoundDiv(x * m, maxSide) == m
  {
    ScaleDownBelowSide(x, m, maxSide);
    ScaleDownBelowMax(x, m, maxSide);
    if x == maxSide {
      ScaleDownLongSide(m, maxSide);
    }
  }

  lemma ScaleDownBelowSide(x: nat, m: nat, maxSide: nat)
    requires m < maxSide && x <= maxSide
    ensures RoundDiv(x * m, maxSide) <= x
  {
    var r := RoundDiv(x * m, maxSide);
    var k := 2 * maxSide;
    assert k * r <= 2 * (x * m) + maxSide;
    MulLe(2 * x, m + 1, maxSide);
    assert 2 * x * (m + 1) <= 2 * x * maxSide;
    assert k * r < k * (x + 1);
    MulCancelLt(k, r, x + 1);
  }

  lemma ScaleDownBelowMax(x: nat, m: nat, maxSide: nat)
    requires m < maxSide && x <= maxSide
    ensures RoundDiv(x * m, maxSide) <= m
  {
    var r := RoundDiv(x * m, maxSide);
    var k := 2 * maxSide;
    assert k * r <= 2 * (x * m) + maxSide;
    MulLe(2 * m, x, maxSide);
    assert 2 * m * x <= 2 * m * maxSide;
    assert k * r < k * (m + 1);
    MulCancelLt(k, r, m + 1);
  }

  lemma ScaleDownLongSide(m: nat, maxSide: nat)
    requires m < maxSide
    ensures RoundDiv(maxSide * m, maxSide) == m
  {
    var r := RoundDiv(maxSide * m, maxSide);
    var k := 2 * maxSide;
    assert k * m < k * (r + 1);
    MulCancelLt(k, m, r + 1);
    assert k * r < k * (m + 1);
    MulCancelLt(k, r, m + 1);
  }

  /** `getScaledSize(width, height, maxDimension)` (album and trip detail):
      unchanged when the longer side fits, otherwise both sides scaled by
      `maxDimension / longer side` and rounded. */
  function ScaledSize(width: nat, height: nat, maxDimension: nat): (r: Dims)
    ensures Max(width, height) <= maxDimension ==> r == Dims(width, height)
    ensures r.width <= width && r.height <= height
    ensures Max(width, height) > maxDimension ==> r.LongSide() == maxDimension
    ensures width <= height ==> r.width <= r.height
    ensures height <= width ==> r.height <= r.width
  {
    var maxSide := Max(width, height);
    if maxSide <= maxDimension then Dims(width, height)
    else
      ScaleDown(width, maxDimension, maxSide);
      ScaleDown(height, maxDimension, maxSide);
      ScaledOrder(width, height, maxDimension, maxSide);
      ScaledOrder(height, width, maxDimension, maxSide);
      Dims(RoundDiv(width * maxDimension, maxSide), RoundDiv(height * maxDimension, maxSide))
  }

  lemma ScaledOrder(x: nat, y: nat, m: nat, maxSide: nat)
    requires maxSide > 0
    ensures x <= y ==> RoundDiv(x * m, maxSide) <= RoundDiv(y * m, maxSide)
  {
    if x <= y {
      MulLe(m, x, y);
      RoundDivMono(x * m, y * m, maxSide);
    }
  }

  /** Every scaled side differs from the exact proportional value by at most
      half a pixel: the aspect ratio is kept up to rounding. */
  lemma ScaledSizeKeepsAspect(width: nat, height: nat, maxDimension: nat)
    requires Max(width, height) > maxDimension
    ensures var r := ScaledSize(width, height, maxDimension);
      var ms := Max(width, height);
      2 * ms * r.width <= 2 * (width * maxDimension) + ms < 2 * ms * (r.width + 1) &&
      2 * ms * r.height <= 2 * (height * maxDimension) + ms < 2 * ms * (r.height + 1)
  {
    var ms := Max(width, height);
    assert ScaledSize(width, height, maxDimension)
      == Dims(RoundDiv(width * maxDimension, ms), RoundDiv(height * maxDimension, ms));
  }

  /** `getScaledDimensions(width, height, maxDimension)` (profile): like
      `ScaledSize` but every side is at least 1 pixel. */
  function ScaledDimensions(width: nat, height: nat, maxDimension: nat): (r: Dims)
    ensures r.width >= 1 && r.height >= 1
    ensures width >= 1 ==> r.width <= width
    ensures height >= 1 ==> r.height <= height
    ensures Max(width, height) <= maxDimension ==> r == Dims(Max(1, width), Max(1, height))
    ensures Max(width, height) > maxDimension ==> r.LongSide() == Max(1, maxDimension)
  {
    var s := ScaledSize(width, height, maxDimension);
    Dims(Max(1, s.width), Max(1, s.height))
  }

  /** Scaling the shorter side `x` by `800 / y` with `y > 800`, truncated,
      gives at most `x` and at most 800. */
  lemma Shrink800(x: nat, y: nat)
    requires x <= y && y > 800
    ensures var q := x * 800 / y;
      q * y <= x * 800 < (q + 1) * y && q <= x && q <= 800
  {
    var q := x * 800 / y;
    DivBounds(x * 800, y);
    MulLe(x, 800, y);
    MulLe(800, x, y);
    assert y * q < y * (x + 1);
    MulCancelLt(y, q, x + 1);
    assert y * q < y * 801;
    MulCancelLt(y, q, 801);
  }

  /** The fixed resize of the hobby and work forms: when either side exceeds
      800 the longer side (the height when both are equal) becomes 800 and
      the other is scaled and truncated, as assigning a fractional value to
      a canvas side does. */
  function Resize800(width: nat, height: nat): (r: Dims)
    ensures width <= 800 && height <= 800 ==> r == Dims(width, height)
    ensures r.width <= width && r.height <= height
    ensures r.width <= 800 && r.height <= 800
    ensures (width > 800 || height > 800) && width > height ==>
      r.width == 800 && r.height * width <= height * 800 < (r.height + 1) * width
    ensures (width > 800 || height > 800) && width <= height ==>
      r.height == 800 && r.width * height <= width * 800 < (r.width + 1) * height
  {
    if width > 800 || height > 800 then
      if width > height then
        Shrink800(height, width);
        Dims(800, height * 800 / width)
      else
        Shrink800(width, height);
        Dims(width * 800 / height, 800)
    else Dims(width, height)
  }
}

=== FILE: milestones.dfy ===
/** The milestone forms of a hobby: adding one (js/pages/milestone-add.js)
    and editing one (js/pages/milestone-edit.js). Like the work pages, each
    finds the first hobby with the id from the address and writes its new
    `milestones` list back with `updateHobby`. The detail page
    (js/pages/hobby-detail.js, modelled in `Hobbies`) shows and deletes
    them.
 */
module Milestones {
  import opened Common
  import opened Hobbies

  /** The raw form fields. */
  datatype MilestoneForm = MilestoneForm(date: string, title: string, description: string)

  datatype Rejection = DateMissing | TitleMissing | NoSuchHobby | NoSuchMilestone | WriteFailed

  /** `Crashed`: the stored hobby has no `milestones` list and the edit page
      calls a method on it; nothing is written. */
  datatype Submitted = Rejected(why: Rejection) | Crashed | Stored(hobbies: seq<Hobby>)

  /** The date is checked before the title. */
  function Validate(form: MilestoneForm): (r: Option<Rejection>)
    ensures r == Some(DateMissing) <==> form.date == ""
    ensures r == Some(TitleMissing) <==> form.date != "" && Trim(form.title) == ""
    ensures r.None? <==> form.date != "" && Trim(form.title) != ""
  {
    if form.date == "" then Some(DateMissing)
    else if Trim(form.title) == "" then Some(TitleMissing)
    else None
  }

  /** The fields of `m` the forms set: the date as entered, title and
      description trimmed. */
  predicate FromForm(m: Milestone, form: MilestoneForm) {
    m.date == form.date && m.title == Trim(form.title) && m.description == Trim(form.description)
  }

  function NewMilestone(id: string, form: MilestoneForm): (r: Milestone)
    ensures r.id == id && FromForm(r, form)
  {
    Milestone(id, form.date, Trim(form.title), Trim(form.description))
  }

  /** The store with hobby `i`'s milestones replaced. */
  function WithMilestones(hobbies: seq<Hobby>, i: int, ms: seq<Milestone>): (r: seq<Hobby>)
    requires 0 <= i < |hobbies|
    ensures |r| == |hobbies| && r[i] == hobbies[i].(milestones := Some(ms))
    ensures forall k | 0 <= k < |hobbies| && k != i :: r[k] == hobbies[k]
  {
    hobbies[i := hobbies[i].(milestones := Some(ms))]
  }

  // ---------------------------------------------------------------------
  // Adding

  /** milestone-add.js `handleSubmit()`: after validation the hobby is
      looked up, its missing `milestones` list created, and the new
      milestone appended. `freshId` is what `generateId` returns. */
  function AddMilestone(form: MilestoneForm, freshId: string, hobbyId: Option<string>,
                        hobbies: seq<Hobby>, writeOk: bool): (r: Submitted)
    ensures Validate(form).Some? ==> r == Rejected(Validate(form).value)
    ensures r == Rejected(NoSuchHobby) <==> Validate(form).None? && FindHobby(hobbies, hobbyId).None?
    ensures r.Stored? <==> Validate(form).None? && FindHobby(hobbies, hobbyId).Some? && writeOk
    ensures !r.Crashed? && r != Rejected(NoSuchMilestone)
    ensures r.Stored? ==> exists i :: (FirstWithId(hobbies, hobbyId.value, i)
      && r.hobbies == WithMilestones(hobbies, i, MilestonesOf(hobbies[i]) + [NewMilestone(freshId, form)]))
  {
    match Validate(form)
    case Some(why) => Rejected(why)
    case None =>
      match FindHobby(hobbies, hobbyId)
      case None => Rejected(NoSuchHobby)
      case Some(i) =>
        if writeOk then Stored(WithMilestones(hobbies, i, MilestonesOf(hobbies[i]) + [NewMilestone(freshId, form)]))
        else Rejected(WriteFailed)
  }

  /** A milestone just added is the last of the hobby's milestones on the
      detail page, and the page's milestones are the stored ones. */
  lemma AddedMilestoneShown(form: MilestoneForm, freshId: string, hobbyId: string, hobbies: seq<Hobby>, i: int)
    requires hobbyId != "" && FirstWithId(hobbies, hobbyId, i) && Validate(form).None?
    ensures var r := AddMilestone(form, freshId, Some(hobbyId), hobbies, true);
      && r.Stored?
      && InitDetail(Some(hobbyId), r.hobbies).Opened?
      && InitDetail(Some(hobbyId), r.hobbies).detail.milestones == MilestonesOf(hobbies[i]) + [NewMilestone(freshId, form)]
  {
    var ms := MilestonesOf(hobbies[i]) + [NewMilestone(freshId, form)];
    var hs := WithMilestones(hobbies, i, ms);
    FindHobbyAfterUpdate(hobbies, hobbyId, i, hs[i]);
    assert hobbies[i := hs[i]] == hs;
  }

  /** Deleting a milestone just added, on the detail page, gives back the
      milestones the hobby had, when the new id is not among them. */
  lemma DeleteUndoesAdd(form: MilestoneForm, freshId: string, hobbyId: string, hobbies: seq<Hobby>, i: int)
    requires hobbyId != "" && FirstWithId(hobbies, hobbyId, i) && Validate(form).None?
    requires forall k | 0 <= k < |MilestonesOf(hobbies[i])| :: MilestonesOf(hobbies[i])[k].id != freshId
    ensures var r := AddMilestone(form, freshId, Some(hobbyId), hobbies, true);
      var page := InitDetail(Some(hobbyId), r.hobbies);
      && r.Stored? && page.Opened?
      && DeleteMilestone(page.detail, freshId, true, true).milestones == MilestonesOf(hobbies[i])
  {
    AddedMilestoneShown(form, freshId, hobbyId, hobbies, i);
    var before := MilestonesOf(hobbies[i]);
    var m := NewMilestone(freshId, form);
    var keep := (x: Milestone) => x.id != freshId;
    FilterAppend(before, [m], keep);
    FilterKeepsAll(before, keep);
    assert Filter([m], keep) == [];
  }

  // ---------------------------------------------------------------------
  // Editing

  datatype MilestonePage = MissingParams | HobbyMissing | MilestoneMissing | Editing(milestone: Milestone)

  function HasMilestoneId(id: string): Milestone -> bool {
    (m: Milestone) => m.id == id
  }

  /** milestone-edit.js `initPage()`: both ids are required, then the first
      hobby with its id, then the first of its milestones
      (`milestones || []`) with the milestone id. */
  function OpenMilestone(hobbyId: Option<string>, milestoneId: Option<string>, hobbies: seq<Hobby>): (r: MilestonePage)
    ensures r.MissingParams? <==> !Present(hobbyId) || !Present(milestoneId)
    ensures r.HobbyMissing? <==> Present(hobbyId) && Present(milestoneId) && FindHobby(hobbies, hobbyId).None?
    ensures r.MilestoneMissing? <==> (Present(hobbyId) && Present(milestoneId) && FindHobby(hobbies, hobbyId).Some?
      && forall k | 0 <= k < |MilestonesOf(hobbies[FindHobby(hobbies, hobbyId).value])| ::
           MilestonesOf(hobbies[FindHobby(hobbies, hobbyId).value])[k].id != milestoneId.value)
    ensures r.Editing? ==> exists i :: (FirstWithId(hobbies, hobbyId.value, i)
      && r.milestone in MilestonesOf(hobbies[i]) && r.milestone.id == milestoneId.value)
  {
    if !Present(hobbyId) || !Present(milestoneId) then MissingParams
    else match FindHobby(hobbies, hobbyId)
      case None => HobbyMissing
      case Some(i) =>
        var ms := MilestonesOf(hobbies[i]);
        match FindIndex(ms, HasMilestoneId(milestoneId.value))
        case None => MilestoneMissing
        case Some(j) => Editing(ms[j])
  }

  /** The milestone after `{ ...milestone, ...updates }`: the form's fields
      replace the old ones and the id stays. */
  function MergedMilestone(m: Milestone, form: MilestoneForm): (r: Milestone)
    ensures r.id == m.id && FromForm(r, form)
  {
    m.(date := form.date, title := Trim(form.title), description := Trim(form.description))
  }

  /** Milestone `j` is the first in `ms` with the id. */
  predicate FirstMilestone(ms: seq<Milestone>, id: string, j: int) {
    && 0 <= j < |ms| && ms[j].id == id
    && forall k | 0 <= k < j :: ms[k].id != id
  }

  /** The first milestone with the id, if the page's `milestoneId` is not
      null. */
  function FindMilestone(ms: seq<Milestone>, milestoneId: Option<string>): (r: Option<nat>)
    ensures r.None? <==> milestoneId.None? || forall k | 0 <= k < |ms| :: ms[k].id != milestoneId.value
    ensures r.Some? ==> FirstMilestone(ms, milestoneId.value, r.value)
  {
    if milestoneId.None? then None else FindIndex(ms, HasMilestoneId(milestoneId.value))
  }

  /** milestone-edit.js `handleSubmit()`: after validation the hobby is
      looked up again, the milestone's index found with
      `hobby.milestones.findIndex`, and only that milestone merged with the
      form's fields. */
  function EditMilestone(form: MilestoneForm, hobbyId: Option<string>, milestoneId: Option<string>,
                         hobbies: seq<Hobby>, writeOk: bool): (r: Submitted)
    ensures Validate(form).Some? ==> r == Rejected(Validate(form).value)
    ensures r == Rejected(NoSuchHobby) <==> Validate(form).None? && FindHobby(hobbies, hobbyId).None?
    ensures r.Crashed? <==> (Validate(form).None? && FindHobby(hobbies, hobbyId).Some?
      && hobbies[FindHobby(hobbies, hobbyId).value].milestones.None?)
    ensures r == Rejected(NoSuchMilestone) <==> (Validate(form).None? && FindHobby(hobbies, hobbyId).Some?
      && hobbies[FindHobby(hobbies, hobbyId).value].milestones.Some?
      && FindMilestone(hobbies[FindHobby(hobbies, hobbyId).value].milestones.value, milestoneId).None?)
    ensures r == Rejected(WriteFailed) ==> !writeOk
    // a valid edit of a milestone that exists is stored when the write succeeds
    ensures r.Stored? <==> (Validate(form).None? && writeOk && FindHobby(hobbies, hobbyId).Some?
      && hobbies[FindHobby(hobbies, hobbyId).value].milestones.Some?
      && FindMilestone(hobbies[FindHobby(hobbies, hobbyId).value].milestones.value, milestoneId).Some?)
    ensures r.Stored? ==> writeOk && exists i, j :: (FirstWithId(hobbies, hobbyId.value, i)
      && hobbies[i].milestones.Some? && FirstMilestone(hobbies[i].milestones.value, milestoneId.value, j)
      && r.hobbies == WithMilestones(hobbies, i,
           hobbies[i].milestones.value[j := MergedMilestone(hobbies[i].milestones.value[j], form)]))
  {
    match Validate(form)
    case Some(why) => Rejected(why)
    case None =>
      match FindHobby(hobbies, hobbyId)
      case None => Rejected(NoSuchHobby)
      case Some(i) =>
        if hobbies[i].milestones.None? then Crashed
        else
          var ms := hobbies[i].milestones.value;
          match FindMilestone(ms, milestoneId)
          case None => Rejected(NoSuchMilestone)
          case Some(j) =>
            if writeOk then Stored(WithMilestones(hobbies, i, ms[j := MergedMilestone(ms[j], form)]))
            else Rejected(WriteFailed)
  }

  /** After an edit the edit page opens the edited milestone, carrying the
      form's fields under its old id, and the detail page shows as many
      milestones as before. */
  lemma EditedMilestoneOpens(form: MilestoneForm, hobbyId: string, milestoneId: string, hobbies: seq<Hobby>)
    requires hobbyId != "" && milestoneId != ""
    requires EditMilestone(form, Some(hobbyId), Some(milestoneId), hobbies, true).Stored?
    ensures var r := EditMilestone(form, Some(hobbyId), Some(milestoneId), hobbies, true);
      var page := OpenMilestone(Some(hobbyId), Some(milestoneId), r.hobbies);
      && page.Editing? && page.milestone.id == milestoneId && FromForm(page.milestone, form)
      && InitDetail(Some(hobbyId), r.hobbies).Opened?
      && |InitDetail(Some(hobbyId), r.hobbies).detail.milestones| == |InitDetail(Some(hobbyId), hobbies).detail.milestones|
  {
    var i := FindHobby(hobbies, Some(hobbyId)).value;
    var ms := hobbies[i].milestones.value;
    var j := FindMilestone(ms, Some(milestoneId)).value;
    var edited := ms[j := MergedMilestone(ms[j], form)];
    var hs := WithMilestones(hobbies, i, edited);
    FindHobbyAfterUpdate(hobbies, hobbyId, i, hs[i]);
    assert hobbies[i := hs[i]] == hs;
    FindIndexFirst(edited, HasMilestoneId(milestoneId), j);
  }
}

=== FILE: months.dfy ===
/** Whole-month spans and the "years and months" texts the pet page
    (`calculateAge`) and the hobby pages (`calculateDuration`) show.
    Dates enter as a year and a zero-based month (`getFullYear`,
    `getMonth`); the day of the month is ignored, as in the pages.
 */
module Months {
  import opened Common
  import opened Digits

  datatype YearMonth = YearMonth(year: int, month: int)

  /** `(to.getFullYear() - from.getFullYear()) * 12 + (to.getMonth() -
      from.getMonth())`. */
  function MonthsBetween(from: YearMonth, to: YearMonth): (n: int)
    ensures from == to ==> n == 0
    ensures n == 12 * to.year + to.month - (12 * from.year + from.month)
  {
    (to.year - from.year) * 12 + (to.month - from.month)
  }

  /** The month `n` months after `ym`, with the month kept in 0..11. */
  function AddMonths(ym: YearMonth, n: int): (r: YearMonth)
    requires 0 <= ym.month < 12
    ensures 0 <= r.month < 12
    ensures 12 * r.year + r.month == 12 * ym.year + ym.month + n
  {
    var total := 12 * ym.year + ym.month + n;
    YearMonth(total / 12, total % 12)
  }

  /** Counting the months to a month `n` months later gives `n`. */
  lemma MonthsBetweenAddMonths(ym: YearMonth, n: int)
    requires 0 <= ym.month < 12
    ensures MonthsBetween(ym, AddMonths(ym, n)) == n
  {
  }

  const MonthUnit := "个月"

  /** `${y}<unit>${m}个月`, or `${y}<unit>` when `m` is 0, for `y` the
      whole years in `months` and `m` the months left over. */
  function YearsText(months: nat, unit: char): (r: string)
    ensures var y := months / 12; var m := months % 12;
      r == NatToString(y) + [unit] + (if m > 0 then NatToString(m) + MonthUnit else "")
  {
    var y := months / 12;
    var m := months % 12;
    if m > 0 then NatToString(y) + [unit] + NatToString(m) + MonthUnit else NatToString(y) + [unit]
  }

  /** Reads back a text of the form `YearsText` or `${n}个月`. */
  function ReadMonthsText(s: string, unit: char): Option<nat> {
    match ReadNat(s)
    case None => None
    case Some((a, rest)) => ReadAfterCount(a, rest, unit)
  }

  /** What may follow the leading number `a` of such a text. */
  function ReadAfterCount(a: nat, rest: string, unit: char): Option<nat> {
    if rest == MonthUnit then Some(a)
    else if rest == [unit] then Some(12 * a)
    else if |rest| > 0 && rest[0] == unit then
      match ReadNat(rest[1..])
      case None => None
      case Some((b, tail)) => if tail == MonthUnit then Some(12 * a + b) else None
    else None
  }

  /** A years text determines the number of months it was made from. */
  lemma ReadYearsText(months: nat, unit: char)
    requires !IsDigit(unit) && unit != MonthUnit[0]
    ensures ReadMonthsText(YearsText(months, unit), unit) == Some(months)
  {
    var y := months / 12;
    var m := months % 12;
    if m > 0 {
      ReadYearsAndMonths(y, m, unit);
    } else {
      ReadNatToString(y, [unit]);
    }
  }

  lemma ReadYearsAndMonths(y: nat, m: nat, unit: char)
    requires !IsDigit(unit) && unit != MonthUnit[0]
    ensures ReadMonthsText(NatToString(y) + [unit] + NatToString(m) + MonthUnit, unit) == Some(12 * y + m)
  {
    var rest := [unit] + (NatToString(m) + MonthUnit);
    assert NatToString(y) + [unit] + NatToString(m) + MonthUnit == NatToString(y) + rest;
    ReadNatToString(y, rest);
    ReadAfterYears(y, m, unit);
  }

  /** What follows the years of a text with leftover months reads as the
      total. */
  lemma ReadAfterYears(y: nat, m: nat, unit: char)
    requires !IsDigit(unit) && unit != MonthUnit[0]
    ensures ReadAfterCount(y, [unit] + (NatToString(m) + MonthUnit), unit) == Some(12 * y + m)
  {
    var tail := NatToString(m) + MonthUnit;
    var rest := [unit] + tail;
    assert rest != MonthUnit by { assert rest[0] != MonthUnit[0]; }
    assert rest != [unit] by { assert |rest| > 1; }
    assert rest[1..] == tail;
    ReadNatToString(m, MonthUnit);
  }

  /** `${n}个月` read back. */
  lemma ReadMonthCount(n: nat, unit: char)
    ensures ReadMonthsText(NatToString(n) + MonthUnit, unit) == Some(n)
  {
    ReadNatToString(n, MonthUnit);
  }
}

=== FILE: notedetail.dfy ===
/** The page showing one reading note (js/pages/note-detail.js): finding
    the book and the note, rendering the note's paragraphs, editing its
    content and deleting it. `escapeHtml` is a parameter (`escape`): it
    goes through the DOM, and all the page relies on is its result.
 */
module NoteDetail {
  import opened Common
  import opened BookNotes

  // ---------------------------------------------------------------------
  // Loading

  datatype Loaded =
    | BookMissing
    | NoteMissing(book: Book)
    | Showing(book: Book, note: Note)

  function HasBookId(id: string): Book -> bool {
    (b: Book) => b.id == id
  }

  /** `loadData()`: the first book with the id, its notes defaulted to an
      empty list, then the first note with the note id. */
  function LoadData(books: seq<Book>, bookId: string, noteId: string): (r: Loaded)
    ensures r.BookMissing? <==> forall k | 0 <= k < |books| :: books[k].id != bookId
    ensures !r.BookMissing? ==> r.book.id == bookId && r.book.notes.Some?
    ensures !r.BookMissing? ==> exists k | 0 <= k < |books| ::
      && books[k].id == bookId && r.book == books[k].(notes := Some(NotesOf(books[k])))
      && forall j | 0 <= j < k :: books[j].id != bookId
    ensures r.Showing? <==> !r.BookMissing? && exists k | 0 <= k < |r.book.notes.value| :: r.book.notes.value[k].id == noteId
    ensures r.Showing? ==> r.note in r.book.notes.value && r.note.id == noteId
    ensures r.Showing? ==> exists k | 0 <= k < |r.book.notes.value| ::
      && r.note == r.book.notes.value[k]
      && forall j | 0 <= j < k :: r.book.notes.value[j].id != noteId
  {
    match FindIndex(books, HasBookId(bookId))
    case None => BookMissing
    case Some(i) =>
      var book := books[i].(notes := Some(NotesOf(books[i])));
      match FindIndex(NotesOf(books[i]), HasNoteId(noteId))
      case None => NoteMissing(book)
      case Some(j) => Showing(book, NotesOf(books[i])[j])
  }

  /** `book.notes || []`. */
  function NotesOf(b: Book): (r: seq<Note>)
    ensures b.notes.None? ==> r == []
    ensures b.notes.Some? ==> r == b.notes.value
  {
    if b.notes.Some? then b.notes.value else []
  }

  // ---------------------------------------------------------------------
  // Paragraphs

  function IsNewline(c: char): bool { c == '\n' }

  predicate IsBlankLine(line: string) {
    Trim(line) == ""
  }

  /** The lines of a text that are not blank, in order. */
  function NonBlankLines(text: string): (r: seq<string>)
    ensures forall k | 0 <= k < |r| :: !IsBlankLine(r[k]) && '\n' !in r[k]
  {
    var pieces := Split(text, IsNewline);
    var r := Filter(pieces, (l: string) => !IsBlankLine(l));
    forall k | 0 <= k < |r| ensures '\n' !in r[k] {
      var j :| 0 <= j < |pieces| && pieces[j] == r[k];
      assert NoSep(pieces[j], IsNewline);
    }
    r
  }

  function Paragraph(line: string): string {
    "<p>" + line + "</p>"
  }

  /** `lines.map(p => `<p>${p}</p>`).join('')`. */
  function Html(lines: seq<string>): (r: string)
    ensures |r| >= 7 * |lines|
  {
    if |lines| == 0 then "" else Paragraph(lines[0]) + Html(lines[1..])
  }

  /** `formatNoteContent(content)`: empty for empty content; otherwise one
      paragraph per non-blank line of the escaped text, and empty when
      there is none. */
  function FormatNoteContent(content: string, escape: string -> string): (r: string)
    ensures r == "" <==> content == "" || NonBlankLines(escape(content)) == []
  {
    if content == "" then ""
    else
      var paragraphs := NonBlankLines(escape(content));
      if |paragraphs| == 0 then "" else Html(paragraphs)
  }

  /** Reads a sequence of `<p>…</p>` paragraphs, each without a `<`
      inside, back into its lines. */
  function ReadParagraphs(h: string): Option<seq<string>>
    decreases |h|
  {
    if h == "" then Some([])
    else if |h| < 3 || h[..3] != "<p>" then None
    else
      var body := h[3..];
      match FindIndex(body, (c: char) => c == '<')
      case None => None
      case Some(j) =>
        if |body| < j + 4 || body[j..j + 4] != "</p>" then None
        else match ReadParagraphs(body[j + 4..])
          case None => None
          case Some(rest) => Some([body[..j]] + rest)
  }

  lemma {:induction false} ReadHtml(lines: seq<string>)
    requires forall k | 0 <= k < |lines| :: '<' !in lines[k]
    ensures ReadParagraphs(Html(lines)) == Some(lines)
    decreases |lines|
  {
    if |lines| > 0 {
      ReadHtml(lines[1..]);
      ReadParagraph(lines[0], Html(lines[1..]));
      assert [lines[0]] + lines[1..] == lines;
    }
  }

  /** One paragraph in front of the rest reads as its line in front of
      what the rest reads as. */
  lemma ReadParagraph(l: string, tail: string)
    requires '<' !in l
    ensures ReadParagraphs(Paragraph(l) + tail) ==
      match ReadParagraphs(tail)
      case None => None
      case Some(rest) => Some([l] + rest)
  {
    var h := Paragraph(l) + tail;
    var body := l + "</p>" + tail;
    assert h == "<p>" + body;
    assert h[..3] == "<p>" && h[3..] == body;
    var isLt := (c: char) => c == '<';
    assert FindIndex(body, isLt) == Some(|l|) by {
      assert body[|l|] == '<';
      forall k | 0 <= k < |l| ensures !isLt(body[k]) {
        assert body[k] == l[k];
      }
      FindIndexFirst(body, isLt, |l|);
    }
    assert body[|l|..|l| + 4] == "</p>";
    assert body[|l| + 4..] == tail;
    assert body[..|l|] == l;
  }

  lemma {:induction false} SplitAvoids(s: string, c: char)
    requires c !in s
    ensures forall k | 0 <= k < |Split(s, IsNewline)| :: c !in Split(s, IsNewline)[k]
    decreases |s|
  {
    if |s| > 0 {
      SplitAvoids(s[1..], c);
    }
  }

  /** The rendered note reads back as the non-blank lines of the escaped
      text, in order, when escaping leaves no `<` behind. */
  lemma FormatReadsBack(content: string, escape: string -> string)
    requires '<' !in escape(content)
    ensures ReadParagraphs(FormatNoteContent(content, escape))
      == Some(if content == "" then [] else NonBlankLines(escape(content)))
  {
    if content != "" {
      var text := escape(content);
      SplitAvoids(text, '<');
      var pieces := Split(text, IsNewline);
      var lines := NonBlankLines(text);
      forall k | 0 <= k < |lines| ensures '<' !in lines[k] {
        var j :| 0 <= j < |pieces| && pieces[j] == lines[k];
      }
      ReadHtml(lines);
    }
  }

  // ---------------------------------------------------------------------
  // Editing and deleting

  datatype Submitted =
    | Blank
    | Written(book: Book, ok: bool)

  /** `handleEditNoteSubmit()`: the first note with the id gets the trimmed
      content and `updateTime`; the book is then written whether or not the
      note was found (`ok` is the result of `updateBook`). */
  function EditNote(book: Book, noteId: string, input: string, now: string, writeOk: bool): (r: Submitted)
    requires book.notes.Some?
    ensures Trim(input) == "" <==> r.Blank?
    ensures r.Written? ==> r.ok == writeOk && r.book.id == book.id && r.book.notes.Some?
    ensures r.Written? ==> match FindIndex(book.notes.value, HasNoteId(noteId))
      case None => r.book == book
      case Some(i) => TouchedAt(book.notes.value, r.book.notes.value, i, Trim(input), now)
  {
    var content := Trim(input);
    if content == "" then Submitted.Blank
    else
      var notes := book.notes.value;
      match FindIndex(notes, HasNoteId(noteId))
      case None => Written(book, writeOk)
      case Some(i) =>
        var edited := notes[i].(content := content, updateTime := Some(now));
        Written(book.(notes := Some(notes[i := edited])), writeOk)
  }

  /** Note `i` gets the content and the update time; its id and creation
      time and every other note stay as they were. */
  predicate TouchedAt(before: seq<Note>, after: seq<Note>, i: int, content: string, now: string) {
    && 0 <= i < |before| == |after|
    && (forall k | 0 <= k < |before| && k != i :: after[k] == before[k])
    && after[i] == Note(before[i].id, content, before[i].createTime, Some(now))
  }

  /** `confirmDeleteNote()`: every note with the id is filtered out. */
  function DeleteNote(notes: seq<Note>, noteId: string): (r: seq<Note>)
    ensures forall n :: n in r <==> n in notes && n.id != noteId
    ensures forall n :: multiset(r)[n] == if n.id == noteId then 0 else multiset(notes)[n]
  {
    FilterMultiset(notes, (n: Note) => n.id != noteId);
    Filter(notes, (n: Note) => n.id != noteId)
  }

  /** With distinct ids, deleting here and deleting from the list page
      (splicing out the first note with the id) give the same notes. */
  lemma DeleteAgreesWithListPage(notes: seq<Note>, noteId: string)
    requires DistinctIds(notes)
    requires FindIndex(notes, HasNoteId(noteId)).Some?
    ensures var i := FindIndex(notes, HasNoteId(noteId)).value;
      DeleteNote(notes, noteId) == notes[..i] + notes[i + 1..]
  {
    var i := FindIndex(notes, HasNoteId(noteId)).value;
    OnlyOneWithId(notes, i);
    FilterDropsOne(notes, (n: Note) => n.id != noteId, i);
  }

  /** With distinct ids, note `i` is the only one with its id. */
  lemma OnlyOneWithId(notes: seq<Note>, i: int)
    requires DistinctIds(notes) && 0 <= i < |notes|
    ensures forall k | 0 <= k < |notes| && k != i :: notes[k].id != notes[i].id
  {
    var ids := Ids(notes);
    forall k | 0 <= k < |notes| && k != i ensures notes[k].id != notes[i].id {
      assert ids[k] == notes[k].id && ids[i] == notes[i].id;
    }
  }
}

=== FILE: pets.dfy ===
/** The record logic of the pet page (js/pages/pets.js): the age text, the
    tag list, growth records kept in step with the weight records, photo
    likes and the size of the month calendar.

    `petData` is a value here: every operation returns the new one. Ids
    are the numbers `Date.now()` hands out, passed in as `now`; the weight
    typed into a form is kept as its text (`parseFloat` is not modelled).
 */
module Pets {
  import opened Common
  import opened Digits
  import opened Months

  // ---------------------------------------------------------------------
  // Age

  /** `calculateAge(birthday)` for a span of `months` whole months:
      `${months}个月` under a year, otherwise years with `岁` and the
      months left over (if any). A birthday in the future gives a negative
      count, which is shown as it is. */
  function AgeText(months: int): (r: string)
    ensures months < 12 ==> r == IntToString(months) + MonthUnit
    ensures months >= 12 ==> r == YearsText(months, '岁')
  {
    if months < 12 then IntToString(months) + MonthUnit
    else YearsText(months, '岁')
  }

  /** The age of a pet born in `birth`, seen in `today`. */
  function Age(birth: YearMonth, today: YearMonth): string {
    AgeText(MonthsBetween(birth, today))
  }

  /** Every age of a pet already born reads back as its number of months:
      two different spans never show the same text. */
  lemma AgeTextReadsBack(months: nat)
    ensures ReadMonthsText(AgeText(months), '岁') == Some(months)
  {
    if months < 12 {
      ReadMonthCount(months, '岁');
    } else {
      ReadYearsText(months, '岁');
    }
  }

  lemma AgeTextInjective(a: nat, b: nat)
    requires AgeText(a) == AgeText(b)
    ensures a == b
  {
    AgeTextReadsBack(a);
    AgeTextReadsBack(b);
  }

  // ---------------------------------------------------------------------
  // Tags

  datatype TagOutcome = TagAdded | TagBlank | TagExists

  /** `addTag()`: the trimmed input is appended unless it is blank or
      already in the list. */
  function AddTag(tags: seq<string>, input: string): (r: (seq<string>, TagOutcome))
    ensures r.1 == TagBlank <==> Trim(input) == ""
    ensures r.1 == TagExists <==> Trim(input) != "" && Trim(input) in tags
    ensures r.1 == TagAdded ==> r.0 == tags + [Trim(input)]
    ensures r.1 != TagAdded ==> r.0 == tags
    ensures NoDuplicates(tags) ==> NoDuplicates(r.0)
  {
    var tag := Trim(input);
    if tag == "" then (tags, TagBlank)
    else if tag in tags then (tags, TagExists)
    else (tags + [tag], TagAdded)
  }

  /** `removeTag(index)`: `splice(index, 1)`, which ignores an index past the
      end. */
  function RemoveTag(tags: seq<string>, index: nat): (r: seq<string>)
    ensures index >= |tags| ==> r == tags
    ensures index < |tags| ==> |r| == |tags| - 1
    ensures index < |tags| ==> forall k | 0 <= k < index :: r[k] == tags[k]
    ensures index < |tags| ==> forall k | index <= k < |r| :: r[k] == tags[k + 1]
    ensures multiset(r) <= multiset(tags)
  {
    if index < |tags| then
      assert tags == tags[..index] + [tags[index]] + tags[index + 1..];
      tags[..index] + tags[index + 1..]
    else tags
  }

  /** Removing a tag keeps the list free of duplicates. */
  lemma RemoveTagKeepsDistinct(tags: seq<string>, index: nat)
    requires NoDuplicates(tags)
    ensures NoDuplicates(RemoveTag(tags, index))
  {
    var r := RemoveTag(tags, index);
    if index < |tags| {
      forall i, j | 0 <= i < j < |r| ensures r[i] != r[j] {
        var i' := if i < index then i else i + 1;
        var j' := if j < index then j else j + 1;
        assert r[i] == tags[i'] && r[j] == tags[j'];
      }
    }
  }

  /** Removing the tag just added restores the list. */
  lemma RemoveUndoesAddTag(tags: seq<string>, input: string)
    requires AddTag(tags, input).1 == TagAdded
    ensures RemoveTag(AddTag(tags, input).0, |tags|) == tags
  {
  }

  // ---------------------------------------------------------------------
  // Growth and weight records

  datatype GrowthRecord = GrowthRecord(id: int, kind: string, date: string, title: string, content: string, weight: Option<string>)

  datatype WeightRecord = WeightRecord(id: int, date: string, weight: string)

  /** A photo of the pet; only the fields the like button touches. A missing
      like count is 0. */
  datatype PetPhoto = PetPhoto(id: int, liked: bool, likes: int)

  datatype PetData = PetData(tags: seq<string>, growth: seq<GrowthRecord>, weights: seq<WeightRecord>, photos: seq<PetPhoto>)

  /** The fields of the growth form. */
  datatype GrowthForm = GrowthForm(kind: string, date: string, title: string, weight: string, content: string)

  const WeightKind := "weight"
  const Added := "记录已添加"
  const Updated := "记录已更新"

  datatype SaveOutcome = Incomplete | Stored(pet: PetData, notice: string)

  /** `currentEditingGrowthId` is truthy: the form edits an existing
      record (0 counts as no id). */
  predicate Editing(editing: Option<int>) {
    editing.Some? && editing.value != 0
  }

  predicate GrowthHasId(r: GrowthRecord, id: int) {
    r.id == id
  }

  predicate WeightHasId(w: WeightRecord, id: int) {
    w.id == id
  }

  /** The record saved for the form. */
  function FormRecord(form: GrowthForm, editing: Option<int>, now: int): (r: GrowthRecord)
    ensures r.id == if Editing(editing) then editing.value else now
  {
    var id := if Editing(editing) then editing.value else now;
    GrowthRecord(id, form.kind, form.date, form.title, form.content,
      if form.kind == WeightKind && form.weight != "" then Some(form.weight) else None)
  }

  /** `after` is `before` with the first element satisfying `p` replaced by
      `x`, or `before` itself when none does. */
  predicate ReplacedFirst<T(==)>(before: seq<T>, after: seq<T>, p: T -> bool, x: T) {
    && |after| == |before|
    && ((forall k | 0 <= k < |before| :: !p(before[k])) ==> after == before)
    && forall i | 0 <= i < |before| && p(before[i]) && (forall k | 0 <= k < i :: !p(before[k])) ::
         after[i] == x && forall k | 0 <= k < |before| && k != i :: after[k] == before[k]
  }

  function ReplaceFirst<T(==)>(s: seq<T>, p: T -> bool, x: T): (r: seq<T>)
    ensures ReplacedFirst(s, r, p, x)
  {
    match FindIndex(s, p)
    case None => s
    case Some(i) => s[i := x]
  }

  /** The weight list after a weight record is saved: the first record with
      its id is overwritten, or the record is appended. */
  function UpsertWeight(weights: seq<WeightRecord>, w: WeightRecord): (r: seq<WeightRecord>)
    ensures w in r
    ensures (exists k | 0 <= k < |weights| :: WeightHasId(weights[k], w.id)) ==> |r| == |weights|
    ensures (forall k | 0 <= k < |weights| :: !WeightHasId(weights[k], w.id)) ==> r == weights + [w]
    ensures forall k | 0 <= k < |weights| && !WeightHasId(weights[k], w.id) :: r[k] == weights[k]
    // only the first record with the id is overwritten
    ensures (exists k | 0 <= k < |weights| :: WeightHasId(weights[k], w.id)) ==>
      ReplacedFirst(weights, r, (x: WeightRecord) => WeightHasId(x, w.id), w)
  {
    match FindIndex(weights, (x: WeightRecord) => WeightHasId(x, w.id))
    case None => weights + [w]
    case Some(i) =>
      var r := weights[i := w];
      assert r[i] == w;
      r
  }

  /** `saveGrowthRecord()`: a record needs a date and a title. Editing
      overwrites the first record with the edited id (an id no longer in the
      list leaves the list as it was); otherwise the record is appended. A
      weight record that carries a weight is mirrored into the weight
      list. The notice says which of the two happened: this is the
      handler with its notice corrected, `SaveGrowthRecordAsWritten` the
      one the page runs. */
  function SaveGrowthRecord(pet: PetData, editing: Option<int>, form: GrowthForm, now: int): (r: SaveOutcome)
    ensures r == Incomplete <==> form.date == "" || form.title == ""
    ensures r.Stored? ==> r.pet.tags == pet.tags && r.pet.photos == pet.photos
    ensures r.Stored? && !Editing(editing) ==> r.pet.growth == pet.growth + [FormRecord(form, editing, now)]
    ensures r.Stored? && Editing(editing) ==>
      ReplacedFirst(pet.growth, r.pet.growth, (g: GrowthRecord) => GrowthHasId(g, editing.value), FormRecord(form, editing, now))
    ensures r.Stored? && form.kind == WeightKind && form.weight != "" ==>
      var id := FormRecord(form, editing, now).id;
      r.pet.weights == UpsertWeight(pet.weights, WeightRecord(id, form.date, form.weight))
    ensures r.Stored? && !(form.kind == WeightKind && form.weight != "") ==> r.pet.weights == pet.weights
    ensures r.Stored? ==> (r.notice == Updated <==> Editing(editing))
  {
    if form.date == "" || form.title == "" then Incomplete
    else
      var rec := FormRecord(form, editing, now);
      var growth := if Editing(editing) then ReplaceFirst(pet.growth, (g: GrowthRecord) => GrowthHasId(g, editing.value), rec)
        else pet.growth + [rec];
      var weights := if form.kind == WeightKind && form.weight != "" then UpsertWeight(pet.weights, WeightRecord(rec.id, form.date, form.weight))
        else pet.weights;
      Stored(PetData(pet.tags, growth, weights, pet.photos), SaveNotice(editing))
  }

  /** The notice after saving, chosen from whether a record was edited. */
  function SaveNotice(editing: Option<int>): (notice: string)
    ensures notice == Updated <==> Editing(editing)
    ensures notice == Added <==> !Editing(editing)
  {
    if Editing(editing) then Updated else Added
  }

  /** The notice as the page computes it: `closeAddGrowthModal()` has already
      reset `currentEditingGrowthId` to `null` when the notice is chosen, so
      every save is announced as an addition. */
  function SaveNoticeAsWritten(editing: Option<int>): (notice: string)
    ensures notice == Added
    ensures Editing(editing) ==> notice != SaveNotice(editing)
  {
    var afterClose: Option<int> := None;
    if Editing(afterClose) then Updated else Added
  }

  /** `saveGrowthRecord()` as the page runs it: the records are saved as by
      the corrected handler, and the notice is the one chosen after the
      modal was closed. */
  function SaveGrowthRecordAsWritten(pet: PetData, editing: Option<int>, form: GrowthForm, now: int): (r: SaveOutcome)
    ensures r == Incomplete <==> form.date == "" || form.title == ""
    ensures r.Stored? ==> r.pet == SaveGrowthRecord(pet, editing, form, now).pet
    ensures r.Stored? ==> r.notice == Added
  {
    match SaveGrowthRecord(pet, editing, form, now)
    case Incomplete => Incomplete
    case Stored(saved, _) => Stored(saved, SaveNoticeAsWritten(editing))
  }

  /** Editing record 5 and saving announces an added record. */
  lemma SaveNoticeAsWrittenMisreportsEdits(pet: PetData, form: GrowthForm, now: int)
    requires form.date != "" && form.title != ""
    ensures Editing(Some(5))
    ensures SaveGrowthRecordAsWritten(pet, Some(5), form, now).notice == Added
    ensures SaveGrowthRecord(pet, Some(5), form, now).notice == Updated
  {
  }

  /** The list without element `i`. */
  function RemoveAt<T>(s: seq<T>, i: nat): (r: seq<T>)
    requires i < |s|
    ensures |r| == |s| - 1
    ensures forall k | 0 <= k < i :: r[k] == s[k]
    ensures forall k | i <= k < |r| :: r[k] == s[k + 1]
  {
    s[..i] + s[i + 1..]
  }

  /** `deleteGrowthRecord(id)` after the confirmation: nothing happens for
      an unknown id; otherwise the first record with that id is removed and,
      when it is a weight record, so is the first weight record with that
      id. */
  function DeleteGrowthRecord(pet: PetData, id: int): (r: PetData)
    ensures r.tags == pet.tags && r.photos == pet.photos
    ensures (forall k | 0 <= k < |pet.growth| :: !GrowthHasId(pet.growth[k], id)) ==> r == pet
    ensures forall i | 0 <= i < |pet.growth| && GrowthHasId(pet.growth[i], id)
        && (forall k | 0 <= k < i :: !GrowthHasId(pet.growth[k], id)) ::
      && r.growth == RemoveAt(pet.growth, i)
      && (pet.growth[i].kind != WeightKind ==> r.weights == pet.weights)
      && (pet.growth[i].kind == WeightKind ==>
            (forall k | 0 <= k < |pet.weights| :: !WeightHasId(pet.weights[k], id)) ==> r.weights == pet.weights)
      && (pet.growth[i].kind == WeightKind ==>
            forall j | 0 <= j < |pet.weights| && WeightHasId(pet.weights[j], id)
                && (forall k | 0 <= k < j :: !WeightHasId(pet.weights[k], id)) ::
              r.weights == RemoveAt(pet.weights, j))
  {
    match FindIndex(pet.growth, (g: GrowthRecord) => GrowthHasId(g, id))
    case None => pet
    case Some(i) =>
      var weights := if pet.growth[i].kind == WeightKind then DropFirstWeight(pet.weights, id) else pet.weights;
      PetData(pet.tags, RemoveAt(pet.growth, i), weights, pet.photos)
  }

  /** The weight list after its first record with the id is spliced out
      (`findIndex`, then `splice(index, 1)` when found). */
  function DropFirstWeight(weights: seq<WeightRecord>, id: int): (r: seq<WeightRecord>)
    ensures (forall k | 0 <= k < |weights| :: !WeightHasId(weights[k], id)) ==> r == weights
    ensures forall j | 0 <= j < |weights| && WeightHasId(weights[j], id)
        && (forall k | 0 <= k < j :: !WeightHasId(weights[k], id)) ::
      r == RemoveAt(weights, j)
  {
    match FindIndex(weights, (w: WeightRecord) => WeightHasId(w, id))
    case None => weights
    case Some(j) => RemoveAt(weights, j)
  }

  /** Deleting a record that was just added under a fresh id restores the
      growth and weight lists. */
  lemma DeleteUndoesSave(pet: PetData, form: GrowthForm, now: int)
    requires form.date != "" && form.title != ""
    requires forall k | 0 <= k < |pet.growth| :: !GrowthHasId(pet.growth[k], now)
    requires forall k | 0 <= k < |pet.weights| :: !WeightHasId(pet.weights[k], now)
    ensures DeleteGrowthRecord(SaveGrowthRecord(pet, None, form, now).pet, now) == pet
  {
    var saved := SaveGrowthRecord(pet, None, form, now).pet;
    var n := |pet.growth|;
    assert saved.growth[n].id == now;
    assert RemoveAt(saved.growth, n) == pet.growth;
    if form.kind == WeightKind && form.weight != "" {
      assert saved.weights == pet.weights + [WeightRecord(now, form.date, form.weight)];
      assert RemoveAt(saved.weights, |pet.weights|) == pet.weights;
    }
  }

  // ---------------------------------------------------------------------
  // Photo likes

  /** `togglePhotoLike(id)`: flips `liked` of the first photo with that id;
      a like adds one, an unlike takes one away but never goes below 0. */
  function TogglePhotoLike(photos: seq<PetPhoto>, id: int): (r: seq<PetPhoto>)
    ensures |r| == |photos|
    ensures (forall k | 0 <= k < |photos| :: photos[k].id != id) ==> r == photos
    ensures forall i | 0 <= i < |photos| && photos[i].id == id && (forall k | 0 <= k < i :: photos[k].id != id) ::
      && r[i].id == id && r[i].liked == !photos[i].liked
      && r[i].likes == (if r[i].liked then photos[i].likes + 1 else Max0(photos[i].likes - 1))
      && forall k | 0 <= k < |photos| && k != i :: r[k] == photos[k]
  {
    match FindIndex(photos, (p: PetPhoto) => p.id == id)
    case None => photos
    case Some(i) =>
      var p := photos[i];
      var liked := !p.liked;
      photos[i := PetPhoto(p.id, liked, if liked then p.likes + 1 else Max0(p.likes - 1))]
  }

  function Max0(n: int): (r: nat)
    ensures r >= n
    ensures n >= 0 ==> r == n
  {
    if n > 0 then n else 0
  }

  /** Liking and then unliking a photo that was not liked restores it. */
  lemma ToggleTwiceRestores(photos: seq<PetPhoto>, id: int, i: nat)
    requires i < |photos| && photos[i].id == id && !photos[i].liked && photos[i].likes >= 0
    requires forall k | 0 <= k < i :: photos[k].id != id
    ensures TogglePhotoLike(TogglePhotoLike(photos, id), id) == photos
  {
    var once := TogglePhotoLike(photos, id);
    assert forall k | 0 <= k < i :: once[k].id != id;
    var twice := TogglePhotoLike(once, id);
    assert twice[i] == photos[i];
  }

  /** Like counts that start non-negative stay non-negative. */
  lemma ToggleKeepsLikesNonNegative(photos: seq<PetPhoto>, id: int)
    requires forall k | 0 <= k < |photos| :: photos[k].likes >= 0
    ensures var r := TogglePhotoLike(photos, id); forall k | 0 <= k < |r| :: r[k].likes >= 0
  {
  }

  // ---------------------------------------------------------------------
  // Calendar

  /** `renderCalendar()`: the cells of the month grid are whole weeks,
      `Math.ceil((firstDay + daysInMonth) / 7) * 7` of them, the last ones
      padded with days of the next month. */
  function CalendarCells(firstDay: nat, daysInMonth: nat): (r: (nat, nat))
    ensures var (total, padding) := r;
      && total % 7 == 0
      && total == firstDay + daysInMonth + padding
      && padding < 7
  {
    var used := firstDay + daysInMonth;
    var total := (used + 6) / 7 * 7;
    (total, total - used)
  }

  /** No shorter whole-week grid holds the month. */
  lemma CalendarCellsFewest(firstDay: nat, daysInMonth: nat, weeks: nat)
    requires 7 * weeks >= firstDay + daysInMonth
    ensures 7 * weeks >= CalendarCells(firstDay, daysInMonth).0
  {
  }
}

=== FILE: photos.dfy ===
/** The photo collection of js/storage.js: the normalisation `getPhotos`
    applies to whatever is stored, `addPhoto`, `updatePhotoLike`,
    `updatePhoto` and `deletePhoto`.

    Fresh ids, the current time and the placeholder images (canvas output)
    come from an environment. `getPhotos` draws one fresh id per stored
    entry, indexed by the entry's position.
 */
module Photos {
  import opened Common
  import opened Digits
  import opened Store

  datatype Env = Env(freshId: nat -> string, now: string, placeholder: (nat, nat) -> string)

  /** The environment never hands out empty strings. */
  ghost predicate TruthyEnv(env: Env) {
    && env.now != ""
    && (forall i :: env.freshId(i) != "")
    && (forall w, h :: env.placeholder(w, h) != "")
  }

  const Uncategorized := "未分类"

  predicate IsComma(c: char) {
    c == ','
  }

  /** `String(v)`: an array is joined with commas, a plain object prints
      as `[object Object]`. */
  function JsString(v: Value): string
    decreases v, 1
  {
    match v
    case Undef => "undefined"
    case Null => "null"
    case Bool(b) => if b then "true" else "false"
    case Num(n) => IntToString(n)
    case Str(s) => s
    case Arr(items) => JoinElements(items)
    case Obj(_) => "[object Object]"
  }

  /** `items.join(',')`: `null` and `undefined` elements print as the
      empty string. */
  function JoinElements(items: seq<Value>): (r: string)
    ensures items == [] ==> r == ""
    decreases items, 0
  {
    if items == [] then ""
    else
      var head := if items[0].Undef? || items[0].Null? then "" else JsString(items[0]);
      if |items| == 1 then head else head + "," + JoinElements(items[1..])
  }

  /** The tag expression of `getPhotos`, `addPhoto` and `updatePhoto`: an
      array loses its falsy entries, any other truthy value is split on
      commas into trimmed non-empty strings, a falsy value gives `[]`. */
  function NormalizeTags(v: Value): (r: seq<Value>)
    ensures forall k | 0 <= k < |r| :: Truthy(r[k])
    ensures v.Arr? ==> forall x | x in v.items && Truthy(x) :: x in r
    ensures !v.Arr? ==> forall k | 0 <= k < |r| :: r[k].Str? && IsTrimmed(r[k].s) && NoSep(r[k].s, IsComma)
  {
    if v.Arr? then Filter(v.items, Truthy)
    else if Truthy(v) then StrTokens(JsString(v))
    else []
  }

  /** `String(v).split(',').map(tag => tag.trim()).filter(Boolean)`, as
      string values. */
  function StrTokens(text: string): (r: seq<Value>)
    ensures forall k | 0 <= k < |r| :: r[k].Str? && r[k].s != "" && IsTrimmed(r[k].s) && NoSep(r[k].s, IsComma)
  {
    var tokens := Tokens(text, IsComma);
    seq(|tokens|, k requires 0 <= k < |tokens| => Str(tokens[k]))
  }

  /** `typeof likes === 'number' && likes >= 0 ? likes : (liked ? 1 : 0)`. */
  function NormalizeLikes(likes: Value, liked: Value): (r: int)
    ensures r >= 0
    ensures likes.Num? && likes.n >= 0 ==> r == likes.n
    ensures !(likes.Num? && likes.n >= 0) ==> r == if Truthy(liked) then 1 else 0
  {
    if likes.Num? && likes.n >= 0 then likes.n else if Truthy(liked) then 1 else 0
  }

  /** A stored photo object, with its fourteen known fields spelled out and
      any other field (such as `likedAt`) in `extra`. */
  datatype Photo = Photo(
    id: Value, image: Value, thumbnail: Value, title: Value, description: Value,
    tripId: Value, category: Value, tags: Value, liked: Value, likes: Value,
    createdAt: Value, updatedAt: Value, uploadedBy: Value, metadata: Value,
    extra: map<string, Value>)

  /** The shape every photo has after `getPhotos`: no unknown field, a
      truthy category, an array of truthy tags, a boolean `liked` and a
      non-negative like count. */
  predicate IsNormal(p: Photo) {
    && p.extra == map[]
    && Truthy(p.category)
    && p.tags.Arr? && (forall k | 0 <= k < |p.tags.items| :: Truthy(p.tags.items[k]))
    && p.liked.Bool?
    && p.likes.Num? && p.likes.n >= 0
  }

  predicate AllNormal(photos: seq<Photo>) {
    forall k | 0 <= k < |photos| :: IsNormal(photos[k])
  }

  /** The normalised form of one stored photo object. */
  function NormalizePhoto(photo: Record, env: Env, index: nat): (p: Photo)
    ensures IsNormal(p)
    ensures !Truthy(Get(photo, "category")) ==> p.category == Str(Uncategorized)
    ensures Truthy(Get(photo, "id")) ==> p.id == photo["id"]
    ensures p.likes.n == NormalizeLikes(Get(photo, "likes"), Get(photo, "liked"))
  {
    Photo(
      Or(Get(photo, "id"), Str(env.freshId(index))),
      Or(Get(photo, "image"), Str(env.placeholder(600, 400))),
      Or(Or(Get(photo, "thumbnail"), Get(photo, "image")), Str(env.placeholder(400, 300))),
      Or(Get(photo, "title"), Str("")),
      Or(Get(photo, "description"), Str("")),
      Or(Get(photo, "tripId"), Null),
      Or(Get(photo, "category"), Str(Uncategorized)),
      Arr(NormalizeTags(Get(photo, "tags"))),
      Bool(Truthy(Get(photo, "liked"))),
      Num(NormalizeLikes(Get(photo, "likes"), Get(photo, "liked"))),
      Or(Get(photo, "createdAt"), Str(env.now)),
      Or(Get(photo, "updatedAt"), Null),
      Or(Get(photo, "uploadedBy"), Str("self")),
      Or(Get(photo, "metadata"), Obj(map[])),
      map[])
  }

  /** The object a photo is stored as. */
  function ToRecord(p: Photo): Record {
    p.extra + map[
      "id" := p.id, "image" := p.image, "thumbnail" := p.thumbnail, "title" := p.title,
      "description" := p.description, "tripId" := p.tripId, "category" := p.category,
      "tags" := p.tags, "liked" := p.liked, "likes" := p.likes, "createdAt" := p.createdAt,
      "updatedAt" := p.updatedAt, "uploadedBy" := p.uploadedBy, "metadata" := p.metadata]
  }

  /** `!photo || typeof photo !== 'object'` rejects the entry. An array
      passes that test and is normalised like an empty object. */
  predicate IsPhotoObject(v: Value) {
    v.Obj? || v.Arr?
  }

  function FieldsOf(v: Value): Record
    requires IsPhotoObject(v)
  {
    if v.Obj? then v.fields else map[]
  }

  /** Whether the entry is dropped or differs from its normal form, i.e.
      whether `getPhotos` must rewrite the store on its account. */
  predicate EntryChanges(v: Value, env: Env, index: nat) {
    !v.Obj? || ToRecord(NormalizePhoto(v.fields, env, index)) != v.fields
  }

  /** The number of object entries in `entries[from..to]`. */
  function CountObjects(entries: seq<Value>, from: nat, to: nat): (n: nat)
    requires from <= to <= |entries|
    ensures n <= to - from
    decreases |entries| - from
  {
    if from == to then 0
    else (if IsPhotoObject(entries[from]) then 1 else 0) + CountObjects(entries, from + 1, to)
  }

  /** `r` holds the object entries of `entries[from..]`, in order, each as
      its normal form: the entry at position `k` is the photo after the
      object entries before it, and nothing else is in `r`. */
  predicate KeptInOrder(entries: seq<Value>, env: Env, from: nat, r: seq<Photo>)
    requires from <= |entries|
  {
    && |r| == CountObjects(entries, from, |entries|)
    && forall k | from <= k < |entries| && IsPhotoObject(entries[k]) ::
         CountObjects(entries, from, k) < |r|
         && r[CountObjects(entries, from, k)] == NormalizePhoto(FieldsOf(entries[k]), env, k)
  }

  /** Putting the object entry `from` in front of the result for `from + 1`. */
  lemma {:induction false} KeptInOrderCons(entries: seq<Value>, env: Env, from: nat, rest: seq<Photo>)
    requires from < |entries| && IsPhotoObject(entries[from])
    requires KeptInOrder(entries, env, from + 1, rest)
    ensures KeptInOrder(entries, env, from, [NormalizePhoto(FieldsOf(entries[from]), env, from)] + rest)
  {
    var r := [NormalizePhoto(FieldsOf(entries[from]), env, from)] + rest;
    assert CountObjects(entries, from, |entries|) == 1 + CountObjects(entries, from + 1, |entries|);
    forall k | from <= k < |entries| && IsPhotoObject(entries[k])
      ensures CountObjects(entries, from, k) < |r|
      ensures r[CountObjects(entries, from, k)] == NormalizePhoto(FieldsOf(entries[k]), env, k)
    {
      if k == from {
        assert CountObjects(entries, from, k) == 0;
      } else {
        var c := CountObjects(entries, from + 1, k);
        assert CountObjects(entries, from, k) == 1 + c;
        assert c < |rest| && rest[c] == NormalizePhoto(FieldsOf(entries[k]), env, k);
        assert r[1 + c] == rest[c];
      }
    }
  }

  /** A dropped entry `from` leaves the result for `from + 1` as it is. */
  lemma {:induction false} KeptInOrderSkip(entries: seq<Value>, env: Env, from: nat, rest: seq<Photo>)
    requires from < |entries| && !IsPhotoObject(entries[from])
    requires KeptInOrder(entries, env, from + 1, rest)
    ensures KeptInOrder(entries, env, from, rest)
  {
    assert CountObjects(entries, from, |entries|) == CountObjects(entries, from + 1, |entries|);
    forall k | from <= k < |entries| && IsPhotoObject(entries[k])
      ensures CountObjects(entries, from, k) == CountObjects(entries, from + 1, k)
    {
    }
  }

  /** The object entry `from` normalised in front of the entries after it:
      all three properties of `NormalizeEntries` carry over. */
  lemma {:induction false} NormalizeEntriesCons(entries: seq<Value>, env: Env, from: nat, rest: seq<Photo>)
    requires from < |entries| && IsPhotoObject(entries[from])
    requires AllNormal(rest)
    requires KeptInOrder(entries, env, from + 1, rest)
    requires TruthyEnv(env) ==> forall k | 0 <= k < |rest| :: Canonical(rest[k])
    ensures var r := [NormalizePhoto(FieldsOf(entries[from]), env, from)] + rest;
      && AllNormal(r)
      && KeptInOrder(entries, env, from, r)
      && (TruthyEnv(env) ==> forall k | 0 <= k < |r| :: Canonical(r[k]))
  {
    var p := NormalizePhoto(FieldsOf(entries[from]), env, from);
    var r := [p] + rest;
    NormalizeIsCanonical(FieldsOf(entries[from]), env, from);
    KeptInOrderCons(entries, env, from, rest);
    assert forall k | 1 <= k < |r| :: r[k] == rest[k - 1];
  }

  /** Normalises the entries `entries[from..]`, dropping the ones that are
      not objects and keeping every other one, in order. */
  function NormalizeEntries(entries: seq<Value>, env: Env, from: nat): (r: seq<Photo>)
    requires from <= |entries|
    ensures AllNormal(r)
    ensures KeptInOrder(entries, env, from, r)
    ensures TruthyEnv(env) ==> forall k | 0 <= k < |r| :: Canonical(r[k])
    decreases |entries| - from
  {
    if from == |entries| then []
    else
      var rest := NormalizeEntries(entries, env, from + 1);
      var v := entries[from];
      if IsPhotoObject(v) then
        NormalizeEntriesCons(entries, env, from, rest);
        [NormalizePhoto(FieldsOf(v), env, from)] + rest
      else
        KeptInOrderSkip(entries, env, from, rest);
        rest
  }

  /** Whether any entry is dropped or changed. */
  function AnyChanges(entries: seq<Value>, env: Env): (b: bool)
    ensures b <==> exists k | 0 <= k < |entries| :: EntryChanges(entries[k], env, k)
  {
    var changes := (k: nat) => k < |entries| && EntryChanges(entries[k], env, k);
    var b := AnyIndex(|entries|, changes, 0);
    assert b ==> exists k | 0 <= k < |entries| :: EntryChanges(entries[k], env, k) by {
      if b {
        var k :| 0 <= k < |entries| && changes(k);
      }
    }
    assert (exists k | 0 <= k < |entries| :: EntryChanges(entries[k], env, k)) ==> b by {
      if exists k | 0 <= k < |entries| :: EntryChanges(entries[k], env, k) {
        var k :| 0 <= k < |entries| && EntryChanges(entries[k], env, k);
        assert changes(k);
      }
    }
    b
  }

  /** `getPhotos()`: the normalised photos, and whether the store is
      rewritten with them. Non-array storage yields no photos. */
  function GetPhotos(stored: Value, env: Env): (r: (seq<Photo>, bool))
    ensures AllNormal(r.0)
    ensures !stored.Arr? ==> r == ([], false)
    // every object entry survives the read, in order, as its normal form
    ensures stored.Arr? ==> KeptInOrder(stored.items, env, 0, r.0)
    ensures stored.Arr? ==> (r.1 <==> exists k | 0 <= k < |stored.items| :: EntryChanges(stored.items[k], env, k))
  {
    if stored.Arr? then (NormalizeEntries(stored.items, env, 0), AnyChanges(stored.items, env)) else ([], false)
  }

  /** How a photo list is stored: an array of objects. */
  function AsStored(photos: seq<Photo>): Value {
    Arr(seq(|photos|, k requires 0 <= k < |photos| => Obj(ToRecord(photos[k]))))
  }

  lemma NormalizeTagsIdempotent(v: Value)
    ensures NormalizeTags(Arr(NormalizeTags(v))) == NormalizeTags(v)
  {
    FilterKeepsAll(NormalizeTags(v), Truthy);
  }

  /** The stored object of a photo gives back each of its fields. */
  lemma ToRecordFields(p: Photo)
    ensures var r := ToRecord(p);
      && Get(r, "id") == p.id && Get(r, "image") == p.image && Get(r, "thumbnail") == p.thumbnail
      && Get(r, "title") == p.title && Get(r, "description") == p.description
      && Get(r, "tripId") == p.tripId && Get(r, "category") == p.category
  {
  }

  lemma ToRecordFields2(p: Photo)
    ensures var r := ToRecord(p);
      && Get(r, "tags") == p.tags && Get(r, "liked") == p.liked && Get(r, "likes") == p.likes
      && Get(r, "createdAt") == p.createdAt && Get(r, "updatedAt") == p.updatedAt
      && Get(r, "uploadedBy") == p.uploadedBy && Get(r, "metadata") == p.metadata
  {
  }

  predicate TruthyOr(v: Value, fallback: Value) {
    Truthy(v) || v == fallback
  }

  /** A photo that is its own normal form: normal, and every defaulted field
      either truthy or already at its default. */
  predicate Canonical(p: Photo) {
    && IsNormal(p)
    && Truthy(p.id) && Truthy(p.image) && Truthy(p.thumbnail)
    && TruthyOr(p.title, Str("")) && TruthyOr(p.description, Str(""))
    && TruthyOr(p.tripId, Null) && Truthy(p.createdAt) && TruthyOr(p.updatedAt, Null)
    && Truthy(p.uploadedBy) && Truthy(p.metadata)
  }

  lemma NormalizeIsCanonical(photo: Record, env: Env, index: nat)
    ensures TruthyEnv(env) ==> Canonical(NormalizePhoto(photo, env, index))
  {
    if TruthyEnv(env) {
      assert env.freshId(index) != "";
      assert env.placeholder(600, 400) != "" && env.placeholder(400, 300) != "";
    }
  }

  /** A canonical photo read back from its stored object is itself. */
  lemma CanonicalIsFixed(p: Photo, env: Env, index: nat)
    requires Canonical(p)
    ensures NormalizePhoto(ToRecord(p), env, index) == p
  {
    ToRecordFields(p);
    ToRecordFields2(p);
    FilterKeepsAll(p.tags.items, Truthy);
  }

  /** Entry `k` of a stored canonical list reads back as photo `k`. */
  lemma StoredEntryFixed(photos: seq<Photo>, env: Env, k: nat)
    requires k < |photos| && Canonical(photos[k])
    ensures var v := AsStored(photos).items[k];
      IsPhotoObject(v) && NormalizePhoto(FieldsOf(v), env, k) == photos[k]
  {
    CanonicalIsFixed(photos[k], env, k);
  }

  /** One step of `NormalizeEntries` over an object entry. */
  lemma NormalizeEntriesStep(entries: seq<Value>, env: Env, from: nat)
    requires from < |entries| && IsPhotoObject(entries[from])
    ensures NormalizeEntries(entries, env, from)
      == [NormalizePhoto(FieldsOf(entries[from]), env, from)] + NormalizeEntries(entries, env, from + 1)
  {
  }

  /** A sequence-valued function that peels off `xs[k]` at each step from
      `k` and ends empty at `|xs|` yields the rest of `xs` from any start. */
  lemma {:induction false} PeelsOff<T>(f: nat -> seq<T>, xs: seq<T>, from: nat)
    requires from <= |xs| && f(|xs|) == []
    requires forall k: nat | k < |xs| :: f(k) == [xs[k]] + f(k + 1)
    ensures f(from) == xs[from..]
    decreases |xs| - from
  {
    if from < |xs| {
      PeelsOff(f, xs, from + 1);
      assert xs[from..] == [xs[from]] + xs[from + 1..];
    }
  }

  lemma ReadsBackStep(entries: seq<Value>, p: Photo, env: Env, from: nat)
    requires from < |entries| && IsPhotoObject(entries[from]) && NormalizePhoto(FieldsOf(entries[from]), env, from) == p
    ensures NormalizeEntries(entries, env, from) == [p] + NormalizeEntries(entries, env, from + 1)
  {
    NormalizeEntriesStep(entries, env, from);
  }

  lemma StoredEntryReadsBack(photos: seq<Photo>, env: Env, k: nat)
    requires forall j | 0 <= j < |photos| :: Canonical(photos[j])
    requires k < |photos|
    ensures var entries := AsStored(photos).items;
      NormalizeEntries(entries, env, k) == [photos[k]] + NormalizeEntries(entries, env, k + 1)
  {
    StoredEntryFixed(photos, env, k);
    ReadsBackStep(AsStored(photos).items, photos[k], env, k);
  }

  /** Entries each of which normalises to the photo at its position read
      back as exactly those photos. */
  lemma NormalizeEntriesReadBack(entries: seq<Value>, photos: seq<Photo>, env: Env)
    requires |entries| == |photos|
    requires forall k: nat | k < |photos| ::
      NormalizeEntries(entries, env, k) == [photos[k]] + NormalizeEntries(entries, env, k + 1)
    ensures NormalizeEntries(entries, env, 0) == photos
  {
    var f := (k: nat) => if k <= |entries| then NormalizeEntries(entries, env, k) else [];
    PeelsOff(f, photos, 0);
  }

  lemma NormalizeEntriesOfCanonical(photos: seq<Photo>, env: Env)
    requires forall k | 0 <= k < |photos| :: Canonical(photos[k])
    ensures NormalizeEntries(AsStored(photos).items, env, 0) == photos
  {
    var entries := AsStored(photos).items;
    forall k: nat | k < |photos|
      ensures NormalizeEntries(entries, env, k) == [photos[k]] + NormalizeEntries(entries, env, k + 1)
    {
      StoredEntryReadsBack(photos, env, k);
    }
    NormalizeEntriesReadBack(entries, photos, env);
  }

  lemma NoChangesOfCanonical(photos: seq<Photo>, env: Env)
    requires forall k | 0 <= k < |photos| :: Canonical(photos[k])
    ensures !AnyChanges(AsStored(photos).items, env)
  {
    var entries := AsStored(photos).items;
    forall k | 0 <= k < |entries| ensures !EntryChanges(entries[k], env, k) {
      StoredEntryFixed(photos, env, k);
    }
  }

  /** Normalisation is idempotent: reading back what `getPhotos` returned
      gives the same photos and triggers no rewrite. */
  lemma GetPhotosIdempotent(stored: Value, env: Env)
    requires TruthyEnv(env)
    ensures var photos := GetPhotos(stored, env).0;
      GetPhotos(AsStored(photos), env) == (photos, false)
  {
    var photos := GetPhotos(stored, env).0;
    NormalizeEntriesOfCanonical(photos, env);
    NoChangesOfCanonical(photos, env);
  }

  // ---------------------------------------------------------------------
  // Operations on the normalised list

  predicate PhotoHasId(p: Photo, id: Value) {
    p.id == id
  }

  predicate NoPhotoWithId(photos: seq<Photo>, id: Value) {
    forall k | 0 <= k < |photos| :: !PhotoHasId(photos[k], id)
  }

  /** What the store holds after an operation, and what it returned. */
  datatype SavedPhotos = SavedPhotos(stored: seq<Photo>, ok: bool)

  function WritePhotos(before: seq<Photo>, after: seq<Photo>, writeOk: bool): (r: SavedPhotos)
    ensures r.ok == writeOk
    ensures r.stored == if writeOk then after else before
  {
    SavedPhotos(if writeOk then after else before, writeOk)
  }

  /** `addPhoto(photo)`: the normal form of the input with a fresh id and
      both time stamps set to now, appended. */
  function AddPhoto(photos: seq<Photo>, input: Record, freshId: string, now: string, env: Env, writeOk: bool): (r: SavedPhotos)
    ensures r.ok == writeOk
    ensures !writeOk ==> r.stored == photos
    ensures writeOk ==> |r.stored| == |photos| + 1 && r.stored[..|photos|] == photos
    ensures writeOk ==> var p := r.stored[|photos|];
      && IsNormal(p) && p.id == Str(freshId) && p.createdAt == Str(now) && p.updatedAt == Str(now)
      && (!Truthy(Get(input, "category")) ==> p.category == Str(Uncategorized))
    // every other field is taken from the input, with the page's defaults
    ensures writeOk ==> var p := r.stored[|photos|];
      && p.image == Or(Get(input, "image"), Str(env.placeholder(600, 400)))
      && p.thumbnail == Or(Or(Get(input, "thumbnail"), Get(input, "image")), Str(env.placeholder(400, 300)))
      && p.title == Or(Get(input, "title"), Str(""))
      && p.description == Or(Get(input, "description"), Str(""))
      && p.tripId == Or(Get(input, "tripId"), Null)
      && (Truthy(Get(input, "category")) ==> p.category == input["category"])
      && p.tags == Arr(NormalizeTags(Get(input, "tags")))
      && p.liked == Bool(Truthy(Get(input, "liked")))
      && p.likes.n == NormalizeLikes(Get(input, "likes"), Get(input, "liked"))
      && p.uploadedBy == Or(Get(input, "uploadedBy"), Str("self"))
      && p.metadata == Or(Get(input, "metadata"), Obj(map[]))
  {
    var p := NormalizePhoto(input, env, 0).(id := Str(freshId), createdAt := Str(now), updatedAt := Str(now));
    WritePhotos(photos, photos + [p], writeOk)
  }

  /** A photo added to a list of canonical photos reads back unchanged: the
      next `getPhotos` returns the stored list and does not rewrite it. */
  lemma AddedPhotoReadsBack(photos: seq<Photo>, input: Record, freshId: string, now: string, env: Env)
    requires TruthyEnv(env) && freshId != "" && now != ""
    requires forall k | 0 <= k < |photos| :: Canonical(photos[k])
    ensures var stored := AddPhoto(photos, input, freshId, now, env, true).stored;
      GetPhotos(AsStored(stored), env) == (stored, false)
  {
    var stored := AddPhoto(photos, input, freshId, now, env, true).stored;
    NormalizeIsCanonical(input, env, 0);
    assert Canonical(stored[|photos|]);
    assert forall k | 0 <= k < |stored| :: Canonical(stored[k]) by {
      forall k | 0 <= k < |stored| ensures Canonical(stored[k]) {
        if k < |photos| { assert stored[k] == photos[k]; }
      }
    }
    NormalizeEntriesOfCanonical(stored, env);
    NoChangesOfCanonical(stored, env);
  }

  function Max0(x: int): int {
    if x > 0 then x else 0
  }

  /** The new count of `updatePhotoLike`: one up, or one down but not below
      zero. */
  function LikeCount(likes: int, liked: bool): (r: int)
    ensures likes >= 0 ==> r >= 0
    ensures liked ==> r == likes + 1
    ensures !liked ==> r == if likes > 1 then likes - 1 else 0
  {
    if liked then likes + 1 else Max0(likes - 1)
  }

  /** Liking and then unliking restores the count; unliking and then liking
      does too, except from zero, where the count is floored. */
  lemma LikeUnlikeRoundTrip(likes: nat)
    ensures LikeCount(LikeCount(likes, true), false) == likes
    ensures LikeCount(LikeCount(likes, false), true) == if likes == 0 then 1 else likes
  {
  }

  /** `updatePhotoLike(photoId, liked)`: on the first photo with that id sets
      `liked`, moves the count, and records `likedAt` and `updatedAt`. */
  function UpdatePhotoLike(photos: seq<Photo>, photoId: Value, liked: bool, now: string, writeOk: bool): (r: SavedPhotos)
    requires AllNormal(photos)
    ensures NoPhotoWithId(photos, photoId) ==> r == SavedPhotos(photos, false)
    ensures |r.stored| == |photos|
    ensures !NoPhotoWithId(photos, photoId) ==> r.ok == writeOk
    ensures !writeOk ==> r.stored == photos
    ensures !NoPhotoWithId(photos, photoId) && writeOk ==> exists i | 0 <= i < |photos| ::
      && FirstWithId(photos, photoId, i)
      && (forall k | 0 <= k < |photos| && k != i :: r.stored[k] == photos[k])
      && LikeApplied(photos[i], r.stored[i], liked, now)
  {
    match FindIndex(photos, (x: Photo) => PhotoHasId(x, photoId))
    case None => SavedPhotos(photos, false)
    case Some(i) =>
      var p := photos[i];
      var updated := p.(liked := Bool(liked), likes := Num(LikeCount(p.likes.n, liked)), updatedAt := Str(now),
                        extra := p.extra["likedAt" := if liked then Str(now) else Null]);
      assert LikeApplied(p, updated, liked, now);
      WritePhotos(photos, photos[i := updated], writeOk)
  }

  predicate FirstWithId(photos: seq<Photo>, id: Value, i: int) {
    0 <= i < |photos| && PhotoHasId(photos[i], id) && forall k | 0 <= k < i :: !PhotoHasId(photos[k], id)
  }

  /** `after` is the normal photo `before` liked or unliked at `now`: the
      count moved by one and stays non-negative, nothing else but the
      stamps changed. */
  predicate LikeApplied(before: Photo, after: Photo, liked: bool, now: string)
    requires IsNormal(before)
  {
    && after.liked == Bool(liked)
    && after.likes.Num? && after.likes.n >= 0
    && (liked ==> after.likes.n == before.likes.n + 1)
    && (!liked ==> after.likes.n == Max0(before.likes.n - 1))
    && after.updatedAt == Str(now)
    && after.extra == map["likedAt" := if liked then Str(now) else Null]
    && after == before.(liked := after.liked, likes := after.likes, updatedAt := after.updatedAt, extra := after.extra)
  }

  /** A field of `updates` when present, the photo's own otherwise. */
  function Pick(updates: Record, key: string, own: Value): (v: Value)
    ensures key in updates ==> v == updates[key]
    ensures key !in updates ==> v == own
  {
    if key in updates then updates[key] else own
  }

  /** The fourteen fields a normalised photo has. */
  const PhotoFields: set<string> := {
    "id", "image", "thumbnail", "title", "description", "tripId", "category", "tags",
    "liked", "likes", "createdAt", "updatedAt", "uploadedBy", "metadata"}

  /** `{ ...origin, ...updates }`. */
  function SpreadPhoto(origin: Photo, updates: Record): Photo {
    Photo(
      Pick(updates, "id", origin.id), Pick(updates, "image", origin.image),
      Pick(updates, "thumbnail", origin.thumbnail), Pick(updates, "title", origin.title),
      Pick(updates, "description", origin.description), Pick(updates, "tripId", origin.tripId),
      Pick(updates, "category", origin.category), Pick(updates, "tags", origin.tags),
      Pick(updates, "liked", origin.liked), Pick(updates, "likes", origin.likes),
      Pick(updates, "createdAt", origin.createdAt), Pick(updates, "updatedAt", origin.updatedAt),
      Pick(updates, "uploadedBy", origin.uploadedBy), Pick(updates, "metadata", origin.metadata),
      origin.extra + map k | k in updates && k !in PhotoFields :: updates[k])
  }

  /** `updatePhoto(photoId, updates)`: `{ ...origin, ...updates }` with tags
      re-normalised when the update carries truthy tags, the category kept
      when the update's is falsy, and `updatedAt` set to now. */
  function UpdatePhoto(photos: seq<Photo>, photoId: Value, updates: Record, now: string, writeOk: bool): (r: SavedPhotos)
    requires AllNormal(photos)
    ensures NoPhotoWithId(photos, photoId) ==> r == SavedPhotos(photos, false)
    ensures |r.stored| == |photos|
    ensures !NoPhotoWithId(photos, photoId) ==> r.ok == writeOk
    ensures !writeOk ==> r.stored == photos
    ensures !NoPhotoWithId(photos, photoId) && writeOk ==> exists i | 0 <= i < |photos| ::
      && FirstWithId(photos, photoId, i)
      && (forall k | 0 <= k < |photos| && k != i :: r.stored[k] == photos[k])
      && PhotoUpdated(photos[i], r.stored[i], updates, now)
  {
    match FindIndex(photos, (x: Photo) => PhotoHasId(x, photoId))
    case None => SavedPhotos(photos, false)
    case Some(i) =>
      WritePhotos(photos, photos[i := MergedPhoto(photos[i], updates, now)], writeOk)
  }

  /** The `merged` object of `updatePhoto`. */
  function MergedPhoto(origin: Photo, updates: Record, now: string): (merged: Photo)
    requires IsNormal(origin)
    ensures PhotoUpdated(origin, merged, updates, now)
  {
    var tags := if Truthy(Get(updates, "tags")) then Arr(NormalizeTags(updates["tags"])) else origin.tags;
    SpreadPhoto(origin, updates).(tags := tags, category := Or(Get(updates, "category"), origin.category),
                                  updatedAt := Str(now))
  }

  /** The merged photo keeps a truthy category and an array of truthy tags;
      every other field the update carries wins over the original, and the
      fields it does not carry are kept. */
  predicate PhotoUpdated(origin: Photo, merged: Photo, updates: Record, now: string)
    requires IsNormal(origin)
  {
    && Truthy(merged.category)
    && merged.tags.Arr? && (forall k | 0 <= k < |merged.tags.items| :: Truthy(merged.tags.items[k]))
    && merged.category == (if Truthy(Get(updates, "category")) then updates["category"] else origin.category)
    && (!Truthy(Get(updates, "tags")) ==> merged.tags == origin.tags)
    && merged.updatedAt == Str(now)
    && (Truthy(Get(updates, "tags")) ==> merged.tags == Arr(NormalizeTags(updates["tags"])))
    && merged.id == Pick(updates, "id", origin.id)
    && merged.image == Pick(updates, "image", origin.image)
    && merged.thumbnail == Pick(updates, "thumbnail", origin.thumbnail)
    && merged.title == Pick(updates, "title", origin.title)
    && merged.description == Pick(updates, "description", origin.description)
    && merged.tripId == Pick(updates, "tripId", origin.tripId)
    && merged.likes == Pick(updates, "likes", origin.likes)
    && merged.liked == Pick(updates, "liked", origin.liked)
    && merged.createdAt == Pick(updates, "createdAt", origin.createdAt)
    && merged.uploadedBy == Pick(updates, "uploadedBy", origin.uploadedBy)
    && merged.metadata == Pick(updates, "metadata", origin.metadata)
    // unknown fields: a normal origin has none, so they are the update's
    && merged.extra.Keys == origin.extra.Keys + (updates.Keys - PhotoFields)
    && (forall k | k in updates && k !in PhotoFields :: merged.extra[k] == updates[k])
  }

  /** `deletePhoto(photoId)`: drops every photo with that id. */
  function DeletePhoto(photos: seq<Photo>, photoId: Value, writeOk: bool): (r: SavedPhotos)
    ensures r.ok == writeOk
    ensures !writeOk ==> r.stored == photos
    ensures writeOk ==> NoPhotoWithId(r.stored, photoId)
    ensures writeOk ==> forall x :: multiset(r.stored)[x] == if PhotoHasId(x, photoId) then 0 else multiset(photos)[x]
  {
    var keep := (x: Photo) => !PhotoHasId(x, photoId);
    FilterMultiset(photos, keep);
    WritePhotos(photos, Filter(photos, keep), writeOk)
  }
}

=== FILE: reencode.dfy ===
/** The size-driven re-encoder of the album (`optimizeImageData`) and the
    trip detail page (`compressImageData`).

    A data URL at or under `keepOriginalUnder` estimated bytes is returned
    as it is. Otherwise the decoded image is clamped to `maxDimension`,
    rendered once, and then re-rendered while the output is over
    `targetSize`, at most 12 more times: first by lowering the JPEG quality
    in steps of 0.05 down to `minQuality`, then by shrinking both sides to
    92% while either side is over 720 pixels, and otherwise it stops.

    The browser's canvas encoder is the parameter `enc`: it maps a render
    request to the data URL produced. Nothing is assumed about it. Image
    decoding is the parameter `decoded` (`None` when the image fails to
    load, which rejects the promise). Qualities are in hundredths.
 */
module Reencode {
  import opened Common
  import opened ImageSize

  datatype Mime = Jpeg | Png

  /** What one `render()` hands to the canvas: the output type, the canvas
      size, the quality and whether the canvas is first painted white. */
  datatype Render = Render(mime: Mime, width: nat, height: nat, quality: nat, whiteFill: bool)

  type Encoder = Render -> string

  datatype Profile = Profile(
    maxDimension: nat,
    targetSize: nat,
    keepOriginalUnder: nat,
    initialQuality: nat,
    minQuality: nat)

  const QualityStep: nat := 5
  const MaxAttempts: nat := 12
  const ShrinkThreshold: nat := 720

  // The four call sites.
  const AlbumImage := Profile(1400, 600_000, 1_000_000, 90, 75)
  const AlbumThumbnail := Profile(400, 90_000, 150_000, 88, 72)
  const TripImage := Profile(1800, 950_000, 1_200_000, 92, 78)
  const TripThumbnail := Profile(600, 220_000, 250_000, 85, 70)

  /** The loop's mutable state: quality and current canvas size. */
  datatype State = State(quality: nat, width: nat, height: nat)

  /** The canvas is painted white exactly for JPEG output. */
  function RenderOf(mime: Mime, s: State): Render {
    Render(mime, s.width, s.height, s.quality, mime == Jpeg)
  }

  /** `Math.round(x * 0.92)`. */
  function Shrink(x: nat): (r: nat)
    ensures r <= x
    ensures 100 * r <= 92 * x + 50 < 100 * (r + 1)
  {
    RoundDiv(92 * x, 100)
  }

  /** One iteration's adjustment, `None` for the `break`. Quality is only
      lowered for JPEG output. */
  function Step(mime: Mime, minQuality: nat, s: State): (r: Option<State>)
    ensures r.Some? ==> r.value.quality <= s.quality && r.value.width <= s.width && r.value.height <= s.height
    ensures r.None? <==> !(mime == Jpeg && s.quality > minQuality) && s.width <= ShrinkThreshold && s.height <= ShrinkThreshold
    ensures r.Some? && r.value.quality != s.quality ==>
      mime == Jpeg && r.value == s.(quality := Max(minQuality, s.quality - QualityStep)) && r.value.quality >= minQuality
    ensures r.Some? && r.value.quality == s.quality ==>
      !(mime == Jpeg && s.quality > minQuality) && r.value == State(s.quality, Shrink(s.width), Shrink(s.height))
  {
    if mime == Jpeg && s.quality > minQuality then
      Some(s.(quality := Max(minQuality, s.quality - QualityStep)))
    else if s.width > ShrinkThreshold || s.height > ShrinkThreshold then
      Some(State(s.quality, Shrink(s.width), Shrink(s.height)))
    else None
  }

  /** `final` is `n` adjustments away from `s`, and each of them was taken:
      the render before it was over the target and could still be lowered.
      So the loop never goes past a render that fits. */
  predicate Reached(p: Profile, mime: Mime, enc: Encoder, s: State, n: nat, final: State)
    decreases n
  {
    if n == 0 then final == s
    else
      && OverTarget(p.targetSize, enc(RenderOf(mime, s)))
      && match Step(mime, p.minQuality, s)
         case None => false
         case Some(next) => Reached(p, mime, enc, next, n - 1, final)
  }

  /** The result of the render loop: final state, final output and the number
      of re-renders after the first. */
  datatype Outcome = Outcome(state: State, output: string, attempts: nat)

  predicate OverTarget(target: nat, output: string) {
    target != 0 && Base64Size(output) > target
  }

  /** The `while` loop, from a state already rendered into `output`. */
  function Loop(p: Profile, mime: Mime, enc: Encoder, s: State, output: string, attempts: nat): (r: Outcome)
    requires attempts <= MaxAttempts
    requires output == enc(RenderOf(mime, s))
    ensures attempts <= r.attempts <= MaxAttempts
    ensures r.output == enc(RenderOf(mime, r.state))
    // it stops when the output fits, the attempts are spent, or neither
    // quality nor size can be lowered any further ...
    ensures !OverTarget(p.targetSize, r.output) || r.attempts == MaxAttempts
      || Step(mime, p.minQuality, r.state).None?
    // ... and not before: a fitting entry render is the result, and every
    // adjustment made followed a render over the target
    ensures !OverTarget(p.targetSize, output) ==> r == Outcome(s, output, attempts)
    ensures Reached(p, mime, enc, s, r.attempts - attempts, r.state)
    ensures r.state.quality <= s.quality && r.state.width <= s.width && r.state.height <= s.height
    ensures mime == Png ==> r.state.quality == s.quality
    ensures r.state.quality >= if s.quality < p.minQuality then s.quality else p.minQuality
    // the size is only reduced once the quality has reached its floor
    ensures (r.state.width < s.width || r.state.height < s.height) ==>
      mime == Png || r.state.quality <= p.minQuality
    decreases MaxAttempts - attempts
  {
    if OverTarget(p.targetSize, output) && attempts < MaxAttempts then
      match Step(mime, p.minQuality, s)
      case None => Outcome(s, output, attempts)
      case Some(next) => Loop(p, mime, enc, next, enc(RenderOf(mime, next)), attempts + 1)
    else Outcome(s, output, attempts)
  }

  /** What the pipeline resolves or rejects with. */
  datatype Reencoded =
    | Original              // under the keep threshold: the input data URL
    | Rendered(outcome: Outcome)
    | Rejected              // the image failed to load

  /** The output type the album chooses: PNG when the file's type mentions
      `png`, JPEG otherwise. */
  function PreferredMime(mimeType: string): (m: Mime)
    ensures m == Png <==> Contains(mimeType, "png")
  {
    if Includes(mimeType, "png") then Png else Jpeg
  }

  /** The pipeline shared by both pages for a fixed output type. */
  function Pipeline(dataUrl: string, p: Profile, mime: Mime, decoded: Option<Dims>, enc: Encoder): (r: Reencoded)
    ensures r.Original? <==> Base64Size(dataUrl) <= p.keepOriginalUnder
    ensures r.Rejected? <==> Base64Size(dataUrl) > p.keepOriginalUnder && decoded.None?
    ensures r.Rendered? ==> decoded.Some? && Clamped(p, mime, decoded.value, r.outcome)
    ensures r.Rendered? ==> Settled(p, mime, enc, r.outcome)
    ensures r.Rendered? ==>
      Reached(p, mime, enc, InitialState(p, decoded.value), r.outcome.attempts, r.outcome.state)
  {
    if Base64Size(dataUrl) <= p.keepOriginalUnder then Original
    else match decoded
      case None => Rejected
      case Some(d) =>
        var s0 := InitialState(p, d);
        Rendered(Loop(p, mime, enc, s0, enc(RenderOf(mime, s0)), 0))
  }

  /** The first render's state: the clamped decode at the initial quality. */
  function InitialState(p: Profile, d: Dims): State {
    var size := ScaledSize(d.width, d.height, p.maxDimension);
    State(p.initialQuality, size.width, size.height)
  }

  /** The final canvas is never larger than the clamped decode, and the
      quality lies between the initial one and the floor. */
  predicate Clamped(p: Profile, mime: Mime, d: Dims, o: Outcome) {
    var size := ScaledSize(d.width, d.height, p.maxDimension);
    && o.state.width <= size.width && o.state.height <= size.height
    && o.state.width <= d.width && o.state.height <= d.height
    && o.state.quality <= p.initialQuality
    && (mime == Png ==> o.state.quality == p.initialQuality)
    && o.state.quality >= (if p.initialQuality < p.minQuality then p.initialQuality else p.minQuality)
  }

  /** The output is the encoding of the final state, and the loop ended for
      one of its three reasons. */
  predicate Settled(p: Profile, mime: Mime, enc: Encoder, o: Outcome) {
    && o.output == enc(RenderOf(mime, o.state))
    && o.attempts <= MaxAttempts
    && (!OverTarget(p.targetSize, o.output) || o.attempts == MaxAttempts
        || Step(mime, p.minQuality, o.state).None?)
  }

  /** The data URL a pipeline result stands for. */
  function OutputOf(dataUrl: string, r: Reencoded): Option<string> {
    match r
    case Original => Some(dataUrl)
    case Rendered(o) => Some(o.output)
    case Rejected => None
  }

  /** `optimizeImageData(dataUrl, options)` of the album page. */
  function OptimizeImageData(dataUrl: string, mimeType: string, p: Profile, decoded: Option<Dims>, enc: Encoder): (r: Reencoded)
    ensures r.Original? <==> Base64Size(dataUrl) <= p.keepOriginalUnder
    ensures r.Rejected? <==> Base64Size(dataUrl) > p.keepOriginalUnder && decoded.None?
    ensures r.Rendered? ==> r.outcome.output == enc(Render(PreferredMime(mimeType), r.outcome.state.width,
      r.outcome.state.height, r.outcome.state.quality, !Contains(mimeType, "png")))
    ensures r.Rendered? && Contains(mimeType, "png") ==> r.outcome.state.quality == p.initialQuality
  {
    Pipeline(dataUrl, p, PreferredMime(mimeType), decoded, enc)
  }

  /** `compressImageData(dataUrl, options)` of the trip detail page: always
      JPEG on a white canvas. */
  function CompressImageData(dataUrl: string, p: Profile, decoded: Option<Dims>, enc: Encoder): (r: Reencoded)
    ensures r.Original? <==> Base64Size(dataUrl) <= p.keepOriginalUnder
    ensures r.Rejected? <==> Base64Size(dataUrl) > p.keepOriginalUnder && decoded.None?
    ensures r.Rendered? ==> r.outcome.output == enc(Render(Jpeg, r.outcome.state.width,
      r.outcome.state.height, r.outcome.state.quality, true))
  {
    Pipeline(dataUrl, p, Jpeg, decoded, enc)
  }

  /** A JPEG pipeline stops above the target before spending its attempts
      only when the quality is at its floor and both sides are at most 720
      pixels. */
  lemma {:induction false} GiveUpOnlyWhenExhausted(dataUrl: string, p: Profile, d: Dims, enc: Encoder)
    requires Base64Size(dataUrl) > p.keepOriginalUnder
    requires p.initialQuality >= p.minQuality
    ensures var r := Pipeline(dataUrl, p, Jpeg, Some(d), enc);
      r.Rendered? && (OverTarget(p.targetSize, r.outcome.output) && r.outcome.attempts < MaxAttempts ==>
        r.outcome.state.quality == p.minQuality
        && r.outcome.state.width <= ShrinkThreshold && r.outcome.state.height <= ShrinkThreshold)
  {
  }

  /** A first render that already fits the target is the result: no
      further attempt is made. Likewise with no target at all. */
  lemma FirstRenderFits(dataUrl: string, p: Profile, mime: Mime, d: Dims, enc: Encoder)
    requires Base64Size(dataUrl) > p.keepOriginalUnder
    requires var size := ScaledSize(d.width, d.height, p.maxDimension);
      !OverTarget(p.targetSize, enc(RenderOf(mime, State(p.initialQuality, size.width, size.height))))
    ensures var r := Pipeline(dataUrl, p, mime, Some(d), enc);
      var size := ScaledSize(d.width, d.height, p.maxDimension);
      r.Rendered? && r.outcome.attempts == 0 && r.outcome.state == State(p.initialQuality, size.width, size.height)
  {
  }

  /** `prepareImageAssets(file)` of the album page: the full image and the
      thumbnail, or a rejection when the image cannot be loaded. */
  function PrepareImageAssets(dataUrl: string, mimeType: string, decoded: Option<Dims>, enc: Encoder): (r: Option<(string, string)>)
    ensures r.None? <==> Base64Size(dataUrl) > AlbumThumbnail.keepOriginalUnder && decoded.None?
    ensures Base64Size(dataUrl) <= AlbumThumbnail.keepOriginalUnder ==> r == Some((dataUrl, dataUrl))
  {
    var image := OptimizeImageData(dataUrl, mimeType, AlbumImage, decoded, enc);
    var thumbnail := OptimizeImageData(dataUrl, mimeType, AlbumThumbnail, decoded, enc);
    if image.Rejected? || thumbnail.Rejected? then None
    else Some((OutputOf(dataUrl, image).value, OutputOf(dataUrl, thumbnail).value))
  }

  /** `prepareTripImageAssets(dataUrl)` of the trip detail page. */
  function PrepareTripImageAssets(dataUrl: string, decoded: Option<Dims>, enc: Encoder): (r: Option<(string, string)>)
    ensures r.None? <==> Base64Size(dataUrl) > TripThumbnail.keepOriginalUnder && decoded.None?
    ensures Base64Size(dataUrl) <= TripThumbnail.keepOriginalUnder ==> r == Some((dataUrl, dataUrl))
  {
    var image := CompressImageData(dataUrl, TripImage, decoded, enc);
    var thumbnail := CompressImageData(dataUrl, TripThumbnail, decoded, enc);
    if image.Rejected? || thumbnail.Rejected? then None
    else Some((OutputOf(dataUrl, image).value, OutputOf(dataUrl, thumbnail).value))
  }
}

=== FILE: store.dfy ===
/** The key-value store behind every page (`StorageManager` in
    js/storage.js): JSON-like values, records as field maps, and the
    append / merge-by-id / delete-by-id operations shared by the trip, book,
    hobby and pet collections, plus `importData`.

    localStorage itself is not modelled: an operation receives the current
    collection and returns what the store holds afterwards together with
    the boolean that `setItem` reports; whether the write succeeds is an
    input (`writeOk`), since quota errors come from the browser. Fresh ids
    and the current time are inputs as well.
 */
module Store {
  import opened Common

  /** A parsed JSON value; `Undef` stands for a property that is absent
      (`undefined` in JavaScript). Numbers are integers here. */
  datatype Value =
    | Undef
    | Null
    | Bool(b: bool)
    | Num(n: int)
    | Str(s: string)
    | Arr(items: seq<Value>)
    | Obj(fields: map<string, Value>)

  /** JavaScript truthiness. */
  predicate Truthy(v: Value) {
    match v
    case Undef => false
    case Null => false
    case Bool(b) => b
    case Num(n) => n != 0
    case Str(s) => s != ""
    case Arr(_) => true
    case Obj(_) => true
  }

  type Record = map<string, Value>

  /** `record[key]`, `undefined` when absent. */
  function Get(r: Record, key: string): Value {
    if key in r then r[key] else Undef
  }

  /** `a || b`. */
  function Or(a: Value, b: Value): (r: Value)
    ensures Truthy(a) ==> r == a
    ensures !Truthy(a) ==> r == b
  {
    if Truthy(a) then a else b
  }

  /** `{ ...a, ...b }`: the fields of `b` win. */
  function Spread(a: Record, b: Record): (r: Record)
    ensures r.Keys == a.Keys + b.Keys
    ensures forall k | k in b :: r[k] == b[k]
    ensures forall k | k in a && k !in b :: r[k] == a[k]
  {
    a + b
  }

  /** `record.id === id`: strict equality, so a record without an id
      matches an `undefined` id. */
  predicate HasId(r: Record, id: Value) {
    Get(r, "id") == id
  }

  /** What the store holds after an operation, and what the operation
      returned to its caller. */
  datatype Saved = Saved(stored: seq<Record>, ok: bool)

  /** `setItem(key, items)`: on failure the store keeps `before`. */
  function Write(before: seq<Record>, after: seq<Record>, writeOk: bool): (r: Saved)
    ensures r.ok == writeOk
    ensures r.stored == if writeOk then after else before
  {
    Saved(if writeOk then after else before, writeOk)
  }

  // ---------------------------------------------------------------------
  // The collections

  datatype Collection = Trips | Books | Hobbies | Pets

  /** The storage key of each collection. */
  function KeyOf(c: Collection): string {
    match c
    case Trips => "app_trips"
    case Books => "app_books"
    case Hobbies => "app_hobbies"
    case Pets => "app_pets"
  }

  /** `updateHobby` is the one update that does not stamp `updatedAt`. */
  predicate StampsUpdates(c: Collection) {
    c != Hobbies
  }

  /** `addTrip(trip)` (and `addBook`, `addHobby`, `addPet`): the record gets a
      fresh id and a creation time and is appended. */
  function AddRecord(items: seq<Record>, rec: Record, freshId: string, now: string, writeOk: bool): (r: Saved)
    ensures r.ok == writeOk
    ensures !writeOk ==> r.stored == items
    ensures writeOk ==> |r.stored| == |items| + 1 && r.stored[..|items|] == items
    ensures writeOk ==> var added := r.stored[|items|];
      && HasId(added, Str(freshId)) && Get(added, "createdAt") == Str(now)
      && added.Keys == rec.Keys + {"id", "createdAt"}
      && forall k | k in rec && k != "id" && k != "createdAt" :: added[k] == rec[k]
  {
    Write(items, items + [rec["id" := Str(freshId)]["createdAt" := Str(now)]], writeOk)
  }

  /** No record of the collection carries `id`. */
  predicate FreshIn(items: seq<Record>, id: Value) {
    forall k | 0 <= k < |items| :: !HasId(items[k], id)
  }

  /** `{ ...record, ...updates }`, stamped with `updatedAt` unless the
      collection is the hobbies. */
  function Merge(c: Collection, rec: Record, updates: Record, now: string): (m: Record)
    ensures MergedRecord(c, rec, m, updates, now)
  {
    var merged := Spread(rec, updates);
    if StampsUpdates(c) then merged["updatedAt" := Str(now)] else merged
  }

  /** `after` holds the fields of `before` and of `updates`, the updates
      winning, and (when stamping) `updatedAt` set to `now`. */
  predicate MergedRecord(c: Collection, before: Record, after: Record, updates: Record, now: string) {
    && after.Keys == before.Keys + updates.Keys + (if StampsUpdates(c) then {"updatedAt"} else {})
    && (StampsUpdates(c) ==> after["updatedAt"] == Str(now))
    && (forall k | k in updates && (k != "updatedAt" || !StampsUpdates(c)) :: after[k] == updates[k])
    && (forall k | k in before && k !in updates && (k != "updatedAt" || !StampsUpdates(c)) :: after[k] == before[k])
  }

  /** `updateTrip(id, updates)` (and `updateBook`, `updateHobby`,
      `updatePet`): the first record with that id is merged with the
      updates. An unknown id returns false and writes nothing. */
  function UpdateRecord(c: Collection, items: seq<Record>, id: Value, updates: Record, now: string, writeOk: bool): (r: Saved)
    ensures FreshIn(items, id) ==> r == Saved(items, false)
    ensures !FreshIn(items, id) ==> r.ok == writeOk
    ensures |r.stored| == |items|
    ensures !FreshIn(items, id) && writeOk ==>
      exists i | 0 <= i < |items| :: UpdatedAt(c, items, r.stored, i, id, updates, now)
    ensures !writeOk ==> r.stored == items
  {
    match FindIndex(items, (x: Record) => HasId(x, id))
    case None => Saved(items, false)
    case Some(i) =>
      var after := items[i := Merge(c, items[i], updates, now)];
      assert UpdatedAt(c, items, after, i, id, updates, now);
      Write(items, after, writeOk)
  }

  /** `after` is `before` with record `i` — the first carrying `id` — merged
      with `updates`, and every other record as it was. */
  predicate UpdatedAt(c: Collection, before: seq<Record>, after: seq<Record>, i: int, id: Value, updates: Record, now: string) {
    && 0 <= i < |before| == |after|
    && HasId(before[i], id)
    && (forall k | 0 <= k < i :: !HasId(before[k], id))
    && (forall k | 0 <= k < |before| && k != i :: after[k] == before[k])
    && MergedRecord(c, before[i], after[i], updates, now)
  }

  /** Merging the same updates (at the same time) a second time changes
      nothing. */
  lemma MergeIdempotent(c: Collection, rec: Record, updates: Record, now: string)
    ensures Merge(c, Merge(c, rec, updates, now), updates, now) == Merge(c, rec, updates, now)
  {
    var once := Merge(c, rec, updates, now);
    var twice := Merge(c, once, updates, now);
    assert twice.Keys == once.Keys;
    forall k | k in once ensures twice[k] == once[k] {
    }
  }

  /** `deleteTrip(id)` (and the book, hobby, pet and photo twins): every
      record with that id is dropped, the rest keep their order. */
  function RemoveById(items: seq<Record>, id: Value, writeOk: bool): (r: Saved)
    ensures r.ok == writeOk
    ensures !writeOk ==> r.stored == items
    ensures writeOk ==> FreshIn(r.stored, id)
    ensures writeOk ==> forall x :: multiset(r.stored)[x] == if HasId(x, id) then 0 else multiset(items)[x]
  {
    var kept := Filter(items, (x: Record) => !HasId(x, id));
    FilterMultiset(items, (x: Record) => !HasId(x, id));
    Write(items, kept, writeOk)
  }

  /** Deleting a record that was just added with a fresh id restores the
      collection. */
  lemma {:induction false} RemoveUndoesAdd(items: seq<Record>, rec: Record, freshId: string, now: string)
    requires FreshIn(items, Str(freshId))
    ensures RemoveById(AddRecord(items, rec, freshId, now, true).stored, Str(freshId), true).stored == items
  {
    var keep := (x: Record) => !HasId(x, Str(freshId));
    var added := rec["id" := Str(freshId)]["createdAt" := Str(now)];
    AddRecordStores(items, rec, freshId, now);
    RemoveByIdStores(items + [added], Str(freshId));
    FilterAppend(items, [added], keep);
    FilterKeepsAll(items, keep);
    assert !keep(added);
    assert Filter([added], keep) == [];
  }

  lemma AddRecordStores(items: seq<Record>, rec: Record, freshId: string, now: string)
    ensures AddRecord(items, rec, freshId, now, true).stored == items + [rec["id" := Str(freshId)]["createdAt" := Str(now)]]
  {
  }

  lemma RemoveByIdStores(items: seq<Record>, id: Value)
    ensures RemoveById(items, id, true).stored == Filter(items, (x: Record) => !HasId(x, id))
  {
  }

  /** Deleting twice is deleting once. */
  lemma RemoveIdempotent(items: seq<Record>, id: Value)
    ensures var once := RemoveById(items, id, true).stored;
      RemoveById(once, id, true).stored == once
  {
    var once := RemoveById(items, id, true).stored;
    FilterKeepsAll(once, (x: Record) => !HasId(x, id));
  }

  /** Applying the same update twice gives the same collection as applying
      it once (at the same time), as long as the update keeps the id. */
  lemma UpdateIdempotent(c: Collection, items: seq<Record>, id: Value, updates: Record, now: string)
    requires "id" !in updates
    ensures var once := UpdateRecord(c, items, id, updates, now, true).stored;
      UpdateRecord(c, once, id, updates, now, true).stored == once
  {
    var p := (x: Record) => HasId(x, id);
    match FindIndex(items, p)
    case None =>
    case Some(i) =>
      var m := Merge(c, items[i], updates, now);
      var once := items[i := m];
      UpdateRecordAt(c, items, id, updates, now, i);
      assert Get(m, "id") == Get(items[i], "id");
      FindIndexAfterSet(items, p, i, m);
      UpdateRecordAt(c, once, id, updates, now, i);
      MergeIdempotent(c, items[i], updates, now);
      assert once[i := Merge(c, once[i], updates, now)] == once;
  }

  /** A successful update stores the found record merged in place. */
  lemma UpdateRecordAt(c: Collection, items: seq<Record>, id: Value, updates: Record, now: string, i: nat)
    requires FindIndex(items, (x: Record) => HasId(x, id)) == Some(i)
    ensures UpdateRecord(c, items, id, updates, now, true).stored == items[i := Merge(c, items[i], updates, now)]
  {
  }

  // ---------------------------------------------------------------------
  // Import

  /** The storage keys of `StorageManager.KEYS`. */
  const Keys: set<string> :=
    {"app_trips", "app_photos", "app_books", "app_hobbies", "app_pets", "app_user_info", "app_settings"}

  lemma CollectionKeysKnown(c: Collection)
    ensures KeyOf(c) in Keys
  {
  }

  /** `importData(jsonStr)` with `parsed` the result of `JSON.parse` (`None`
      when it throws). Every entry of the backup whose key is a known
      storage key and whose value is truthy is written (a failed write is
      swallowed); everything else in the store is left alone. Returns false
      only when parsing fails or the backup is `null`. */
  function ImportData(store: map<string, Value>, parsed: Option<Value>, writeOk: string -> bool): (r: (map<string, Value>, bool))
    ensures r.1 <==> parsed.Some? && parsed.value != Null
    ensures forall k | k in store && k !in Keys :: k in r.0 && r.0[k] == store[k]
    ensures forall k | k in r.0 :: k in store || k in Keys
    ensures parsed.Some? && parsed.value.Obj? ==> forall k | k in Keys ::
      var backup := parsed.value.fields;
      if k in backup && Truthy(backup[k]) && writeOk(k) then k in r.0 && r.0[k] == backup[k]
      else (k in r.0 <==> k in store) && (k in store ==> r.0[k] == store[k])
    ensures !(parsed.Some? && parsed.value.Obj?) ==> r.0 == store
  {
    match parsed
    case None => (store, false)
    case Some(Null) => (store, false)
    case Some(Obj(backup)) =>
      var written := map k | k in backup && k in Keys && Truthy(backup[k]) && writeOk(k) :: backup[k];
      (store + written, true)
    case Some(_) => (store, true)
  }
}

=== FILE: tripdetail.dfy ===
/** The trip detail page (js/pages/trip-detail.js) outside the image
    compressor: the star rating text, the date check of the edit form and
    the photo upload of `savePhoto` (guards, default category, inferred
    tags, then the two compressed renditions).

    Dates are compared as day numbers; `None` stands for a date
    `new Date(...)` cannot parse, which compares false with everything.
 */
module TripDetail {
  import opened Common
  import opened ImageSize
  import opened Reencode
  import opened Upload

  const FullStar := '★'
  const EmptyStar := '☆'

  /** `rating || 3`: a missing, unparsable or zero rating counts as 3. */
  function StarCount(rating: Option<int>): int {
    if rating.Some? && rating.value != 0 then rating.value else 3
  }

  /** `'★'.repeat(n) + '☆'.repeat(5 - n)`: five stars, the first `n` full.
      `repeat` throws on a negative count, so a rating outside 0..5 yields
      `None`. */
  function Stars(rating: Option<int>): (r: Option<string>)
    ensures r.Some? <==> 0 <= StarCount(rating) <= 5
    ensures r.Some? ==> |r.value| == 5
    ensures r.Some? ==> forall i | 0 <= i < 5 :: r.value[i] == if i < StarCount(rating) then FullStar else EmptyStar
  {
    var n := StarCount(rating);
    if 0 <= n <= 5 then Some(Repeat(FullStar, n) + Repeat(EmptyStar, 5 - n)) else None
  }

  /** The number of full stars read back from a star text. */
  function CountFull(s: string): nat {
    if |s| == 0 then 0 else (if s[0] == FullStar then 1 else 0) + CountFull(s[1..])
  }

  lemma {:induction false} CountFullOfStars(s: string, n: nat)
    requires n <= |s|
    requires forall i | 0 <= i < |s| :: s[i] == if i < n then FullStar else EmptyStar
    ensures CountFull(s) == n
    decreases |s|
  {
    if |s| > 0 {
      CountFullOfStars(s[1..], if n > 0 then n - 1 else 0);
    }
  }

  /** The star text shows exactly the rating it was made from. */
  lemma StarsShowRating(rating: Option<int>)
    requires 0 <= StarCount(rating) <= 5
    ensures CountFull(Stars(rating).value) == StarCount(rating)
  {
    CountFullOfStars(Stars(rating).value, StarCount(rating));
  }

  /** `new Date(endDate) < new Date(startDate)`. */
  predicate EndsBeforeStart(startDate: Option<int>, endDate: Option<int>) {
    startDate.Some? && endDate.Some? && endDate.value < startDate.value
  }

  datatype EditCheck = MissingFields | DatesOutOfOrder | Proceed

  /** The checks of `saveEdit()` before `updateTrip` is called: the form's
      required fields, then the date order. */
  function CheckEdit(formValid: bool, startDate: Option<int>, endDate: Option<int>): (r: EditCheck)
    ensures r == Proceed <==> formValid && !EndsBeforeStart(startDate, endDate)
    ensures r == DatesOutOfOrder <==> formValid && EndsBeforeStart(startDate, endDate)
  {
    if !formValid then MissingFields
    else if EndsBeforeStart(startDate, endDate) then DatesOutOfOrder
    else Proceed
  }

  /** A trip of one day, or with a date that cannot be parsed, is never
      refused for its dates. */
  lemma CheckEditAcceptsSameDay(startDate: Option<int>, endDate: Option<int>)
    requires startDate == endDate || startDate.None? || endDate.None?
    ensures CheckEdit(true, startDate, endDate) == Proceed
  {
  }

  /** The trip a photo is added to, as far as `savePhoto` looks at it (a
      missing field is the empty string). */
  datatype TripInfo = TripInfo(province: string, city: string)

  /** `旅行/${province}`, or `旅行` without a province. */
  function DefaultCategory(trip: Option<TripInfo>): (r: string)
    ensures trip.Some? && trip.value.province != "" ==> r == "旅行/" + trip.value.province
    ensures !(trip.Some? && trip.value.province != "") ==> r == "旅行"
  {
    if trip.Some? && trip.value.province != "" then "旅行/" + trip.value.province else "旅行"
  }

  /** `[province, city, title.trim()].filter(Boolean)`. */
  function InferredTags(trip: Option<TripInfo>, title: string): (r: seq<string>)
    ensures |r| <= 3
    ensures forall k | 0 <= k < |r| :: r[k] != ""
    ensures Trim(title) != "" ==> Trim(title) in r
    ensures trip.Some? && trip.value.province != "" ==> trip.value.province in r
    ensures trip.Some? && trip.value.city != "" ==> trip.value.city in r
    ensures forall k | 0 <= k < |r| :: r[k] == Trim(title) || (trip.Some? && r[k] in [trip.value.province, trip.value.city])
    // the order is province, city, title
    ensures trip.Some? && trip.value.province != "" ==> r[0] == trip.value.province
    ensures Trim(title) != "" ==> r[|r| - 1] == Trim(title)
  {
    var province := if trip.Some? then trip.value.province else "";
    var city := if trip.Some? then trip.value.city else "";
    FilterThree(province, city, Trim(title));
    Filter([province, city, Trim(title)], NonEmpty)
  }

  predicate NonEmpty(t: string) {
    t != ""
  }

  /** `[s]`, or nothing for the empty string. */
  function Present(s: string): seq<string> {
    if s == "" then [] else [s]
  }

  /** The inferred tags are exactly the non-empty province, city and
      trimmed title, in that order. */
  lemma InferredTagsInOrder(trip: Option<TripInfo>, title: string)
    ensures var province := if trip.Some? then trip.value.province else "";
      var city := if trip.Some? then trip.value.city else "";
      InferredTags(trip, title) == Present(province) + Present(city) + Present(Trim(title))
  {
    var province := if trip.Some? then trip.value.province else "";
    var city := if trip.Some? then trip.value.city else "";
    FilterThree(province, city, Trim(title));
  }

  /** `[a, b, c].filter(Boolean)` keeps the non-empty ones in order. */
  lemma FilterThree(a: string, b: string, c: string)
    ensures Filter([a, b, c], NonEmpty) == Present(a) + Present(b) + Present(c)
  {
    assert [a, b, c] == [a] + [b] + [c];
    FilterAppend([a] + [b], [c], NonEmpty);
    FilterAppend([a], [b], NonEmpty);
    FilterOne(a);
    FilterOne(b);
    FilterOne(c);
  }

  lemma FilterOne(s: string)
    ensures Filter([s], NonEmpty) == Present(s)
  {
    assert [s][1..] == [];
  }

  datatype PhotoUpload =
    | Refused(check: UploadCheck)
    | CompressFailed
    | Ready(image: string, thumbnail: string, category: string, tags: seq<string>)

  /** `savePhoto()` up to the call of `addPhoto`: the file guards with a
      5 MiB limit, then the two renditions of `prepareTripImageAssets`, the
      default category and the inferred tags. */
  function SavePhoto(file: Option<FileInfo>, dataUrl: string, decoded: Option<Dims>, enc: Encoder,
                     trip: Option<TripInfo>, title: string): (r: PhotoUpload)
    ensures r.Refused? <==> CheckUpload(file, FiveMiB) != Accepted
    ensures r.Refused? ==> r.check == CheckUpload(file, FiveMiB)
    ensures r.CompressFailed? <==> CheckUpload(file, FiveMiB) == Accepted && PrepareTripImageAssets(dataUrl, decoded, enc).None?
    ensures r.Ready? ==> file.Some? && file.value.size <= FiveMiB && IsImageType(file.value.mime)
    ensures r.Ready? ==> r.category == DefaultCategory(trip) && r.tags == InferredTags(trip, title)
    ensures r.Ready? ==> Some((r.image, r.thumbnail)) == PrepareTripImageAssets(dataUrl, decoded, enc)
  {
    var check := CheckUpload(file, FiveMiB);
    if check != Accepted then Refused(check)
    else match PrepareTripImageAssets(dataUrl, decoded, enc)
      case None => CompressFailed
      case Some((image, thumbnail)) => Ready(image, thumbnail, DefaultCategory(trip), InferredTags(trip, title))
  }
}

=== FILE: tripmap.dfy ===
/** The trip map page (js/pages/trip.js): trips are grouped by province in
    first-seen order, and every province with trips contributes one map
    entry per name under which the map data may know it. All entries of a
    province carry the same data: the trip count, the colour bucket of that
    count and the date range of the province's last trip. Also the checks
    `saveTrip` runs before a trip is stored.
 */
module TripMap {
  import opened Common
  import opened Digits
  import TripDetail

  datatype Trip = Trip(province: string, startDate: string, endDate: string)

  // ---------------------------------------------------------------------
  // Grouping

  /** The trips of one province, in the order they are stored. */
  function TripsIn(trips: seq<Trip>, province: string): (r: seq<Trip>)
    ensures forall k | 0 <= k < |r| :: r[k].province == province
  {
    Filter(trips, (t: Trip) => t.province == province)
  }

  predicate Visited(trips: seq<Trip>, province: string) {
    exists k | 0 <= k < |trips| :: trips[k].province == province
  }

  /** The distinct provinces of `trips`, in the order of their first trip. */
  function Provinces(trips: seq<Trip>): (r: seq<string>)
    ensures NoDuplicates(r)
    ensures forall p :: p in r <==> Visited(trips, p)
  {
    if |trips| == 0 then []
    else
      var init := trips[..|trips| - 1];
      var p := trips[|trips| - 1].province;
      var ps := Provinces(init);
      VisitedSnoc(init, trips[|trips| - 1]);
      assert init + [trips[|trips| - 1]] == trips;
      if p in ps then ps else ps + [p]
  }

  lemma VisitedSnoc(init: seq<Trip>, t: Trip)
    ensures forall q :: Visited(init + [t], q) <==> Visited(init, q) || q == t.province
  {
    var trips := init + [t];
    forall q ensures Visited(trips, q) <==> Visited(init, q) || q == t.province {
      if Visited(init, q) {
        var k :| 0 <= k < |init| && init[k].province == q;
        assert trips[k] == init[k];
      }
      if q == t.province {
        assert trips[|init|] == t;
      }
      if Visited(trips, q) && q != t.province {
        var k :| 0 <= k < |trips| && trips[k].province == q;
        assert k < |init| && init[k] == trips[k];
      }
    }
  }

  /** A further trip leaves the province order alone when its province was
      seen before, and appends its province otherwise. */
  lemma ProvincesSnoc(trips: seq<Trip>, t: Trip)
    ensures Provinces(trips + [t]) == if t.province in Provinces(trips) then Provinces(trips) else Provinces(trips) + [t.province]
  {
    assert (trips + [t])[..|trips|] == trips;
  }

  /** Adding a trip of an already-seen province keeps the province order;
      a new province goes to the end. */
  lemma TripsInSnoc(trips: seq<Trip>, t: Trip, province: string)
    ensures TripsIn(trips + [t], province)
      == TripsIn(trips, province) + (if t.province == province then [t] else [])
  {
    FilterAppend(trips, [t], (u: Trip) => u.province == province);
  }

  /** The loop of `generateMapSeriesData` that fills `provinceData`: the
      keys in insertion order, and for each the list of its trips. */
  method GroupByProvince(trips: seq<Trip>) returns (order: seq<string>, groups: map<string, seq<Trip>>)
    ensures order == Provinces(trips)
    ensures groups.Keys == set p | p in order
    ensures forall p | p in groups :: groups[p] == TripsIn(trips, p) && groups[p] != []
  {
    order := [];
    groups := map[];
    var i := 0;
    while i < |trips|
      invariant 0 <= i <= |trips|
      invariant order == Provinces(trips[..i])
      invariant groups.Keys == set p | p in order
      invariant forall p | p in groups :: groups[p] == TripsIn(trips[..i], p) && groups[p] != []
    {
      order, groups := GroupTrip(trips, i, order, groups);
      i := i + 1;
    }
    assert trips[..i] == trips;
  }

  /** One turn of the `provinceData` loop: trip `i` joins its province's
      list, which is created, and its province recorded, when new. */
  method GroupTrip(trips: seq<Trip>, i: nat, order: seq<string>, groups: map<string, seq<Trip>>)
    returns (order': seq<string>, groups': map<string, seq<Trip>>)
    requires i < |trips|
    requires order == Provinces(trips[..i])
    requires groups.Keys == set p | p in order
    requires forall p | p in groups :: groups[p] == TripsIn(trips[..i], p) && groups[p] != []
    ensures order' == Provinces(trips[..i + 1])
    ensures groups'.Keys == set p | p in order'
    ensures forall p | p in groups' :: groups'[p] == TripsIn(trips[..i + 1], p) && groups'[p] != []
  {
    var t := trips[i];
    var before := trips[..i];
    assert trips[..i + 1] == before + [t];
    ProvincesSnoc(before, t);
    if t.province !in groups {
      VisitedHasTrips(before, t.province);
      groups' := groups[t.province := [t]];
      order' := order + [t.province];
    } else {
      groups' := groups[t.province := groups[t.province] + [t]];
      order' := order;
    }
    forall p | p in groups' ensures groups'[p] == TripsIn(trips[..i + 1], p) && groups'[p] != [] {
      TripsInSnoc(before, t, p);
    }
  }

  // ---------------------------------------------------------------------
  // Colours

  const Unvisited := "#f0f0f0"

  /** The colour for 0, 1, 2, 3 and 4-or-more visits. */
  const Palette: seq<string> := [Unvisited, "#90CAF9", "#42A5F5", "#1976D2", "#0D47A1"]

  /** The colour bucket of a visit count: the count itself, capped at 4. */
  function Bucket(times: nat): (b: nat)
    ensures b < |Palette|
    ensures b == times || (b == 4 && times >= 4)
  {
    if times >= 4 then 4 else times
  }

  /** The `if` chain choosing `areaColor` from the number of trips. */
  function ColorFor(times: nat): (r: string)
    ensures r == Palette[Bucket(times)]
  {
    if times == 1 then "#90CAF9"
    else if times == 2 then "#42A5F5"
    else if times == 3 then "#1976D2"
    else if times >= 4 then "#0D47A1"
    else Unvisited
  }

  /** Two counts get the same colour exactly when they fall in the same
      bucket: the colour tells 1, 2, 3 and "4 or more" visits apart. */
  lemma ColorForDistinguishesBuckets(a: nat, b: nat)
    ensures ColorFor(a) == ColorFor(b) <==> Bucket(a) == Bucket(b)
  {
    assert NoDuplicates(Palette);
  }

  // ---------------------------------------------------------------------
  // Series entries

  /** One item of the ECharts series (`avgRating` is left out). */
  datatype SeriesEntry = SeriesEntry(name: string, value: nat, trips: seq<Trip>, dateRange: string, color: string)

  /** `${latestTrip.startDate} 至 ${latestTrip.endDate}`. */
  function DateRange(latest: Trip): string {
    latest.startDate + " 至 " + latest.endDate
  }

  /** `PROVINCE_NAME_MAP[province] || [province]`. */
  function Variants(nameMap: map<string, seq<string>>, province: string): (r: seq<string>)
    ensures province in nameMap ==> r == nameMap[province]
    ensures province !in nameMap ==> r == [province]
  {
    // an empty array is still truthy, so a mapped province always uses its entry
    if province in nameMap then nameMap[province] else [province]
  }

  /** The entries of one province, one per name variant. */
  function Block(nameMap: map<string, seq<string>>, province: string, group: seq<Trip>): (r: seq<SeriesEntry>)
    requires group != []
    ensures |r| == |Variants(nameMap, province)|
    ensures forall k | 0 <= k < |r| :: r[k] == SeriesEntry(Variants(nameMap, province)[k], |group|, group,
      DateRange(group[|group| - 1]), ColorFor(|group|))
  {
    var names := Variants(nameMap, province);
    seq(|names|, k requires 0 <= k < |names| =>
      SeriesEntry(names[k], |group|, group, DateRange(group[|group| - 1]), ColorFor(|group|)))
  }

  /** The blocks of the given provinces, in order. */
  function Series(trips: seq<Trip>, nameMap: map<string, seq<string>>, order: seq<string>): seq<SeriesEntry>
    requires forall k | 0 <= k < |order| :: Visited(trips, order[k])
  {
    if |order| == 0 then []
    else
      VisitedHasTrips(trips, order[0]);
      Block(nameMap, order[0], TripsIn(trips, order[0])) + Series(trips, nameMap, order[1..])
  }

  /** A province has trips in the grouping exactly when some trip was
      made there. */
  lemma VisitedHasTrips(trips: seq<Trip>, province: string)
    ensures TripsIn(trips, province) != [] <==> Visited(trips, province)
  {
    var r := TripsIn(trips, province);
    if r != [] {
      assert r[0] in trips;
      var k :| 0 <= k < |trips| && trips[k] == r[0];
      assert trips[k].province == province;
    }
    if Visited(trips, province) {
      var k :| 0 <= k < |trips| && trips[k].province == province;
      assert trips[k] in r;
    }
  }

  /** The value of `generateMapSeriesData()` for the stored trips. */
  function SeriesData(trips: seq<Trip>, nameMap: map<string, seq<string>>): seq<SeriesEntry> {
    Series(trips, nameMap, Provinces(trips))
  }

  /** What every entry says about its province: the count is the number
      of that province's trips, all the entry's trips are that province's
      trips in stored order, the colour is the count's bucket, the date
      range is the last trip's, and the name is one of the variants. */
  predicate Describes(trips: seq<Trip>, nameMap: map<string, seq<string>>, e: SeriesEntry, province: string) {
    e.trips == TripsIn(trips, province)
    && e.trips != []
    && e.value == |e.trips|
    && e.color == ColorFor(e.value)
    && e.dateRange == DateRange(e.trips[|e.trips| - 1])
    && e.name in Variants(nameMap, province)
  }

  /** Every entry of a province's block describes that province. */
  lemma BlockDescribes(trips: seq<Trip>, nameMap: map<string, seq<string>>, province: string)
    requires Visited(trips, province)
    ensures TripsIn(trips, province) != []
    ensures forall e | e in Block(nameMap, province, TripsIn(trips, province)) :: Describes(trips, nameMap, e, province)
  {
    VisitedHasTrips(trips, province);
  }

  lemma {:induction false} SeriesEntriesDescribe(trips: seq<Trip>, nameMap: map<string, seq<string>>, order: seq<string>)
    requires forall k | 0 <= k < |order| :: Visited(trips, order[k])
    ensures forall e | e in Series(trips, nameMap, order) :: exists p | p in order :: Describes(trips, nameMap, e, p)
  {
    if |order| > 0 {
      SeriesEntriesDescribe(trips, nameMap, order[1..]);
      BlockDescribes(trips, nameMap, order[0]);
      var b := Block(nameMap, order[0], TripsIn(trips, order[0]));
      var rest := Series(trips, nameMap, order[1..]);
      assert Series(trips, nameMap, order) == b + rest;
      forall e | e in b + rest
        ensures exists p | p in order :: Describes(trips, nameMap, e, p)
      {
        if e in b {
          assert Describes(trips, nameMap, e, order[0]);
        } else {
          var p :| p in order[1..] && Describes(trips, nameMap, e, p);
          assert p in order;
        }
      }
    }
  }

  lemma {:induction false} SeriesCoversVariants(trips: seq<Trip>, nameMap: map<string, seq<string>>, order: seq<string>, province: string, name: string)
    requires forall k | 0 <= k < |order| :: Visited(trips, order[k])
    requires province in order && name in Variants(nameMap, province)
    ensures exists e | e in Series(trips, nameMap, order) :: e.name == name && Describes(trips, nameMap, e, province)
  {
    BlockDescribes(trips, nameMap, order[0]);
    var b := Block(nameMap, order[0], TripsIn(trips, order[0]));
    var rest := Series(trips, nameMap, order[1..]);
    assert Series(trips, nameMap, order) == b + rest;
    if order[0] == province {
      var j :| 0 <= j < |Variants(nameMap, province)| && Variants(nameMap, province)[j] == name;
      assert b[j].name == name && b[j] in b;
      assert b[j] in b + rest;
    } else {
      assert province in order[1..];
      SeriesCoversVariants(trips, nameMap, order[1..], province, name);
      var e :| e in rest && e.name == name && Describes(trips, nameMap, e, province);
      assert e in b + rest;
    }
  }

  /** Every map entry describes one visited province, and every name
      variant of every visited province has an entry describing it. */
  lemma SeriesDataSound(trips: seq<Trip>, nameMap: map<string, seq<string>>)
    ensures forall e | e in SeriesData(trips, nameMap) :: exists p :: Visited(trips, p) && Describes(trips, nameMap, e, p)
    ensures forall t, name | t in trips && name in Variants(nameMap, t.province) ::
      exists e | e in SeriesData(trips, nameMap) :: e.name == name && Describes(trips, nameMap, e, t.province)
  {
    var order := Provinces(trips);
    SeriesEntriesDescribe(trips, nameMap, order);
    forall e | e in SeriesData(trips, nameMap) ensures exists p :: Visited(trips, p) && Describes(trips, nameMap, e, p) {
      var p :| p in order && Describes(trips, nameMap, e, p);
      assert Visited(trips, p);
    }
    forall t, name | t in trips && name in Variants(nameMap, t.province)
      ensures exists e | e in SeriesData(trips, nameMap) :: e.name == name && Describes(trips, nameMap, e, t.province)
    {
      var k :| 0 <= k < |trips| && trips[k] == t;
      assert Visited(trips, t.province);
      SeriesCoversVariants(trips, nameMap, order, t.province, name);
    }
  }

  /** Every entry's value is the positive length of its trip list, and its
      colour is that count's colour. */
  lemma SeriesEntriesCounted(trips: seq<Trip>, nameMap: map<string, seq<string>>)
    ensures forall e | e in SeriesData(trips, nameMap) :: e.value > 0 && e.value == |e.trips| && e.color == ColorFor(e.value)
  {
    SeriesDataSound(trips, nameMap);
    forall e | e in SeriesData(trips, nameMap) ensures e.value > 0 && e.value == |e.trips| && e.color == ColorFor(e.value) {
      var p :| Visited(trips, p) && Describes(trips, nameMap, e, p);
    }
  }

  lemma SeriesFrom(trips: seq<Trip>, nameMap: map<string, seq<string>>, order: seq<string>, i: nat)
    requires i < |order|
    requires forall k | 0 <= k < |order| :: Visited(trips, order[k])
    ensures TripsIn(trips, order[i]) != []
    ensures Series(trips, nameMap, order[i..])
      == Block(nameMap, order[i], TripsIn(trips, order[i])) + Series(trips, nameMap, order[i + 1..])
  {
    VisitedHasTrips(trips, order[i]);
    assert order[i..][1..] == order[i + 1..];
  }

  /** The series built from the loop's grouping is the reference series. */
  method GenerateMapSeriesData(trips: seq<Trip>, nameMap: map<string, seq<string>>) returns (series: seq<SeriesEntry>)
    ensures series == SeriesData(trips, nameMap)
    ensures forall e | e in series :: e.value > 0 && e.value == |e.trips| && e.color == ColorFor(e.value)
  {
    var order, groups := GroupByProvince(trips);
    series := [];
    var i := |order|;
    while i > 0
      invariant 0 <= i <= |order|
      invariant forall k | 0 <= k < |order| :: Visited(trips, order[k])
      invariant series == Series(trips, nameMap, order[i..])
    {
      i := i - 1;
      SeriesFrom(trips, nameMap, order, i);
      series := Block(nameMap, order[i], groups[order[i]]) + series;
    }
    SeriesEntriesCounted(trips, nameMap);
  }
  // ---------------------------------------------------------------------
  // Name variants

  /** `PROVINCE_NAME_MAP`: the names under which map data sources know each
      province. */
  const ProvinceNameMap: map<string, seq<string>> := map[
    "北京" := ["北京", "北京市", "Beijing"],
    "天津" := ["天津", "天津市", "Tianjin"],
    "河北" := ["河北", "河北省", "Hebei"],
    "山西" := ["山西", "山西省", "Shanxi"],
    "内蒙古" := ["内蒙古", "内蒙古自治区", "Inner Mongolia"],
    "辽宁" := ["辽宁", "辽宁省", "Liaoning"],
    "吉林" := ["吉林", "吉林省", "Jilin"],
    "黑龙江" := ["黑龙江", "黑龙江省", "Heilongjiang"],
    "上海" := ["上海", "上海市", "Shanghai"],
    "江苏" := ["江苏", "江苏省", "Jiangsu"],
    "浙江" := ["浙江", "浙江省", "Zhejiang"],
    "安徽" := ["安徽", "安徽省", "Anhui"],
    "福建" := ["福建", "福建省", "Fujian"],
    "江西" := ["江西", "江西省", "Jiangxi"],
    "山东" := ["山东", "山东省", "Shandong"],
    "河南" := ["河南", "河南省", "Henan"],
    "湖北" := ["湖北", "湖北省", "Hubei"],
    "湖南" := ["湖南", "湖南省", "Hunan"],
    "广东" := ["广东", "广东省", "Guangdong"],
    "广西" := ["广西", "广西壮族自治区", "Guangxi"],
    "海南" := ["海南", "海南省", "Hainan"],
    "重庆" := ["重庆", "重庆市", "Chongqing"],
    "四川" := ["四川", "四川省", "Sichuan"],
    "贵州" := ["贵州", "贵州省", "Guizhou"],
    "云南" := ["云南", "云南省", "Yunnan"],
    "西藏" := ["西藏", "西藏自治区", "Tibet", "Xizang"],
    "陕西" := ["陕西", "陕西省", "Shaanxi"],
    "甘肃" := ["甘肃", "甘肃省", "Gansu"],
    "青海" := ["青海", "青海省", "Qinghai"],
    "宁夏" := ["宁夏", "宁夏回族自治区", "Ningxia"],
    "新疆" := ["新疆", "新疆维吾尔自治区", "Xinjiang"],
    "台湾" := ["台湾", "台湾省", "Taiwan"],
    "香港" := ["香港", "香港特别行政区", "Hong Kong"],
    "澳门" := ["澳门", "澳门特别行政区", "Macao"]
  ]

  /** Beijing is drawn under its short name, its full name and its English
      name; a name the map lacks is drawn under itself alone. */
  lemma VariantsExample()
    ensures Variants(ProvinceNameMap, "北京") == ["北京", "北京市", "Beijing"]
    ensures Variants(ProvinceNameMap, "Atlantis") == ["Atlantis"]
  {
    assert ProvinceNameMap["北京"] == ["北京", "北京市", "Beijing"];
    assert "Atlantis" !in ProvinceNameMap.Keys;
  }

  /** Every province is among its own name variants, so a trip's own
      province name always gets an entry. */
  lemma OwnNameIsVariant(province: string)
    ensures province in Variants(ProvinceNameMap, province)
  {
    if province in ProvinceNameMap {
      assert ProvinceNameMap[province][0] == province;
    }
  }

  // ---------------------------------------------------------------------
  // Saving a trip

  /** `parseInt(value || '3')` for a rating select value: an empty value
      counts as 3; otherwise `parseInt` decides, `None` being NaN. */
  function ParseRating(value: string): (r: Option<int>)
    ensures value == "" ==> r == Some(3)
    ensures value != "" ==> r == ParseInt(value)
  {
    if value == "" then DefaultRating(); ParseInt("3") else ParseInt(value)
  }

  /** The default rating text reads as 3. */
  lemma DefaultRating()
    ensures ParseInt("3") == Some(3)
  {
    ParseIntOfNatToString(3, "");
    assert NatToString(3) + "" == "3";
  }

  /** A rating written by the select (a decimal number) is read back. */
  lemma ParseRatingOfNumber(n: nat)
    ensures ParseRating(NatToString(n)) == Some(n)
  {
    ParseIntOfIntToString(n, "");
    assert IntToString(n) + "" == NatToString(n);
  }

  datatype NewTrip = NewTrip(trip: Trip, description: string, companions: string, rating: Option<int>)

  datatype SaveTripOutcome = MissingFields | DatesOutOfOrder | Add(newTrip: NewTrip)

  /** `saveTrip()` up to `addTrip`: the required fields, the date order,
      then the new trip (with no photos yet). */
  function SaveTrip(formValid: bool, province: string, startDate: string, endDate: string,
                    startDay: Option<int>, endDay: Option<int>,
                    description: string, companions: string, ratingValue: string): (r: SaveTripOutcome)
    ensures r.MissingFields? <==> !formValid
    ensures r.DatesOutOfOrder? <==> formValid && TripDetail.EndsBeforeStart(startDay, endDay)
    ensures r.Add? ==> r.newTrip.trip == Trip(province, startDate, endDate)
    ensures r.Add? ==> r.newTrip.description == description && r.newTrip.companions == companions
    ensures r.Add? ==> r.newTrip.rating == ParseRating(ratingValue)
    ensures r.Add? && ratingValue == "" ==> r.newTrip.rating == Some(3)
  {
    if !formValid then MissingFields
    else if TripDetail.EndsBeforeStart(startDay, endDay) then DatesOutOfOrder
    else Add(NewTrip(Trip(province, startDate, endDate), description, companions, ParseRating(ratingValue)))
  }

  /** `saveTrip` and `saveEdit` refuse exactly the same date pairs. */
  lemma SaveTripAgreesWithEdit(formValid: bool, province: string, startDate: string, endDate: string,
                               startDay: Option<int>, endDay: Option<int>,
                               description: string, companions: string, ratingValue: string)
    ensures SaveTrip(formValid, province, startDate, endDate, startDay, endDay, description, companions, ratingValue).Add?
      <==> TripDetail.CheckEdit(formValid, startDay, endDay) == TripDetail.Proceed
  {
  }
}

=== FILE: upload.dfy ===
/** The checks every page runs on a chosen image file before reading it:
    a file must be present, its MIME type must start with `image/`, and its
    size must not exceed the page's limit (2 MiB on the hobby and work
    forms, 5 MiB for trip photos). The type is checked before the size.
 */
module Upload {
  import opened Common

  datatype FileInfo = FileInfo(mime: string, size: nat)

  datatype UploadCheck = NoFile | NotImage | TooLarge | Accepted

  const TwoMiB: nat := 2 * 1024 * 1024
  const FiveMiB: nat := 5 * 1024 * 1024

  const ImagePrefix := "image/"

  /** `file.type.startsWith('image/')`. */
  predicate IsImageType(mime: string) {
    ImagePrefix <= mime
  }

  /** The guard of `handleImageSelect` (hobby and work forms) and of
      `savePhoto` (trip detail), with the page's size limit. */
  function CheckUpload(file: Option<FileInfo>, limit: nat): (r: UploadCheck)
    ensures r == NoFile <==> file.None?
    ensures r == NotImage <==> file.Some? && !IsImageType(file.value.mime)
    ensures r == TooLarge <==> file.Some? && IsImageType(file.value.mime) && file.value.size > limit
    ensures r == Accepted <==> file.Some? && IsImageType(file.value.mime) && file.value.size <= limit
  {
    if file.None? then NoFile
    else if !IsImageType(file.value.mime) then NotImage
    else if file.value.size > limit then TooLarge
    else Accepted
  }

  /** A file accepted under a limit is accepted under any larger one, and a
      refusal for its type does not depend on the limit. */
  lemma CheckUploadMonotone(file: Option<FileInfo>, small: nat, large: nat)
    requires small <= large
    ensures CheckUpload(file, small) == Accepted ==> CheckUpload(file, large) == Accepted
    ensures CheckUpload(file, small) == NotImage <==> CheckUpload(file, large) == NotImage
  {
  }

  /** Whatever the hobby and work forms accept, the trip page accepts. */
  lemma FormUploadsFitTripLimit(file: Option<FileInfo>)
    ensures CheckUpload(file, TwoMiB) == Accepted ==> CheckUpload(file, FiveMiB) == Accepted
  {
    CheckUploadMonotone(file, TwoMiB, FiveMiB);
  }
}

=== FILE: works.dfy ===
/** The pages of a hobby's works: adding a work (js/pages/work-add.js),
    editing one (js/pages/work-edit.js), and showing and deleting one
    (js/pages/work-detail.js). Each page finds the first hobby with the id
    from the address and writes the hobby's new `works` list back with
    `updateHobby`, which finds that same hobby again in the same store.
 */
module Works {
  import opened Common
  import opened Hobbies
  import opened FormImage

  /** The raw form fields. */
  datatype WorkForm = WorkForm(title: string, createDate: string, description: string)

  datatype Rejection = TitleMissing | CreateDateMissing | NoSuchHobby | NoSuchWork | WriteFailed

  /** `Crashed`: the stored hobby has no `works` list and the page calls a
      method on it; the error escapes the handler and nothing is written. */
  datatype Submitted = Rejected(why: Rejection) | Crashed | Stored(hobbies: seq<Hobby>)

  /** The title is checked before the creation date. */
  function Validate(form: WorkForm): (r: Option<Rejection>)
    ensures r == Some(TitleMissing) <==> Trim(form.title) == ""
    ensures r == Some(CreateDateMissing) <==> Trim(form.title) != "" && form.createDate == ""
    ensures r.None? <==> Trim(form.title) != "" && form.createDate != ""
  {
    if Trim(form.title) == "" then Some(TitleMissing)
    else if form.createDate == "" then Some(CreateDateMissing)
    else None
  }

  /** The fields of `w` the forms set: title and description trimmed, the
      date as entered, and the image. */
  predicate FromForm(w: Work, form: WorkForm, image: string) {
    && w.title == Trim(form.title)
    && w.image == image
    && w.createDate == form.createDate
    && w.description == Trim(form.description)
  }

  function NewWork(id: string, form: WorkForm, image: string): (r: Work)
    ensures r.id == id && FromForm(r, form, image)
  {
    Work(id, Trim(form.title), image, form.createDate, Trim(form.description))
  }

  /** The store with hobby `i`'s works replaced. */
  function WithWorks(hobbies: seq<Hobby>, i: int, works: seq<Work>): (r: seq<Hobby>)
    requires 0 <= i < |hobbies|
    ensures |r| == |hobbies| && r[i].works == Some(works)
    ensures r[i] == hobbies[i].(works := Some(works))
    ensures forall k | 0 <= k < |hobbies| && k != i :: r[k] == hobbies[k]
  {
    hobbies[i := hobbies[i].(works := Some(works))]
  }

  // ---------------------------------------------------------------------
  // Adding

  /** work-add.js `handleSubmit()`: after validation the hobby is looked
      up, its missing `works` list created, and the new work appended.
      `freshId` is what `generateId` returns. */
  function AddWork(form: WorkForm, current: Option<string>, placeholder: string, freshId: string,
                   hobbyId: Option<string>, hobbies: seq<Hobby>, writeOk: bool): (r: Submitted)
    ensures Validate(form).Some? ==> r == Rejected(Validate(form).value)
    ensures r == Rejected(NoSuchHobby) <==> Validate(form).None? && FindHobby(hobbies, hobbyId).None?
    ensures r.Stored? <==> Validate(form).None? && FindHobby(hobbies, hobbyId).Some? && writeOk
    ensures !r.Crashed? && r != Rejected(NoSuchWork)
    ensures r.Stored? ==> exists i :: (FirstWithId(hobbies, hobbyId.value, i)
      && r.hobbies == WithWorks(hobbies, i, WorksOf(hobbies[i]) + [NewWork(freshId, form, CoverOf(current, placeholder))]))
  {
    match Validate(form)
    case Some(why) => Rejected(why)
    case None =>
      match FindHobby(hobbies, hobbyId)
      case None => Rejected(NoSuchHobby)
      case Some(i) =>
        var work := NewWork(freshId, form, CoverOf(current, placeholder));
        if writeOk then Stored(WithWorks(hobbies, i, WorksOf(hobbies[i]) + [work]))
        else Rejected(WriteFailed)
  }

  // ---------------------------------------------------------------------
  // Opening a work

  datatype WorkPage = MissingParams | HobbyMissing | WorkMissing | Showing(hobby: Hobby, work: Work)

  function HasWorkId(id: string): Work -> bool {
    (w: Work) => w.id == id
  }

  /** `initPage()` of the edit and detail pages (the same code on both):
      both ids are required, then the first hobby with its id, then the
      first of its works (`works || []`) with the work id. */
  function OpenWork(hobbyId: Option<string>, workId: Option<string>, hobbies: seq<Hobby>): (r: WorkPage)
    ensures r.MissingParams? <==> !Present(hobbyId) || !Present(workId)
    ensures r.HobbyMissing? <==> Present(hobbyId) && Present(workId) && FindHobby(hobbies, hobbyId).None?
    ensures r.WorkMissing? <==> (Present(hobbyId) && Present(workId) && FindHobby(hobbies, hobbyId).Some?
      && forall k | 0 <= k < |WorksOf(hobbies[FindHobby(hobbies, hobbyId).value])| ::
           WorksOf(hobbies[FindHobby(hobbies, hobbyId).value])[k].id != workId.value)
    ensures r.Showing? ==> exists i :: FirstWithId(hobbies, hobbyId.value, i) && r.hobby == hobbies[i]
    ensures r.Showing? ==> r.work in WorksOf(r.hobby) && r.work.id == workId.value
  {
    if !Present(hobbyId) || !Present(workId) then MissingParams
    else match FindHobby(hobbies, hobbyId)
      case None => HobbyMissing
      case Some(i) =>
        var works := WorksOf(hobbies[i]);
        match FindIndex(works, HasWorkId(workId.value))
        case None => WorkMissing
        case Some(j) => Showing(hobbies[i], works[j])
  }

  /** A work just added opens on the work pages, when its id is new among
      the hobby's works. */
  lemma AddedWorkOpens(form: WorkForm, current: Option<string>, placeholder: string, freshId: string,
                       hobbyId: string, hobbies: seq<Hobby>, i: int)
    requires hobbyId != "" && freshId != "" && FirstWithId(hobbies, hobbyId, i)
    requires forall k | 0 <= k < |WorksOf(hobbies[i])| :: WorksOf(hobbies[i])[k].id != freshId
    requires Validate(form).None?
    ensures var r := AddWork(form, current, placeholder, freshId, Some(hobbyId), hobbies, true);
      && r.Stored?
      && OpenWork(Some(hobbyId), Some(freshId), r.hobbies)
           == Showing(r.hobbies[i], NewWork(freshId, form, CoverOf(current, placeholder)))
  {
    var w := NewWork(freshId, form, CoverOf(current, placeholder));
    var works := WorksOf(hobbies[i]) + [w];
    var hs := WithWorks(hobbies, i, works);
    FindHobbyAfterUpdate(hobbies, hobbyId, i, hs[i]);
    assert hobbies[i := hs[i]] == hs;
    FindIndexFirst(works, HasWorkId(freshId), |works| - 1);
  }

  // ---------------------------------------------------------------------
  // Editing

  /** The work after `{ ...work, ...updates }`: the form's fields replace
      the old ones and the id stays. */
  function MergedWork(w: Work, form: WorkForm, image: string): (r: Work)
    ensures r.id == w.id && FromForm(r, form, image)
  {
    w.(title := Trim(form.title), image := image, createDate := form.createDate,
       description := Trim(form.description))
  }

  /** Work `j` is the first in `works` with the id. */
  predicate FirstWork(works: seq<Work>, id: string, j: int) {
    && 0 <= j < |works| && works[j].id == id
    && forall k | 0 <= k < j :: works[k].id != id
  }

  /** The first work with the id, if the page's `workId` is not null. */
  function FindWork(works: seq<Work>, workId: Option<string>): (r: Option<nat>)
    ensures r.None? <==> workId.None? || forall k | 0 <= k < |works| :: works[k].id != workId.value
    ensures r.Some? ==> FirstWork(works, workId.value, r.value)
  {
    if workId.None? then None else FindIndex(works, HasWorkId(workId.value))
  }

  /** work-edit.js `handleSubmit()`: after validation the hobby is looked
      up again, the work's index found with `hobby.works.findIndex`, and
      only that work merged with the form's fields. */
  function EditWork(form: WorkForm, current: Option<string>, placeholder: string,
                    hobbyId: Option<string>, workId: Option<string>, hobbies: seq<Hobby>, writeOk: bool): (r: Submitted)
    ensures Validate(form).Some? ==> r == Rejected(Validate(form).value)
    ensures r == Rejected(NoSuchHobby) <==> Validate(form).None? && FindHobby(hobbies, hobbyId).None?
    ensures r.Crashed? <==> (Validate(form).None? && FindHobby(hobbies, hobbyId).Some?
      && hobbies[FindHobby(hobbies, hobbyId).value].works.None?)
    ensures r == Rejected(NoSuchWork) <==> (Validate(form).None? && FindHobby(hobbies, hobbyId).Some?
      && hobbies[FindHobby(hobbies, hobbyId).value].works.Some?
      && FindWork(hobbies[FindHobby(hobbies, hobbyId).value].works.value, workId).None?)
    ensures r == Rejected(WriteFailed) ==> !writeOk
    // a valid edit of a work that exists is stored when the write succeeds
    ensures r.Stored? <==> (Validate(form).None? && writeOk && FindHobby(hobbies, hobbyId).Some?
      && hobbies[FindHobby(hobbies, hobbyId).value].works.Some?
      && FindWork(hobbies[FindHobby(hobbies, hobbyId).value].works.value, workId).Some?)
    ensures r.Stored? ==> writeOk && exists i, j :: (FirstWithId(hobbies, hobbyId.value, i)
      && hobbies[i].works.Some? && FirstWork(hobbies[i].works.value, workId.value, j)
      && r.hobbies == WithWorks(hobbies, i,
           hobbies[i].works.value[j := MergedWork(hobbies[i].works.value[j], form, CoverOf(current, placeholder))]))
  {
    match Validate(form)
    case Some(why) => Rejected(why)
    case None =>
      match FindHobby(hobbies, hobbyId)
      case None => Rejected(NoSuchHobby)
      case Some(i) =>
        if hobbies[i].works.None? then Crashed
        else
          var works := hobbies[i].works.value;
          match FindWork(works, workId)
          case None => Rejected(NoSuchWork)
          case Some(j) =>
            var merged := MergedWork(works[j], form, CoverOf(current, placeholder));
            if writeOk then Stored(WithWorks(hobbies, i, works[j := merged])) else Rejected(WriteFailed)
  }

  /** After an edit the work pages open the edited work, carrying the
      form's fields under its old id. */
  lemma EditedWorkOpens(form: WorkForm, current: Option<string>, placeholder: string,
                        hobbyId: string, workId: string, hobbies: seq<Hobby>)
    requires hobbyId != "" && workId != ""
    requires EditWork(form, current, placeholder, Some(hobbyId), Some(workId), hobbies, true).Stored?
    ensures var r := EditWork(form, current, placeholder, Some(hobbyId), Some(workId), hobbies, true);
      var page := OpenWork(Some(hobbyId), Some(workId), r.hobbies);
      page.Showing? && page.work.id == workId && FromForm(page.work, form, CoverOf(current, placeholder))
  {
    var i := FindHobby(hobbies, Some(hobbyId)).value;
    var works := hobbies[i].works.value;
    var j := FindWork(works, Some(workId)).value;
    var merged := MergedWork(works[j], form, CoverOf(current, placeholder));
    var edited := works[j := merged];
    var hs := WithWorks(hobbies, i, edited);
    FindHobbyAfterUpdate(hobbies, hobbyId, i, hs[i]);
    assert hobbies[i := hs[i]] == hs;
    FindIndexFirst(edited, HasWorkId(workId), j);
  }

  // ---------------------------------------------------------------------
  // Deleting

  /** `w => w.id !== workId`; with a null `workId` every work is kept. */
  function KeepWork(workId: Option<string>): Work -> bool {
    (w: Work) => workId != Some(w.id)
  }

  /** work-detail.js `handleDelete()`: the hobby is looked up again and
      every work with the id is filtered out of `hobby.works`. */
  function DeleteWork(hobbyId: Option<string>, workId: Option<string>, hobbies: seq<Hobby>, writeOk: bool): (r: Submitted)
    ensures r == Rejected(NoSuchHobby) <==> FindHobby(hobbies, hobbyId).None?
    ensures r.Crashed? <==> FindHobby(hobbies, hobbyId).Some? && hobbies[FindHobby(hobbies, hobbyId).value].works.None?
    ensures r.Stored? <==> (writeOk && FindHobby(hobbies, hobbyId).Some?
      && hobbies[FindHobby(hobbies, hobbyId).value].works.Some?)
    ensures r.Stored? ==> exists i :: (FirstWithId(hobbies, hobbyId.value, i) && hobbies[i].works.Some?
      && r.hobbies == WithWorks(hobbies, i, Filter(hobbies[i].works.value, KeepWork(workId))))
    ensures r.Stored? ==> forall i, w | FirstWithId(hobbies, hobbyId.value, i) ::
      w in WorksOf(r.hobbies[i]) <==> w in WorksOf(hobbies[i]) && Some(w.id) != workId
  {
    match FindHobby(hobbies, hobbyId)
    case None => Rejected(NoSuchHobby)
    case Some(i) =>
      if hobbies[i].works.None? then Crashed
      else if writeOk then Stored(WithWorks(hobbies, i, Filter(hobbies[i].works.value, KeepWork(workId))))
      else Rejected(WriteFailed)
  }

  /** With distinct work ids, deleting a work splices out exactly that
      work and keeps the others in order. */
  lemma DeleteSplicesOut(hobbyId: string, workId: string, hobbies: seq<Hobby>, i: int, j: int)
    requires FirstWithId(hobbies, hobbyId, i) && hobbies[i].works.Some?
    requires var works := hobbies[i].works.value;
      0 <= j < |works| && works[j].id == workId
      && forall k | 0 <= k < |works| && k != j :: works[k].id != workId
    ensures var works := hobbies[i].works.value;
      DeleteWork(Some(hobbyId), Some(workId), hobbies, true) == Stored(WithWorks(hobbies, i, works[..j] + works[j + 1..]))
  {
    FilterDropsOne(hobbies[i].works.value, KeepWork(Some(workId)), j);
  }

  /** Deleting a work just added gives back the hobby's works as they were
      (a missing list comes back empty). */
  lemma DeleteUndoesAdd(form: WorkForm, current: Option<string>, placeholder: string, freshId: string,
                        hobbyId: string, hobbies: seq<Hobby>, i: int)
    requires FirstWithId(hobbies, hobbyId, i) && Validate(form).None?
    requires forall k | 0 <= k < |WorksOf(hobbies[i])| :: WorksOf(hobbies[i])[k].id != freshId
    ensures var added := AddWork(form, current, placeholder, freshId, Some(hobbyId), hobbies, true);
      && added.Stored?
      && DeleteWork(Some(hobbyId), Some(freshId), added.hobbies, true)
           == Stored(WithWorks(hobbies, i, WorksOf(hobbies[i])))
  {
    var w := NewWork(freshId, form, CoverOf(current, placeholder));
    var before := WorksOf(hobbies[i]);
    var hs := WithWorks(hobbies, i, before + [w]);
    assert AddWork(form, current, placeholder, freshId, Some(hobbyId), hobbies, true) == Stored(hs);
    FindHobbyAfterUpdate(hobbies, hobbyId, i, hs[i]);
    assert hobbies[i := hs[i]] == hs;
    DropAdded(before, w);
    assert DeleteWork(Some(hobbyId), Some(freshId), hs, true) == Stored(WithWorks(hs, i, before));
    assert WithWorks(hs, i, before) == WithWorks(hobbies, i, before);
  }

  /** Filtering out a work appended to works without its id gives the
      works back. */
  lemma DropAdded(before: seq<Work>, w: Work)
    requires forall k | 0 <= k < |before| :: before[k].id != w.id
    ensures Filter(before + [w], KeepWork(Some(w.id))) == before
  {
    var keep := KeepWork(Some(w.id));
    FilterAppend(before, [w], keep);
    FilterKeepsAll(before, keep);
    assert Filter([w], keep) == [];
  }
}
